=== FILE: README.md ===
# bob.devtools CI and release logic, in Dafny

This project models the decision logic of bob.devtools, the tooling that builds, publishes, mirrors and patches the conda packages of the Bob toolkit. Each piece is a pure Dafny function over strings, sequences, sets and maps, with its properties proved. Everything that talks to git, GitLab, WebDAV, conda, mamba or the file system is replaced by a parameter: an oracle function or an input value.

One module per source file of the core:

| module | file | models |
|---|---|---|
| `Configurator`, `Condarc` | configurator.dfy, condarc.dfy | the channels a CI build reads from (`_get_channels`) and the condarc `channels:` block it writes |
| `CiBootstrap` | ci_bootstrap.dfy | the bootstrap script's local channels, per-mode channel choice, `urls.txt` merge and condarc append |
| `NextBuild` | next_build.dfy | the upload channel and the next build number over a channel index, with the urls of the matching builds |
| `BuildNumber` | build_number.dfy | the build-number loop of `build.py`, matching an exact `pyXY` tag |
| `Stability` | stability.dfy | `is_master` and `is_stable`, with distutils' LooseVersion tokenisation of the tag |
| `Deploy` | deploy.dfy | the deploy plan: candidate packages, refuse-if-exists uploads, dry-run, documentation destinations |
| `OrderFile` | order_file.dfy | the order-file reader `read_packages` |
| `Mirror` | mirror.dfy | glob lists, blacklist filtering, local listing, the mirror transaction, checksum choice and the retry loop |
| `RepodataPatch` | repodata_patch.dfy | the index rewrite, the patch-instruction diff and the per-platform removals |
| `EnvBootstrap` | env_bootstrap.dfy | `remove_pins`, `parse_dependencies`, `get_env_directory` and `conda_create` |
| `Graph` | graph.dfy | the memoised dependency traversal, the dependency filter and the drawn edges |
| `Cli` | cli.dfy | prefix-alias command resolution and the exit-code wrapper |
| `Environment` | environment.dfy | `set_environment` as a map update |
| `CondaSkip` | conda_skip.dfy | `should_skip_build` |
| `Sections` | sections.dfy | the marker-delimited section both update commands rewrite |
| `UpdateBob` | update_bob.dfy | the public/private partition, the `meta.yaml` splice and `requirements.txt` |
| `UpdatePins` | update_pins.dfy | mamba's report parser, the pins and the `conda_build_config.yaml` splice |
| `Text`, `Sorting`, `Wrappers` | text.dfy, sorting.dfy, wrappers.dfy | Python's `str` methods, `sorted`, and `Option`/`Result` for `None` and raised errors |

Oracles and inputs:
- whether a tag's commit is in master's history;
- whether a path exists on the WebDAV server;
- a project's visibility;
- glob matching (`fnmatch`);
- version ordering (`packaging.version`);
- what `conda search` reports for a package;
- each command's exit status;
- mamba's output;
- directory listings;
- the channel index.

A raised Python exception becomes a `Failure` value naming the error.

Where the sources disagree, the model follows the code that defines the function:
- `bdt.py` imports `set_environment` from `bootstrap.py` and passes `verbose=False`. The shown `bootstrap.py` defines no such function. The model follows the definition in `constants.py`.
- `update_bob.py` imports `read_packages` from `ci.py`, which does not define it. The model uses the reader in `scripts/__init__.py`.
- `scripts/ci.py` calls `is_stable` with three arguments, but it takes four. The deploy model takes the stability verdict as an input.

Two parts of Python's behaviour are modelled explicitly:
- Where a marker is missing, `str.find`'s -1 is kept, and slicing follows Python's rules for negative indices.
- `str.replace` removes occurrences in one left-to-right pass.

## Model

| member | source | states |
|---|---|---|
| Condarc.ChannelLines | bob/devtools/data/gitlab-ci/conda-configurator.py:110-112 | the block is empty exactly when there are no channels, and otherwise ends with a line break |
| Condarc.ParseChannelLines | bob/devtools/data/gitlab-ci/conda-configurator.py:110-112 | reading a block back gives at most one channel per line, and no channel read back spans two lines |
| Condarc.ChannelLinesRoundTrip | bob/devtools/data/gitlab-ci/conda-configurator.py:110-112 | the block of "  - k" lines, one per channel, reads back as the same channel list in the same order, provided no channel holds a line break |
| Configurator.GetChannels | bob/devtools/data/gitlab-ci/conda-configurator.py:55-85 | it fails exactly for a private package off the intranet; otherwise there are 2 channels for a public package and 3 for a private one: first the group's public channel, then the private channel (present iff private), then "conda-forge" last; every server channel carries "/label/beta" iff not stable |
| Configurator.BetaSuffix | bob/devtools/data/gitlab-ci/conda-configurator.py:67-81 | a channel built on ".../conda" ends in "/label/beta" exactly when it is not stable |
| Configurator.PrivateChannelNotConfused | bob/devtools/data/gitlab-ci/conda-configurator.py:66-83 | the private channel is neither the public channel nor "conda-forge", so its membership decides visibility |
| Configurator.Run | bob/devtools/data/gitlab-ci/conda-configurator.py:90-112 | the script exits 1 iff it is not given exactly four arguments; otherwise it writes the condarc at the fourth argument, holding the base text and then one item line per channel of the intranet resolution, with public meaning visibility "public" and stable meaning a non-empty tag |
| Configurator.ChannelsSingleLine | bob/devtools/data/gitlab-ci/conda-configurator.py:66-83 | no resolved channel holds a line break when the group name holds none |
| Configurator.ChannelsOneLine | bob/devtools/data/gitlab-ci/conda-configurator.py:66-83 | for any server and group name without a line break, no resolved channel holds one |
| Configurator.RunListsChannels | bob/devtools/data/gitlab-ci/conda-configurator.py:100-112 | the written condarc starts with the base text, and its channel block reads back as exactly the resolved channels in priority order |
| CiBootstrap.LocalChannels | ci/bootstrap.py:178-196 | it raises exactly when the visibility variable is missing; otherwise public means visibility "public" and stable means a tag variable is set; there are 1, 2, 2 or 4 channels for public-stable, public-beta, private-stable and private-beta; the public stable channel is last; a beta channel appears iff not stable, a private channel iff not public; the channels are distinct and drawn from the four known ones, every private channel precedes every public one, and within each visibility beta precedes stable |
| CiBootstrap.LocalChannelsSelect | ci/bootstrap.py:182-194 | the list is the four known channels in their fixed order (private beta, private stable, public beta, public stable), less the private ones for a public project and the beta ones when a tag is built |
| CiBootstrap.Select | ci/bootstrap.py:182-194 | the filter keeps no more channels than it is given |
| CiBootstrap.SelectWanted | ci/bootstrap.py:182-194 | a channel is kept exactly when it was given and the visibility and the tag rule allow it |
| CiBootstrap.MergeUrls | ci/bootstrap.py:114-119 | the merged urls.txt is strictly increasing, so free of duplicates, and holds exactly the lines of either file |
| CiBootstrap.AddChannelsCondarc | ci/bootstrap.py:199-205 | the appended condarc keeps the existing text, adds "channels:" and then item lines that read back as the channel list in order, provided no channel holds a line break |
| CiBootstrap.ModeChannels | ci/bootstrap.py:245-280 | "build" gives ["defaults"]; "local" gives the conda-bld directory under the prefix, then "defaults"; "beta" and "stable" give the local channels then "defaults", failing when those fail; any other mode exits with status 1; every list ends in "defaults" |
| CiBootstrap.StableModeWithoutTagReadsBeta | ci/bootstrap.py:178-196 | the "stable" mode without a tag in the environment still reads the public beta channel, because stability comes from the tag variable and not from the mode |
| NextBuild.TargetChannel | bob/devtools/data/gitlab-ci/conda-next-build.py:26-37 | the upload channel carries the beta label exactly when the build is not stable, and lies under the server's private prefix exactly when the project is not public |
| NextBuild.TargetIsReadChannel | bob/devtools/data/gitlab-ci/conda-next-build.py:26-37 | the upload channel is the channel the configurator resolves with intranet on: its first channel for a public project, its second for a private one |
| NextBuild.NextBuildNumber | bob/devtools/data/gitlab-ci/conda-next-build.py:74-93 | the build number exceeds every matching record's build number and is one more than one of them, or 0 exactly when no record matches (name and version equal, build string starting with the variant); the urls are those of the reference dict: one per distinct timestamp, the last match winning, newest insertion first, with the channel url removed |
| NextBuild.CeilingBounds | bob/devtools/data/gitlab-ci/conda-next-build.py:76-86 | the running maximum of one plus the matching build numbers exceeds every match, is reached by one of them, and is 0 iff nothing matches |
| NextBuild.MatchPairs | bob/devtools/data/gitlab-ci/conda-next-build.py:75-87 | at most one (timestamp, url) pair per index record, and none exactly when no record matches the name, the version and the variant prefix |
| NextBuild.ExpectedUrlsShape | bob/devtools/data/gitlab-ci/conda-next-build.py:87-91 | the expected urls number at most one per match, and there is none exactly when there is no match |
| NextBuild.FirstSeenLength | bob/devtools/data/gitlab-ci/conda-next-build.py:87 | the dict holds no more timestamps than matches were put into it |
| NextBuild.TableIsTableOf | bob/devtools/data/gitlab-ci/conda-next-build.py:75-87 | putting each match's pair into the dict in turn leaves the timestamps in order of first appearance, each with the last url put under it |
| NextBuild.PutKeepsTable | bob/devtools/data/gitlab-ci/conda-next-build.py:87 | one dict assignment keeps that invariant for the extended match list |
| NextBuild.KeysPut | bob/devtools/data/gitlab-ci/conda-next-build.py:87 | assigning to a dict keeps its keys when the key is present and appends the key otherwise, as Python's insertion-ordered dict does |
| NextBuild.TableUrls | bob/devtools/data/gitlab-ci/conda-next-build.py:91 | the dict's values in reversed insertion order are the expected urls: the last url of each timestamp, newest timestamp first |
| NextBuild.Run | bob/devtools/data/gitlab-ci/conda-next-build.py:96-120 | the script exits 1 iff it is not given exactly six arguments; otherwise it reports a build number above every match and one line per expected url, each prefixed with the channel, where public means visibility "public" and stable means a non-empty tag |
| BuildNumber.PyVer | bob/devtools/build.py:20-21 | the version tag is `python.replace(".", "")`: it holds no '.', and holds every other character of the python version and nothing else |
| BuildNumber.PyVerJoinsPieces | bob/devtools/build.py:21 | removing the dots is the same as splitting the version at every '.' and concatenating the pieces, so the other characters keep their order |
| BuildNumber.PyTag | bob/devtools/build.py:32 | a match of `py[2-9][0-9]+` is a prefix of the build string at least four characters long |
| BuildNumber.NextNumber | bob/devtools/build.py:26-35 | the build number exceeds every counted record's build number and is one more than one of them, or 0 |
| BuildNumber.Run | bob/devtools/build.py:13-40 | the printed number is 0 exactly when no record counts for the python version with its dots removed |
| BuildNumber.CountsCharacterised | bob/devtools/build.py:31-34 | a record counts iff name and version are equal, the version digits are at least two digits with the first from 2 to 9, the build string starts with "py" and those digits, and no further digit follows |
| BuildNumber.PyVerExample | bob/devtools/build.py:21 | "3.6" gives the tag digits "36" |
| BuildNumber.TagExampleOther | bob/devtools/build.py:32-34 | under python 3.6 a "py310..." build never counts |
| BuildNumber.TagExampleSame | bob/devtools/build.py:32-34 | under python 3.6 a "py36..." build counts |
| BuildNumber.ShortTagNeverMatches | bob/devtools/build.py:32 | "py3" followed by no digit is no tag at all |
| Stability.RunLen | bob/devtools/ci.py:59 | a LooseVersion run is non-empty, within the text, and made of characters of one class with no dot |
| Stability.Tokenize | bob/devtools/ci.py:59 | LooseVersion's parse gives at most one component per character, and every text component is non-empty, free of dots and does not start with a digit |
| Stability.HasTextIffNonNumeric | bob/devtools/ci.py:59-60 | the parsed version has a text component exactly when the version holds a character other than a digit or a dot |
| Stability.IsMaster | bob/devtools/ci.py:14-36 | with a tag, master means the tag's commit is in master's history; without one, the ref name is "master" |
| Stability.IsStable | bob/devtools/ci.py:39-74 | no tag gives false; a one-character tag fails; a tag whose remainder has a text component gives false; otherwise the verdict is whether the tag is on master |
| Stability.StableMeansNumericTagOnMaster | bob/devtools/ci.py:57-67 | a stable verdict needs a tag of at least two characters, digits and dots after the first, issued on master |
| Stability.PrereleaseNeverStable | bob/devtools/ci.py:59-64 | "v1.2.0rc1" is not stable even on master |
| Stability.NumericTagStableIffOnMaster | bob/devtools/ci.py:59-70 | "v2.3.1" is stable exactly when issued on master |
| Deploy.Matching | bob/devtools/scripts/ci.py:92-94 | the packages found for an architecture are exactly the listed files matching `<name>*.tar.bz2` |
| Deploy.MatchesPackageGlob | bob/devtools/scripts/ci.py:92-94 | a file matching `<name>*.tar.bz2` is the name, then any text, then ".tar.bz2", the name and the suffix not overlapping |
| Deploy.Candidates | bob/devtools/scripts/ci.py:90-94 | the candidates are exactly the matching files of the three deployed architectures |
| Deploy.RemotePath | bob/devtools/scripts/ci.py:96-97 | the path is exactly the server root and conda directory, '/', the architecture, '/', and the file name: it starts with the first part, ends with the last, and has just their lengths |
| Deploy.RemotePaths | bob/devtools/scripts/ci.py:96-97 | one remote path per candidate, under the server's conda directory and the candidate's architecture |
| Deploy.Uploads | bob/devtools/scripts/ci.py:95-105 | the deploy is refused exactly when some candidate is already on the server; nothing uploaded is on the server; dry-run uploads nothing |
| Deploy.UploadsStopAtFirstExisting | bob/devtools/scripts/ci.py:95-105 | some prefix of the candidates is absent and uploaded, and the deploy stops at the candidate right after it |
| Deploy.DocDestinations | bob/devtools/scripts/ci.py:123-128 | the ref name always; a stable build adds "master", "stable" and the tag if set, and nothing else |
| Deploy.DocTargets | bob/devtools/scripts/ci.py:114-131 | the targets are exactly the package's documentation directory on the server followed by '/' and a destination name: every destination gives a target, and every target is one of those |
| Deploy.Run | bob/devtools/scripts/ci.py:47-134 | a package name without exactly one '/' fails with nothing done; otherwise the deploy succeeds exactly when no candidate is on the server and the documentation exists, and then publishes it to every destination |
| Deploy.DryRunSameChecks | bob/devtools/scripts/ci.py:98-105 | dry-run refuses exactly when a real run refuses |
| Deploy.DryRunOnlySkipsUploads | bob/devtools/scripts/ci.py:95-134 | dry-run uploads no package but plans the same documentation targets and fails exactly when a real run fails |
| Deploy.StableTaggedDocs | bob/devtools/scripts/ci.py:123-128 | a stable tagged build publishes under its ref, "master", "stable" and the tag |
| OrderFile.Content | bob/devtools/scripts/__init__.py:12 | what a line says is the line cut before its first '#' (the whole line when it has none) and then stripped; it holds no '#' and has no surrounding whitespace |
| OrderFile.ParseLine | bob/devtools/scripts/__init__.py:12-18 | a line names nothing exactly when its content is empty; with a comma in the content, the path and branch are the stripped texts before and after its first comma; without one, the path is the content and the branch is "master" |
| OrderFile.SplitBranch | bob/devtools/scripts/__init__.py:15 | the path is the stripped text before the first comma and the branch the stripped text after it, further commas included; the path holds no comma |
| OrderFile.Collect | bob/devtools/scripts/__init__.py:11-18 | one entry at most per line, each parsed from some line; one per line exactly when every line names an entry |
| OrderFile.CollectAppend | bob/devtools/scripts/__init__.py:11-18 | the entries of two pieces of a file are the entries of the whole |
| OrderFile.ReadPackages | bob/devtools/scripts/__init__.py:3-20 | at most one entry per line, none with ',' in its path or '#' anywhere |
| OrderFile.ReadPackagesAppend | bob/devtools/scripts/__init__.py:11-18 | reading a file is reading its pieces one after the other |
| OrderFile.FormatEntryRoundTrip | bob/devtools/scripts/__init__.py:12-16 | a written "path,branch" line reads back as the entry it was written from |
| OrderFile.ReadPackagesRoundTrip | bob/devtools/scripts/__init__.py:3-20 | a file of written entries reads back as exactly those entries, in order |
| OrderFile.PlainLine | bob/devtools/scripts/__init__.py:12-18 | a line without comma, with or without a trailing comment, names its path on "master" |
| OrderFile.CommentLine | bob/devtools/scripts/__init__.py:12-13 | a line whose first non-blank character is '#' names nothing |
| OrderFile.PaddedLine | bob/devtools/scripts/__init__.py:12-16 | a padded "path , branch" line with a trailing comment names that path and branch, and a branch may hold further commas |
| Mirror.LoadGlobList | bob/devtools/mirror.py:125-132 | every kept line is stripped, non-empty and starts with neither '#' nor '-' |
| Mirror.LoadGlobListMembers | bob/devtools/mirror.py:131-132 | a glob is kept exactly when some stripped line equals it and is a glob line |
| Mirror.LoadGlobListAppend | bob/devtools/mirror.py:131-132 | the globs of two pieces of a file are those of the whole, in file order |
| Mirror.BlacklistFilter | bob/devtools/mirror.py:135-141 | the kept packages are exactly the given ones no glob matches |
| Mirror.FilterNoGlobs | bob/devtools/mirror.py:138-141 | with no globs nothing is removed |
| Mirror.FilterIdempotent | bob/devtools/mirror.py:135-141 | filtering a filtered set changes nothing |
| Mirror.FilterAntitone | bob/devtools/mirror.py:135-141 | more globs never keep more packages |
| Mirror.LocalContents | bob/devtools/mirror.py:111-122 | a missing directory lists nothing; otherwise exactly the listed ".tar.bz2" and ".conda" files |
| Mirror.RemotePackages | bob/devtools/scripts/mirror.py:110-111 | a remote package is a key of 'packages' or of 'packages.conda', a missing section counting as empty |
| Mirror.Globs | bob/devtools/scripts/mirror.py:113-116 | the globs of the blacklist file when there is one, none otherwise |
| Mirror.MakePlan | bob/devtools/scripts/mirror.py:118-128 | download exactly what is remote, missing locally and not blacklisted; delete exactly the local packages that are blacklisted or gone from the remote; never both |
| Mirror.Apply | bob/devtools/scripts/mirror.py:118-145 | after a transaction the mirror holds everything downloaded and nothing that was neither local nor downloaded; when no package is both downloaded and deleted, nothing deleted remains |
| Mirror.MirrorPromise | bob/devtools/scripts/mirror.py:118-145 | after the transaction the mirror holds exactly the remote packages no glob matches |
| Mirror.MirrorIdempotent | bob/devtools/scripts/mirror.py:118-145 | mirroring again right after a transaction downloads and deletes nothing |
| Mirror.NoBlacklistPlan | bob/devtools/scripts/mirror.py:113-128 | without a blacklist the plan downloads remote minus local and deletes local minus remote |
| Mirror.ExpectedHash | bob/devtools/mirror.py:199-205 | the checksum is found exactly when the record is in the section its suffix selects and has an md5; it is the sha256 when present, else the md5 |
| Mirror.DownloadsHaveHashes | bob/devtools/mirror.py:199-205 | on well-formed repodata every package planned for download has a checksum |
| Mirror.HashAlgorithm | bob/devtools/mirror.py:223-234 | a checksum is taken for an md5 exactly when it is 32 characters long |
| Mirror.TurnAsWritten | bob/devtools/mirror.py:212-248 | a finished loop stays finished; a turn leaves the state unchanged exactly when the loop is finished or a dry run still has retries; retries are never gained |
| Mirror.LoopAsWritten | bob/devtools/mirror.py:212-248 | over any number of turns, a finished loop stays finished and retries are never gained |
| Mirror.Loop | bob/devtools/mirror.py:212-248 | over the corrected turns, a finished loop stays finished, and a loop still retrying has used exactly one retry per turn |
| Mirror.Turn | bob/devtools/mirror.py:212-248 | the corrected turn ends a dry run at once and behaves as written otherwise; a finished loop stays finished, and a turn that does not end the loop uses one retry |
| Mirror.DryRunLoopsForever | bob/devtools/mirror.py:212-248 | as written, a dry run never leaves the retry loop, however many turns it takes |
| Mirror.LoopEnds | bob/devtools/mirror.py:212-248 | the corrected loop has ended after one more turn than it has retries, in both modes |
| Mirror.LoopStays | bob/devtools/mirror.py:212-248 | once out of the loop, further turns change nothing |
| RepodataPatch.Changes | deps/repodata-patches/gen_patch_json.py:90-99 | the changes are exactly the fields of the new record that are absent from or different in the old one, with their new values |
| RepodataPatch.Diff | deps/repodata-patches/gen_patch_json.py:78-101 | only changed files get an entry, holding their changes; applying each file's entry to its old record gives the new record |
| RepodataPatch.ChangesApply | deps/repodata-patches/gen_patch_json.py:90-99 | updating the old record with its changes gives the new one, and there are no changes exactly when the records are equal |
| RepodataPatch.PatchInstructions | deps/repodata-patches/gen_patch_json.py:79-84 | version 1, nothing revoked, nothing removed, the patches being the diff |
| RepodataPatch.AppendDepends | deps/repodata-patches/gen_patch_json.py:119-124 | appending fails exactly when "depends" is missing or not a list, and otherwise adds the dependency at its end |
| RepodataPatch.AdjustRecord | deps/repodata-patches/gen_patch_json.py:113-124 | a record without a name fails; bob.bio.base up to 4.1.0 gains the numpy pin, pytorch gains cpuonly; a record with any other name succeeds unchanged; the failure cases are exactly the missing or ill-typed fields these steps read |
| RepodataPatch.NewIndex | deps/repodata-patches/gen_patch_json.py:104-126 | the new index has the same files, each record adjusted, and fails exactly when some record cannot be adjusted |
| RepodataPatch.NewIndexComparable | deps/repodata-patches/gen_patch_json.py:88-92 | the diff's assertions always hold between an index and its adjustment |
| RepodataPatch.OnlyDependsPatched | deps/repodata-patches/gen_patch_json.py:113-124 | only bob.bio.base and pytorch files are patched, and only in "depends" |
| RepodataPatch.RecordPatch | deps/repodata-patches/gen_patch_json.py:116-124 | a record's adjustment changes nothing or its dependencies only |
| RepodataPatch.GenerateInstructions | deps/repodata-patches/gen_patch_json.py:129-146 | fails exactly when a section is missing, the platform is unknown or a record cannot be adjusted; otherwise version 1, nothing revoked, the platform's removals, and each section's patches rebuild its adjusted records |
| RepodataPatch.DiffExample | deps/repodata-patches/test_gen_patch_json.py:5-27 | the diff of the three-file example gives "a" and "c" their new records and "b" no entry |
| RepodataPatch.DiffOfThree | deps/repodata-patches/test_gen_patch_json.py:6-27 | the same for any records of the same shapes |
| RepodataPatch.DiffIs | deps/repodata-patches/gen_patch_json.py:86-99 | a map of exactly the changed files to their changes is the diff |
| RepodataPatch.ExampleRecords | deps/repodata-patches/test_gen_patch_json.py:6-16 | in the example every field of "a" changes and "c" gains every field |
| EnvBootstrap.FirstWord | bob/devtools/bootstrap.py:57 | there is no first word exactly when the spec is blank; otherwise it is the first of its words |
| EnvBootstrap.FirstWordOfWord | bob/devtools/bootstrap.py:57 | a single word is its own first word |
| EnvBootstrap.Heads | bob/devtools/bootstrap.py:57 | succeeds exactly when every element has a head, giving one head per element in order |
| EnvBootstrap.HeadsFixed | bob/devtools/bootstrap.py:57 | elements that are their own heads come back unchanged |
| EnvBootstrap.RemovePins | bob/devtools/bootstrap.py:56-57 | fails exactly when some spec is blank; otherwise each spec's first word, in order |
| EnvBootstrap.RemovePinsIdempotent | bob/devtools/bootstrap.py:56-57 | removing the pins of pin-free names changes nothing |
| EnvBootstrap.ParseDependencies | bob/devtools/bootstrap.py:60-68 | no requirements section fails; otherwise build and host names without pins, then run and test requirements as written, then the three local development packages; blank build or host specs fail |
| EnvBootstrap.RemovePinsAppend | bob/devtools/bootstrap.py:64-65 | removing the pins of the build and host lists one after the other is removing those of the joined list |
| EnvBootstrap.HeadsAppend | bob/devtools/bootstrap.py:64-65 | the heads of a joined list are the heads of its pieces |
| EnvBootstrap.GetEnvDirectory | bob/devtools/bootstrap.py:72-80 | none exactly when no listed environment ends with the separator and the name; otherwise the first that does |
| EnvBootstrap.FirstEndingWith | bob/devtools/bootstrap.py:77-80 | the first element with the suffix, none exactly when there is none |
| EnvBootstrap.NormalizeSpec | bob/devtools/bootstrap.py:87-91 | a spec keeps its first two words, glued together when they hold '>', '<' or '|' and joined by '=' otherwise; the result has no space |
| EnvBootstrap.Specs | bob/devtools/bootstrap.py:85-91 | one normalised spec per package, in order |
| EnvBootstrap.CreateCommand | bob/devtools/bootstrap.py:107-112 | the fixed head, then "--dry-run" exactly in a dry run and "--use-local" exactly when asked, in that order and nothing else, then a sorted permutation of the specs |
| EnvBootstrap.CreateIsNotRemove | bob/devtools/bootstrap.py:97-107 | the create command is never the remove command |
| EnvBootstrap.RemoveCommand | bob/devtools/bootstrap.py:97 | "conda env remove", non-interactive, of the named environment, with the name last |
| EnvBootstrap.Execute | bob/devtools/bootstrap.py:96-126 | without a removal only the create command runs; with one, the removal comes first and creation follows exactly when it succeeds; the status is that of the last command, and the condarc is copied exactly after a successful real creation |
| EnvBootstrap.CondaCreate | bob/devtools/bootstrap.py:83-126 | fails exactly when the environment exists and overwriting is off; otherwise a real run over an existing environment removes it first and creates only after a successful removal, and any other run executes only the create command |
| EnvBootstrap.RemovalBeforeCreate | bob/devtools/bootstrap.py:95-102 | overwriting in a real run removes first, and creation follows exactly when the removal succeeded |
| EnvBootstrap.DryRunOnlyCreates | bob/devtools/bootstrap.py:99-124 | a dry run runs only the create command, flagged, and copies nothing |
| EnvBootstrap.NormalizeSpecDropsBuild | bob/devtools/bootstrap.py:87-91 | "name version build" without operators becomes "name=version" |
| EnvBootstrap.NormalizeSpecKeepsOperator | bob/devtools/bootstrap.py:88-89 | a version with an operator is glued to the name |
| EnvBootstrap.NormalizeTwoWords | bob/devtools/bootstrap.py:87-91 | a spec of two or more words keeps the first two, joined by '=' unless they hold an operator |
| Graph.SpecName | bob/devtools/graph.py:113 | a spec's package name is the prefix of the spec up to its first space, or the whole spec when it has none |
| Graph.SpecNames | bob/devtools/graph.py:112-114 | one package name per spec, in order |
| Graph.Keep | bob/devtools/graph.py:118 | exactly the selected packages that are dependencies are kept, never more than were selected |
| Graph.KeepAppend | bob/devtools/graph.py:118 | what is kept of two pieces of the selection is what is kept of the whole, in selection order |
| Graph.KeepAll | bob/devtools/graph.py:118 | a selection of dependencies only is kept whole and in order |
| Graph.FetchDependencies | bob/devtools/graph.py:83-120 | without a selection, the package names of the newest build's specs; with one, exactly the selected packages among them |
| Graph.Visit | bob/devtools/graph.py:42-80 | the traversal never forgets a recorded package |
| Graph.VisitAll | bob/devtools/graph.py:75-79 | visiting a dependency list never forgets a recorded package |
| Graph.VisitSpec | bob/devtools/graph.py:68-80 | the traversal records the root, keeps earlier entries, records fetched dependencies for every package it adds, and records the followed dependencies of each |
| Graph.VisitAllSpec | bob/devtools/graph.py:75-79 | every followed dependency of the list ends up recorded, with the same guarantees |
| Graph.DependencyGraph | bob/devtools/graph.py:42-80 | from an empty map: the root is recorded, every entry holds the fetched dependencies, and every dependency containing the prefix is recorded too |
| Graph.VisitLeast | bob/devtools/graph.py:68-80 | the traversal records nothing beyond any set that holds the root and the recorded packages and is closed under followed dependencies |
| Graph.VisitAllLeast | bob/devtools/graph.py:75-79 | the same for a list of dependencies |
| Graph.EdgesFrom | bob/devtools/graph.py:29-38 | one edge per non-black-listed dependency of a package, boxed exactly when its name contains the prefix, and no other |
| Graph.Edges | bob/devtools/graph.py:15-39 | the edges drawn are exactly those from each package to each non-black-listed dependency, boxed exactly when the dependency contains the prefix |
| Cli.PrefixMatches | bob/devtools/scripts/bdt.py:24-25 | exactly the listed commands starting with the name, in listing order; none exactly when no command starts with it |
| Cli.GetCommand | bob/devtools/scripts/bdt.py:20-30 | an exact name resolves to itself; a name that is a prefix of nothing resolves to nothing; a prefix of exactly one command resolves to it; a prefix of several fails with the sorted candidates joined by ", " |
| Cli.ExactNameWins | bob/devtools/scripts/bdt.py:21-23 | an exact name wins even when it is also a prefix of another command |
| Cli.UniquePrefixResolves | bob/devtools/scripts/bdt.py:24-29 | a prefix of a single command resolves to that command |
| Cli.MatchesSingle | bob/devtools/scripts/bdt.py:24-25 | with distinct names, a prefix of a single command matches that command alone |
| Cli.RaiseOnError | bob_tools/utils/click.py:6-20 | the wrapped command returns its value exactly when it is None or 0, and otherwise raises with that value as exit code; bob/devtools/scripts/bdt.py:33-49 is the same wrapper |
| Cli.NonZeroStatusRaised | bob_tools/utils/click.py:15-18 | a non-zero integer status is raised as the exit code |
| Environment.SetEnvironment | bob/devtools/constants.py:44-58 | afterwards the variable holds the value, the keys are the old ones plus the variable, every other variable keeps its value, and the old value is reported exactly when it existed |
| Environment.SetTwice | bob/devtools/constants.py:54-57 | setting the same value again changes nothing but reports the override |
| Environment.SetCommutes | bob/devtools/constants.py:57 | setting two different variables gives the same environment in either order |
| Environment.LocaleSetup | bob/devtools/constants.py:44-58 | setting LANG and then LC_ALL to the new LANG leaves both at "en_US.UTF-8", whatever the environment held before |
| CondaSkip.ShouldSkipBuild | bob/devtools/conda.py:2-6 | the build is skipped exactly when every rendered variant says so, so in particular with no variants |
| CondaSkip.OneBuiltVariantBuilds | bob/devtools/conda.py:6 | one variant that is not skipped means the recipe is built |
| CondaSkip.OrderIndependent | bob/devtools/conda.py:6 | the verdict does not depend on the order of the variants |
| UpdateBob.RemoveAllWithoutLast | bob/devtools/scripts/update_bob.py:52-54 | removing a pattern changes nothing when its last character is absent |
| UpdateBob.ListedNameOfGroupMember | bob/devtools/scripts/update_bob.py:52-54 | "bob/name" is listed as "name" |
| UpdateBob.RemovalIsSinglePass | bob/devtools/scripts/update_bob.py:52-54 | "bobob/b/" is listed as "bob/": an occurrence formed by a removal is kept |
| UpdateBob.RemoveAllKeepsOut | bob/devtools/scripts/update_bob.py:52-54 | removal never introduces a character |
| UpdateBob.ListedName | bob/devtools/scripts/update_bob.py:52-54 | the listed name is the path with every "bob/" removed: a path without "bob/" is listed as it is; otherwise the text before the first "bob/" is kept and the listing goes on after it; never longer than the path |
| UpdateBob.Partition | bob/devtools/scripts/update_bob.py:41-54 | at most one listed name per order-file entry |
| UpdateBob.PartitionMembers | bob/devtools/scripts/update_bob.py:41-54 | every package except the meta package is listed, under its listed name, in the public list exactly when its project is public and in the other list otherwise; nothing else is listed; without the meta package nothing is dropped |
| UpdateBob.PartitionAppend | bob/devtools/scripts/update_bob.py:42-54 | the lists of two pieces of an order file are those of the whole, in order |
| UpdateBob.MetaPackageSkipped | bob/devtools/scripts/update_bob.py:44-45 | the meta package is skipped wherever it appears |
| UpdateBob.SpliceMeta | bob/devtools/scripts/update_bob.py:69-76 | with both markers present the file keeps its text through the start marker and from the end marker on, the list of item lines between them |
| UpdateBob.SpliceIsRewrite | bob/devtools/scripts/update_bob.py:71-76 | the splice rewrites the marked section with the list |
| UpdateBob.SplicePreserves | bob/devtools/scripts/update_bob.py:71-76 | with both markers present the new file starts with the old text through the start marker and ends with the old text from the end marker |
| UpdateBob.NoHashInPrefixed | bob/devtools/scripts/update_bob.py:75 | item lines of names without '#' hold no '#' |
| UpdateBob.BlockShape | bob/devtools/scripts/update_bob.py:75 | the list starts a new line and holds no '#' |
| UpdateBob.MarkerShape | bob/devtools/scripts/update_bob.py:67 | the end marker is a one-line '#' comment |
| UpdateBob.SpliceTwice | bob/devtools/scripts/update_bob.py:69-79 | the spliced file still holds both markers, and splicing it again gives what splicing the original would |
| UpdateBob.RequirementsText | bob/devtools/scripts/update_bob.py:81-83 | the requirements file ends with a newline; read back line by line it gives the public names, then the empty text after the final newline, provided there is a name and none holds a line break |
| UpdateBob.Run | bob/devtools/scripts/update_bob.py:24-83 | the public names of the order file go, in order, into the requirements file and, with both markers present, between them in `meta.yaml`, the text through the start marker and from the end marker on being kept; the other names are reported, including every non-public package other than the meta package |
| UpdateBob.ListedNamesHaveNoHash | bob/devtools/scripts/update_bob.py:38-52 | no name listed from an order file holds '#' |
| UpdateBob.RunIdempotent | bob/devtools/scripts/update_bob.py:69-79 | running the command again on the file it wrote leaves the file unchanged |
| UpdatePins.MambaCommand | bob/devtools/scripts/update_pins.py:21-34 | a dry-run "mamba create" over conda-forge only, pinned to the python version, followed by exactly the configured packages |
| UpdatePins.ParseLine | bob/devtools/scripts/update_pins.py:38-43 | a stripped line not starting with "+ " says nothing; one that does fails exactly when it has fewer than three words, and otherwise gives its second and third words |
| UpdatePins.ThreeWords | bob/devtools/scripts/update_pins.py:41-42 | three words set apart by spaces are the first three words of the line |
| UpdatePins.ParseReportLine | bob/devtools/scripts/update_pins.py:38-43 | an indented "+ name version ..." line gives that name and version |
| UpdatePins.ReportLineShape | bob/devtools/scripts/update_pins.py:39-42 | such a line strips to itself, starts with "+ " and has the name and version as second and third words |
| UpdatePins.ParseAdded | bob/devtools/scripts/update_pins.py:39-43 | a line stripping to an added-package line of three or more words gives its second and third words |
| UpdatePins.ReportLineEnds | bob/devtools/scripts/update_pins.py:39 | an added-package line neither starts nor ends with whitespace |
| UpdatePins.ParseAll | bob/devtools/scripts/update_pins.py:37-43 | succeeds exactly when every line parses, with at most one pin per line |
| UpdatePins.ParseAllFrom | bob/devtools/scripts/update_pins.py:37-43 | when every line parses, the pins are exactly those the lines yield: every pin comes from some line, and every pin a line yields is among them |
| UpdatePins.ParseAllAppend | bob/devtools/scripts/update_pins.py:38-43 | the pins of two pieces of a report are those of the whole, and a failure in the first piece is the whole's failure |
| UpdatePins.Resolved | bob/devtools/scripts/update_pins.py:37-43 | reading the report succeeds exactly when every line parses, each pin being two words, and every "+ " line's package and version is among the pins |
| UpdatePins.Reverse | bob/devtools/scripts/update_pins.py:18 | the reversed map's keys are exactly the mapped names, each mapping back to a key that mapped to it |
| UpdatePins.ReverseLastWins | bob/devtools/scripts/update_pins.py:18 | a name maps back to the last key that mapped to it |
| UpdatePins.ReverseInverts | bob/devtools/scripts/update_pins.py:18 | with distinct names, reversing inverts the map |
| UpdatePins.PinText | bob/devtools/scripts/update_pins.py:56-60 | a pin reads back as two lines: the configuration key (or the package name) followed by ':', then a list item holding the version, provided neither holds a line break |
| UpdatePins.PinTexts | bob/devtools/scripts/update_pins.py:56-60 | exactly one pin per reported package that is configured, under its configuration key when it has one |
| UpdatePins.PinTextsAppend | bob/devtools/scripts/update_pins.py:56-60 | pins follow the report's order: those of two pieces are those of the whole |
| UpdatePins.MapLines | bob/devtools/scripts/update_pins.py:61-63 | one "  key: name" line per entry, in order |
| UpdatePins.Body | bob/devtools/scripts/update_pins.py:61-72 | the new section starts on a new line with the `package_names_map` key and ends with a blank line |
| UpdatePins.SpliceBetween | bob/devtools/scripts/update_pins.py:54-74 | with both markers the text before the start marker and from the end marker on is kept, with the new section between |
| UpdatePins.Splice | bob/devtools/scripts/update_pins.py:65-74 | with both markers present, the section from the start marker up to the end marker is replaced by the new one |
| UpdatePins.Run | bob/devtools/scripts/update_pins.py:8-76 | fails exactly when mamba fails or its report has a malformed added-package line; with both markers the text before the section and from the end marker on is kept, and the section becomes the start marker, the name map and one pin per configured package mamba resolved, in mamba's order |
| UpdatePins.SplicePreserves | bob/devtools/scripts/update_pins.py:65-74 | a section starting with the start marker keeps the text through the marker and from the end marker on |
| UpdatePins.MarkerShape | bob/devtools/scripts/update_pins.py:55 | the end marker is a one-line '#' comment |
| UpdatePins.MapLinesShape | bob/devtools/scripts/update_pins.py:61-63 | map lines of keys and names without '#' hold no '#' |
| UpdatePins.MapLineShape | bob/devtools/scripts/update_pins.py:62 | one map line holds no '#' when its key and name hold none |
| UpdatePins.BodyShape | bob/devtools/scripts/update_pins.py:65-72 | the new section after the start marker starts a new line and holds no '#' |
| UpdatePins.PinTextsShape | bob/devtools/scripts/update_pins.py:56-60 | pins of keys, names and versions without '#' hold no '#' |
| UpdatePins.SpliceTwice | bob/devtools/scripts/update_pins.py:54-74 | the rewritten text still holds both markers, and splicing it again gives what splicing the original would |
| UpdatePins.RunIdempotent | bob/devtools/scripts/update_pins.py:8-76 | running the command again on the text it wrote, with the same report, leaves the text unchanged |
| Sections.KeptStart | bob/devtools/scripts/update_bob.py:71-76 | keeping the text through the start marker and writing a body after it is rewriting the section |
| Sections.StartRefound | bob/devtools/scripts/update_bob.py:71 | in the rewritten text the start marker is found where it was |
| Sections.EndRefound | bob/devtools/scripts/update_bob.py:72 | in the rewritten text the end marker is found right after the new body |
| Sections.RewrittenMarked | bob/devtools/scripts/update_bob.py:71-76 | the rewritten text is still marked, with the start marker in place and the end marker after the body |
| Sections.RewriteTwice | bob/devtools/scripts/update_pins.py:54-74 | replacing a rewritten section is replacing the original one |
| BuildNumber.DigitRun | bob/devtools/build.py:32 | the length of the longest run of digits at the start of the text: all digits, then a non-digit or the end |
| Sorting.Sort | bob/devtools/bootstrap.py:112 | `sorted`: an ordered permutation of its input |
| Sorting.SortPermutationInvariant | bob/devtools/scripts/bdt.py:30 | the sorted list depends only on the elements, not on the order they were listed in |
| Sorting.SortedSet | ci/bootstrap.py:118-119 | `sorted(set(...))`: strictly increasing, so free of duplicates, and holding exactly the elements of the input |
| Text.Strip | bob/devtools/scripts/__init__.py:12 | `str.strip`: the result is no longer than the text and neither starts nor ends with whitespace |
| Text.Words | bob/devtools/scripts/update_pins.py:41 | `str.split()`: every piece is a non-empty run without whitespace (the exact pieces are stated by `Text.WordsOfSpread`) |
| Text.WordsOfSpread | bob/devtools/scripts/update_pins.py:41 | `str.split()` of words laid out with whitespace around them, at least one whitespace character between two words, gives back exactly those words in order |
| Text.SpreadOfWords | bob/devtools/scripts/update_pins.py:41 | every text is such a layout of its own `str.split()` pieces, so the previous row fixes the pieces of every text |
| Text.WordsShape | bob/devtools/scripts/update_pins.py:41 | there are no more pieces than characters, and a text that is one such run splits into itself |
| Text.RemoveAll | bob/devtools/scripts/update_bob.py:52-54 | `str.replace(pat, "")`: the result is no longer than the text and holds only characters of the text (its exact value is stated by `Text.RemoveAllFirst`) |
| Text.RemoveAllFirst | bob/devtools/scripts/update_bob.py:52-54 | `str.replace(pat, "")` returns a text without `pat` unchanged, and otherwise keeps what precedes the first occurrence `find` reports, drops that occurrence and goes on after it |
| Text.Find | bob/devtools/scripts/update_bob.py:71-72 | `str.find`: -1 exactly when the pattern does not occur, otherwise its first occurrence |
| Text.SplitOn | bob/devtools/scripts/update_pins.py:38 | `str.split` on one character: pieces free of the separator that join back to the text |
| Graph.VisitRecorded | bob/devtools/graph.py:68-69 | a package already recorded leaves the map exactly as it was |

## Left out

- Subprocess, HTTP and file I/O. This covers:
  - `run_cmdline`;
  - the miniconda download and install;
  - `_download`, `get_json` and `remove_packages`;
  - `main` of `gen_patch_json.py`;
  - the actual file writes.

  Each command's outcome is an input or an oracle instead.
- CiBootstrap.MergeUrls: ci/bootstrap.py uses names it never defines or imports, at lines 49, 70, 72-74, 85 and 101; `cached` at line 174 is defined on one branch only. The model leaves these crashes out. For example, `cache_pkgs_dir` at line 101 would stop `merge_conda_cache` before its urls.txt merge. The merge step is modelled on its own.
- Deploy.Run: the documentation upload at bob/devtools/scripts/ci.py:134 uses an undefined `client` and would raise in a real run. The model plans the documentation targets and does not model the upload.
- Deploy: `WEBDAV_PATHS` and `is_visible_outside` are not part of this model. The server paths are an opaque record given as input.
- git, GitLab and WebDAV clients, and `runners.py`, `jobs.py`, `local.py`, `dav.py`: thin wrappers over those services.
- conda, conda-build and mamba calls. This covers:
  - `scripts/build.py`, `scripts/test.py`, `scripts/bootstrap.py` and `install_deps.py`;
  - `make_conda_config` and `get_rendered_metadata`;
  - index fetching.

  The rendered recipe, the index and the search result are inputs.
- Graph.FetchDependencies: the JSON lookup of the newest build inside `conda search`'s output is part of the `search` oracle. The `selected_packages` argument is threaded through the `fetch` oracle.
- Graph.Visit: the traversal needs a finite set of packages closed under followed dependencies, given as `universe`, to terminate. The mutable default argument `dependencies=dict()` at bob/devtools/graph.py:43 is shared between calls. The model always starts from an explicit map.
- Graph: graphviz node shapes and rendering are left out. The edges carry the boxed flag instead.
- Mirror: `fnmatch` is an oracle.
- Mirror: the download, move and removal of files are left out. The plan says which files, not how they move.
- Mirror.Turn: the hashing and download inside the retry loop are one boolean per turn.
- EnvBootstrap.CondaCreate: the second `get_env_directory` call and the file copy after creation are the `copiesCondarc` flag. The destination path is not modelled.
- EnvBootstrap.ParseDependencies: the rendering and YAML parsing of the recipe are left out. The parsed recipe is the input.
- Stability.IsStable: LooseVersion is modelled for ASCII text only.
- Text.Strip: the contract says the result is no longer than the text and has no whitespace at either end. It does not say that the result is the middle piece of the text. StripStripped and StripPadded fix the result for the inputs the model uses.
- Text: Python's Unicode character classes are not modelled. Whitespace is the ten ASCII characters `str.isspace` accepts: space, tab, line feed, vertical tab, form feed, carriage return and 0x1C to 0x1F. Other whitespace, such as 0x85 and 0xA0, and digits other than '0' to '9' are not modelled.
- UpdateBob.Run:
  - `meta.yaml` is opened `r+` and written without truncation, so a shorter text would leave old bytes at the end. Only the spliced string is modelled.
  - The download of `order.txt` is left out; the model starts from its lines.
  - The final advice message is left out.
- UpdatePins.Run:
  - `load_packages_from_conda_build_config` is not part of this model. Its package list and name map are inputs.
  - Decoding mamba's output is left out; the report is a string.
  - Printing the report is left out.
- NextBuild.Run: the `conda-package-matches.txt` file is written only when there are matches. The model returns the url lines.
- RepodataPatch: the test at deps/repodata-patches/test_gen_patch_json.py:29 expects removals that `_gen_patch_instructions` never adds, so it is not encoded. The removals come from `gen_new_index_and_patch_instructions`.
- RepodataPatch: `packaging.version` ordering is an oracle.
- RepodataPatch.Diff: a field value is null, a boolean, an integer, a string or a list. JSON floats and nested objects are not representable. Python's `==` treats `1`, `1.0` and `True` as equal, but the model compares values by constructor, so `Int(1)` and `Bool(true)` differ.
- Environment.LocaleSetup: the two calls at bob/devtools/scripts/bdt.py:53-54 would not run as written. bdt.py:14 imports `set_environment` from `bootstrap.py`, which does not define it, and the `verbose=False` keyword does not fit the signature at bob/devtools/constants.py:44. The lemma states what the two updates do through the definition in `constants.py`. It does not model the command-line entry point.
- Cli.NonZeroStatusRaised: the process exit status is the raised code modulo 256, so a command returning 256 exits with status 0. The model keeps the `exit_code` Python value set on the exception, not the status the operating system reports.
- Logging, `print` and `click.echo` output are left out.
- `pipelines.py` is left out. It depends on datetime parsing, floating-point minutes and table output.
- `sphinx.py`, `setup.py`, `bob_tools/scripts/main.py` and the package `__init__` modules other than `read_packages` are left out. They are rendering or environment side effects.

## Findings

| source | as written | input that shows it | evidently intended | confidence | as-written member | corrected member |
|---|---|---|---|---|---|---|
| bob/devtools/mirror.py:212-248 | in a dry run the retry loop neither decrements `package_retries` nor breaks, so it never ends; the final check would read the unbound `actual_hash` | `mirror --dry-run` with at least one package to download | a dry run leaves the loop after logging, without verifying | not executed | Mirror.DryRunLoopsForever | Mirror.LoopEnds |

=== FILE: build_number.dfy ===
/** The stand-alone build-number script: the next build number of a package
    for one python version, counting only index records whose build string
    carries exactly that python tag (`py` followed by the version digits).
 */
module BuildNumber {
  import opened Wrappers
  import opened Text

  /** One entry of a channel index. */
  datatype Dist = Dist(name: string, version: string, buildString: string, buildNumber: nat, url: string)

  /** The python version with every '.' removed ("3.10" becomes "310"). */
  function PyVer(python: string): (r: string)
    ensures '.' !in r
    ensures |r| <= |python|
    ensures forall c :: c in r <==> c in python && c != '.'
    ensures r == RemoveAll(python, ".")
  {
    if python == [] then []
    else if python[0] == '.' then PyVer(python[1..])
    else [python[0]] + PyVer(python[1..])
  }

  /** Removing the dots is cut-and-glue: the version split at every '.'
      and the pieces concatenated. */
  lemma {:induction false} PyVerJoinsPieces(python: string)
    ensures PyVer(python) == Concat(SplitOn(python, '.'))
    decreases |python|
  {
    var i := IndexOf(python, '.');
    if i < 0 {
      PyVerNoDot(python);
    } else {
      var a, b := python[..i], python[i + 1..];
      assert python == a + ("." + b);
      assert SplitOn(python, '.') == [a] + SplitOn(b, '.');
      assert Concat([a] + SplitOn(b, '.')) == a + Concat(SplitOn(b, '.'));
      assert ("." + b)[1..] == b;
      assert PyVer("." + b) == PyVer(b);
      PyVerAppend(a, "." + b);
      PyVerNoDot(a);
      PyVerJoinsPieces(b);
    }
  }

  /** A version without dots is its own tag. */
  lemma {:induction false} PyVerNoDot(s: string)
    requires '.' !in s
    ensures PyVer(s) == s
  {
    if s != [] {
      assert s[0] in s;
      assert forall c <- s[1..] :: c in s;
      PyVerNoDot(s[1..]);
    }
  }

  /** Removing dots goes piece by piece. */
  lemma {:induction false} PyVerAppend(a: string, b: string)
    ensures PyVer(a + b) == PyVer(a) + PyVer(b)
  {
    if a == [] {
      assert a + b == b;
    } else {
      assert (a + b)[1..] == a[1..] + b;
      PyVerAppend(a[1..], b);
    }
  }

  /** Length of the leading run of digits of `s`. */
  function DigitRun(s: string): (n: nat)
    ensures n <= |s|
    ensures forall i | 0 <= i < n :: IsDigit(s[i])
    ensures n == |s| || !IsDigit(s[n])
  {
    if s == [] || !IsDigit(s[0]) then 0 else 1 + DigitRun(s[1..])
  }

  /** What `re.match('py[2-9][0-9]+', s)` matches at the start of `s`: "py",
      a digit from 2 to 9, then every following digit (at least one). */
  function PyTag(s: string): (r: Option<string>)
    ensures r.Some? ==> StartsWith(s, r.value) && |r.value| >= 4
  {
    if |s| >= 4 && s[0] == 'p' && s[1] == 'y' && '2' <= s[2] <= '9' && IsDigit(s[3]) then
      Some(s[..2 + DigitRun(s[2..])])
    else None
  }

  /** A record counts when name and version are equal and its python tag is
      exactly `py<pyVer>`. */
  predicate Counts(d: Dist, name: string, version: string, pyVer: string) {
    d.name == name && d.version == version && PyTag(d.buildString) == Some("py" + pyVer)
  }

  /** The printed build number: above every counted build number and one
      more than the largest, 0 when nothing counts. */
  function NextNumber(index: seq<Dist>, name: string, version: string, pyVer: string): (bn: nat)
    ensures forall d <- index :: Counts(d, name, version, pyVer) ==> d.buildNumber < bn
    ensures bn == 0 || exists d <- index :: Counts(d, name, version, pyVer) && d.buildNumber + 1 == bn
  {
    if index == [] then 0
    else
      var prior := NextNumber(index[..|index| - 1], name, version, pyVer);
      var d := index[|index| - 1];
      assert index == index[..|index| - 1] + [d];
      if Counts(d, name, version, pyVer) && d.buildNumber + 1 > prior then d.buildNumber + 1 else prior
  }

  /** The script's result for a channel index and its command line values. */
  function Run(index: seq<Dist>, name: string, version: string, python: string): (bn: nat)
    ensures bn == 0 <==> forall d <- index :: !Counts(d, name, version, PyVer(python))
    ensures forall d <- index :: Counts(d, name, version, PyVer(python)) ==> d.buildNumber < bn
    ensures bn == 0 || exists d <- index :: Counts(d, name, version, PyVer(python)) && d.buildNumber + 1 == bn
  {
    NextNumber(index, name, version, PyVer(python))
  }

  /** A record counts exactly when its build string starts with "py" and the
      version digits, the version digits are at least two digits with the
      first from 2 to 9, and no further digit follows. */
  lemma {:induction false} CountsCharacterised(d: Dist, name: string, version: string, pyVer: string)
    ensures Counts(d, name, version, pyVer) <==>
      && d.name == name && d.version == version
      && |pyVer| >= 2 && '2' <= pyVer[0] <= '9' && (forall c <- pyVer :: IsDigit(c))
      && StartsWith(d.buildString, "py" + pyVer)
      && (|d.buildString| == |pyVer| + 2 || !IsDigit(d.buildString[|pyVer| + 2]))
  {
    var s := d.buildString;
    var tag := "py" + pyVer;
    if PyTag(s) == Some(tag) {
      var n := DigitRun(s[2..]);
      assert tag == s[..2 + n];
      assert pyVer == s[2..2 + n];
      forall c <- pyVer ensures IsDigit(c) {
        var k :| 0 <= k < |pyVer| && pyVer[k] == c;
        assert s[2..][k] == s[2 + k] == c;
      }
    }
    if && d.name == name && d.version == version
       && |pyVer| >= 2 && '2' <= pyVer[0] <= '9' && (forall c <- pyVer :: IsDigit(c))
       && StartsWith(s, tag)
       && (|s| == |pyVer| + 2 || !IsDigit(s[|pyVer| + 2]))
    {
      assert s[..|tag|] == tag;
      assert s[2] == pyVer[0] && s[3] == pyVer[1];
      assert pyVer[1] in pyVer;
      DigitRunOfPrefix(s[2..], pyVer);
    }
  }

  /** The digit run of a string that starts with an all-digit `p` not followed
      by a digit is exactly `p`. */
  lemma {:induction false} DigitRunOfPrefix(s: string, p: string)
    requires StartsWith(s, p) && (forall c <- p :: IsDigit(c))
    requires |s| == |p| || !IsDigit(s[|p|])
    ensures DigitRun(s) == |p|
  {
    if p != [] {
      assert p[0] in p;
      assert s[0] == p[0];
      assert forall c <- p[1..] :: c in p;
      assert s[1..][..|p| - 1] == p[1..];
      DigitRunOfPrefix(s[1..], p[1..]);
    }
  }

  lemma PyVerExample()
    ensures PyVer("3.6") == "36"
  {
    assert "3.6"[1..] == ".6" && ".6"[1..] == "6" && "6"[1..] == "";
  }

  /** Python 3.6 never counts a 3.10 build ... */
  lemma TagExampleOther(d: Dist)
    requires d.buildString == "py310h0_0"
    ensures !Counts(d, d.name, d.version, "36")
  {
    CountsCharacterised(d, d.name, d.version, "36");
    assert d.buildString[..4][3] == '1';
  }

  /** ... but counts a 3.6 one. */
  lemma TagExampleSame(d: Dist)
    requires d.buildString == "py36h0_0"
    ensures Counts(d, d.name, d.version, "36")
  {
    CountsCharacterised(d, d.name, d.version, "36");
    assert d.buildString[..4] == "py36";
    assert "36"[0] == '3' && "36"[1] == '6';
  }

  /** A single python digit is never a tag. */
  lemma ShortTagNeverMatches(rest: string)
    requires rest == [] || !IsDigit(rest[0])
    ensures PyTag("py3" + rest) == None
  {
  }
}

=== FILE: ci_bootstrap.dfy ===
/** The CI bootstrap script: the channels a fresh conda installation is
    configured with, per bootstrap mode, and the merge of the package-cache
    `urls.txt` files. Channels here use the `/public/conda` and
    `/private/conda` layout, private first. The environment is a map of
    variable names to values.
 */
module CiBootstrap {
  import opened Wrappers
  import opened Text
  import opened Sorting
  import Condarc

  const Server: string := "http://www.idiap.ch"

  const PrivateBeta: string := Server + "/private/conda/label/beta"
  const PrivateStable: string := Server + "/private/conda"
  const PublicBeta: string := Server + "/public/conda/label/beta"
  const PublicStable: string := Server + "/public/conda"

  predicate IsBeta(c: string) {
    c == PrivateBeta || c == PublicBeta
  }

  predicate IsPrivate(c: string) {
    c == PrivateBeta || c == PrivateStable
  }

  /** The channels to read from, most restrictive first: private ones only for
      a non-public project, beta ones only when no tag is being built, and the
      public stable channel always last. A missing visibility variable raises. */
  function LocalChannels(env: map<string, string>): (r: Result<seq<string>>)
    ensures r.Failure? <==> "CI_PROJECT_VISIBILITY" !in env
    ensures r.Success? ==> var public := env["CI_PROJECT_VISIBILITY"] == "public";
      var stable := "CI_COMMIT_TAG" in env;
      && |r.value| == (if public then 1 else 2) * (if stable then 1 else 2)
      && r.value[|r.value| - 1] == PublicStable
      && ((exists c <- r.value :: IsBeta(c)) <==> !stable)
      && ((exists c <- r.value :: IsPrivate(c)) <==> !public)
    ensures r.Success? ==> ChannelOrder(r.value)
  {
    if "CI_PROJECT_VISIBILITY" !in env then Failure("KeyError: CI_PROJECT_VISIBILITY")
    else
      var public := env["CI_PROJECT_VISIBILITY"] == "public";
      var stable := "CI_COMMIT_TAG" in env;
      var privates := if public then [] else (if stable then [] else [PrivateBeta]) + [PrivateStable];
      var publics := (if stable then [] else [PublicBeta]) + [PublicStable];
      var r := privates + publics;
      ChannelFacts(public, stable, r);
      Success(r)
  }

  /** Channels drawn from the known four, each at most once, every private
      one before every public one and, within each visibility, beta before
      stable. */
  predicate ChannelOrder(r: seq<string>) {
    && (forall c <- r :: c in AllChannels)
    && (forall i, j | 0 <= i < j < |r| :: r[i] != r[j])
    && (forall i, j | 0 <= i < |r| && 0 <= j < |r| && IsPrivate(r[i]) && !IsPrivate(r[j]) :: i < j)
    && (forall i, j | 0 <= i < |r| && 0 <= j < |r| ::
          IsBeta(r[i]) && !IsBeta(r[j]) && IsPrivate(r[i]) == IsPrivate(r[j]) ==> i < j)
  }

  /** The four lists the script can build. */
  lemma ChannelFacts(public: bool, stable: bool, r: seq<string>)
    requires r == (if public then [] else (if stable then [] else [PrivateBeta]) + [PrivateStable])
      + ((if stable then [] else [PublicBeta]) + [PublicStable])
    ensures |r| == (if public then 1 else 2) * (if stable then 1 else 2)
    ensures r[|r| - 1] == PublicStable
    ensures (exists c <- r :: IsBeta(c)) <==> !stable
    ensures (exists c <- r :: IsPrivate(c)) <==> !public
    ensures ChannelOrder(r)
  {
    ChannelsDistinct();
    if public && stable {
      assert r == [PublicStable];
      assert r[0] in r;
    } else if public {
      assert r == [PublicBeta, PublicStable];
      PublicOrder();
      assert r[0] in r;
    } else if stable {
      assert r == [PrivateStable, PublicStable];
      StableOrder();
      assert r[0] in r;
    } else {
      assert r == AllChannels;
      AllOrder();
      assert r[0] in r && r[2] in r;
    }
  }

  /** The list of a public project without a tag is in order. */
  lemma PublicOrder()
    ensures ChannelOrder([PublicBeta, PublicStable])
  {
    ChannelsDistinct();
  }

  /** The list of a private project with a tag is in order. */
  lemma StableOrder()
    ensures ChannelOrder([PrivateStable, PublicStable])
  {
    ChannelsDistinct();
  }

  /** The list of a private project without a tag, every known channel, is
      in order. */
  lemma AllOrder()
    ensures ChannelOrder(AllChannels)
  {
    ChannelsDistinct();
  }

  /** Every channel the script knows, in the order it lists them. */
  const AllChannels: seq<string> := [PrivateBeta, PrivateStable, PublicBeta, PublicStable]

  /** A channel is read unless it is private in a public project or beta
      when a tag is built. */
  predicate Wanted(c: string, public: bool, stable: bool) {
    (!public || !IsPrivate(c)) && (!stable || !IsBeta(c))
  }

  /** The wanted channels of `cs`, in order. */
  function Select(cs: seq<string>, public: bool, stable: bool): (r: seq<string>)
    ensures |r| <= |cs|
  {
    if cs == [] then []
    else (if Wanted(cs[0], public, stable) then [cs[0]] else []) + Select(cs[1..], public, stable)
  }

  /** The filter keeps only channels it was given, and exactly the wanted
      ones among them. */
  lemma {:induction false} SelectWanted(cs: seq<string>, public: bool, stable: bool)
    ensures forall c :: c in Select(cs, public, stable) <==> c in cs && Wanted(c, public, stable)
  {
    if cs != [] {
      SelectWanted(cs[1..], public, stable);
      assert cs == [cs[0]] + cs[1..];
    }
  }

  /** The channel list is the known channels, in their fixed order, less
      those the project's visibility and the tag rule out. */
  lemma LocalChannelsSelect(env: map<string, string>)
    requires "CI_PROJECT_VISIBILITY" in env
    ensures LocalChannels(env).value ==
      Select(AllChannels, env["CI_PROJECT_VISIBILITY"] == "public", "CI_COMMIT_TAG" in env)
  {
    SelectAll(env["CI_PROJECT_VISIBILITY"] == "public", "CI_COMMIT_TAG" in env);
  }

  /** Selecting from the known channels, one channel at a time. */
  lemma SelectAll(public: bool, stable: bool)
    ensures Select(AllChannels, public, stable) ==
      (if public then [] else (if stable then [] else [PrivateBeta]) + [PrivateStable])
      + ((if stable then [] else [PublicBeta]) + [PublicStable])
  {
    ChannelsDistinct();
    var s3 := Select([PublicStable], public, stable);
    assert [PublicStable][1..] == [] && Select([], public, stable) == [];
    assert Wanted(PublicStable, public, stable);
    assert s3 == [PublicStable];
    var s2 := Select([PublicBeta, PublicStable], public, stable);
    assert [PublicBeta, PublicStable][1..] == [PublicStable];
    assert s2 == (if stable then [] else [PublicBeta]) + s3;
    var s1 := Select([PrivateStable, PublicBeta, PublicStable], public, stable);
    assert [PrivateStable, PublicBeta, PublicStable][1..] == [PublicBeta, PublicStable];
    assert s1 == (if public then [] else [PrivateStable]) + s2;
    assert AllChannels[1..] == [PrivateStable, PublicBeta, PublicStable];
  }

  lemma ChannelsDistinct()
    ensures !IsBeta(PrivateStable) && !IsBeta(PublicStable)
    ensures !IsPrivate(PublicBeta) && !IsPrivate(PublicStable)
  {
    assert PrivateBeta[|Server| + 2] == 'r' && PrivateStable[|Server| + 2] == 'r';
    assert PublicBeta[|Server| + 2] == 'u' && PublicStable[|Server| + 2] == 'u';
  }

  /** The package-cache merge: the distinct lines of both `urls.txt` files,
      in sorted order. */
  function MergeUrls(lines1: seq<string>, lines2: seq<string>): (r: seq<string>)
    ensures StrictlySorted(r)
    ensures forall l :: l in r <==> l in lines1 || l in lines2
  {
    SortedSet(lines1 + lines2)
  }

  /** Appending a channel list to an existing condarc text: the existing
      text is kept, the `channels:` key follows, and then one item per
      channel, which read back as the same list. */
  function AddChannelsCondarc(condarc: string, channels: seq<string>): (r: string)
    ensures StartsWith(r, condarc + "channels:\n")
    ensures (forall k <- channels :: '\n' !in k) ==>
      Condarc.ParseChannelLines(r[|condarc + "channels:\n"|..]) == channels
  {
    var r := condarc + "channels:\n" + Condarc.ChannelLines(channels);
    assert r[|condarc + "channels:\n"|..] == Condarc.ChannelLines(channels);
    if forall k <- channels :: '\n' !in k then
      Condarc.ChannelLinesRoundTrip(channels);
      r
    else
      r
  }

  /** The channels configured for a bootstrap mode: "build" uses only the
      defaults, "local" the local build directory then the defaults, "beta"
      and "stable" the local channels then the defaults; any other mode exits
      with status 1. A missing visibility variable raises in the last case. */
  function ModeChannels(mode: string, prefix: string, env: map<string, string>): (r: Result<seq<string>>)
    ensures mode == "build" ==> r == Success(["defaults"])
    ensures mode == "local" ==> r == Success([PathJoin(prefix, "conda-bld"), "defaults"])
    ensures mode == "beta" || mode == "stable" ==>
      (r.Success? <==> LocalChannels(env).Success?)
      && (r.Success? ==> r.value == LocalChannels(env).value + ["defaults"])
    ensures mode !in {"build", "local", "beta", "stable"} ==> r == Failure("exit 1")
    ensures r.Success? ==> |r.value| >= 1 && r.value[|r.value| - 1] == "defaults"
  {
    if mode == "build" then Success(["defaults"])
    else if mode == "local" then Success([PathJoin(prefix, "conda-bld"), "defaults"])
    else if mode == "beta" || mode == "stable" then
      var channels :- LocalChannels(env);
      Success(channels + ["defaults"])
    else Failure("exit 1")
  }

  /** The mode name does not decide stability: "stable" without a tag in the
      environment still reads from the beta channels. */
  lemma StableModeWithoutTagReadsBeta(prefix: string, env: map<string, string>)
    requires "CI_PROJECT_VISIBILITY" in env && "CI_COMMIT_TAG" !in env
    ensures ModeChannels("stable", prefix, env).Success?
    ensures PublicBeta in ModeChannels("stable", prefix, env).value
  {
  }
}

=== FILE: cli.dfy ===
/** The command-line front end: resolution of a command name that may be
    abbreviated to any unambiguous prefix, and the wrapper that turns a
    command's non-zero return value into an error exit.
 */
module Cli {
  import opened Wrappers
  import opened Text
  import opened Sorting

  /** The registered commands whose name starts with `prefix`, in listing
      order. */
  function PrefixMatches(commands: seq<string>, prefix: string): (r: seq<string>)
    ensures forall x :: x in r <==> x in commands && StartsWith(x, prefix)
    ensures r == [] <==> forall x <- commands :: !StartsWith(x, prefix)
    ensures |r| <= |commands|
  {
    if commands == [] then []
    else
      var rest := PrefixMatches(commands[1..], prefix);
      assert forall x <- commands :: x == commands[0] || x in commands[1..];
      (if StartsWith(commands[0], prefix) then [commands[0]] else []) + rest
  }

  /** The command `name` resolves to, given the registered `commands`: the
      command of that exact name if there is one; otherwise the only command
      it is a prefix of; none when it is a prefix of no command; and a usage
      error listing the candidates in sorted order when it is a prefix of
      several. */
  function GetCommand(commands: seq<string>, name: string): (r: Result<Option<string>>)
    ensures name in commands ==> r == Success(Some(name))
    ensures r == Success(None) <==> forall x <- commands :: !StartsWith(x, name)
    ensures r.Success? && r.value.Some? ==>
      r.value.value in commands && StartsWith(r.value.value, name)
      && (r.value.value == name || forall x <- commands :: StartsWith(x, name) ==> x == r.value.value)
    ensures r.Failure? <==> name !in commands && |PrefixMatches(commands, name)| >= 2
    ensures r.Failure? ==> r.error == "Too many matches: " + Join(Sort(PrefixMatches(commands, name)), ", ")
  {
    if name in commands then
      Success(Some(name))
    else
      var matches := PrefixMatches(commands, name);
      if matches == [] then
        assert forall x <- commands :: !StartsWith(x, name) by {
          forall x <- commands ensures !StartsWith(x, name) {
            assert x !in matches;
          }
        }
        Success(None)
      else if |matches| == 1 then
        assert matches[0] in matches;
        assert forall x <- matches :: x == matches[0];
        Success(Some(matches[0]))
      else
        assert matches[0] in matches && matches[0] in commands && StartsWith(matches[0], name);
        Failure("Too many matches: " + Join(Sort(matches), ", "))
  }

  /** An exact name wins even when it is also a prefix of other commands. */
  lemma ExactNameWins(name: string, other: string)
    ensures GetCommand([name, name + other], name) == Success(Some(name))
  {
  }

  /** Registered command names are distinct. */
  predicate Distinct(commands: seq<string>) {
    forall i, j | 0 <= i < j < |commands| :: commands[i] != commands[j]
  }

  /** A unique prefix resolves to the command it abbreviates. */
  lemma UniquePrefixResolves(commands: seq<string>, name: string, full: string)
    requires Distinct(commands)
    requires full in commands && StartsWith(full, name) && name !in commands
    requires forall x <- commands :: StartsWith(x, name) ==> x == full
    ensures GetCommand(commands, name) == Success(Some(full))
  {
    MatchesSingle(commands, name, full);
  }

  lemma {:induction false} MatchesSingle(commands: seq<string>, name: string, full: string)
    requires Distinct(commands)
    requires full in commands && StartsWith(full, name)
    requires forall x <- commands :: StartsWith(x, name) ==> x == full
    ensures PrefixMatches(commands, name) == [full]
  {
    var rest := commands[1..];
    assert forall x <- rest :: x in commands;
    if commands[0] == full {
      assert full !in rest by {
        forall j | 0 <= j < |rest| ensures rest[j] != full {
          assert rest[j] == commands[j + 1];
        }
      }
      assert forall x <- rest :: !StartsWith(x, name);
    } else {
      assert Distinct(rest) by {
        forall i, j | 0 <= i < j < |rest| ensures rest[i] != rest[j] {
          assert rest[i] == commands[i + 1] && rest[j] == commands[j + 1];
        }
      }
      MatchesSingle(rest, name, full);
    }
  }

  /** A value a command returns. */
  datatype PyValue = PyNone | PyInt(i: int) | PyBool(b: bool) | PyStr(s: string)

  /** The exit code a value stands for when it is raised, before the
      operating system keeps only its low eight bits. */
  function ExitCode(v: PyValue): int {
    match v
    case PyInt(i) => i
    case PyBool(b) => if b then 1 else 0
    case _ => 1
  }

  /** What the wrapped command does: returns the value, or raises an error
      exit carrying the value as exit code. */
  datatype Outcome = Returned(value: PyValue) | Raised(exitCode: PyValue)

  /** Python's `value in [None, 0]`: None, or anything equal to 0 (False
      included). */
  predicate IsSuccessValue(v: PyValue) {
    v == PyNone || v == PyInt(0) || v == PyBool(false)
  }

  /** The wrapper around a command: the command's value is returned when
      it is None or 0; any other value is raised with that value as the
      exit code. */
  function RaiseOnError<A(!new)>(view: A -> PyValue): (wrapped: A -> Outcome)
    ensures forall a :: wrapped(a).Returned? <==> IsSuccessValue(view(a))
    ensures forall a :: wrapped(a).Returned? ==> wrapped(a).value == view(a)
    ensures forall a :: wrapped(a).Raised? ==> wrapped(a).exitCode == view(a)
  {
    a => var value := view(a); if IsSuccessValue(value) then Returned(value) else Raised(value)
  }

  /** A command returning a non-zero status exits with that status. */
  lemma NonZeroStatusRaised<A(!new)>(view: A -> PyValue, a: A, status: int)
    requires view(a) == PyInt(status) && status != 0
    ensures RaiseOnError(view)(a) == Raised(PyInt(status))
    ensures ExitCode(RaiseOnError(view)(a).exitCode) == status
  {
  }
}

=== FILE: conda_skip.dfy ===
/** Whether a recipe's build is skipped: all of its rendered variants must
    say so. What a variant's metadata says is an oracle.
 */
module CondaSkip {

  /** One rendered variant: its metadata, and whether the recipe must be
      downloaded or re-rendered. */
  datatype Rendered<M> = Rendered(metadata: M, needsDownload: bool, needsReparse: bool)

  /** `all(m[0].skip() for m in rendered)`. */
  function ShouldSkipBuild<M>(rendered: seq<Rendered<M>>, skip: M -> bool): (r: bool)
    ensures r <==> forall m <- rendered :: skip(m.metadata)
    ensures rendered == [] ==> r
  {
    if rendered == [] then true
    else
      assert forall m <- rendered :: m == rendered[0] || m in rendered[1..];
      skip(rendered[0].metadata) && ShouldSkipBuild(rendered[1..], skip)
  }

  /** One variant that is built is enough to build the recipe. */
  lemma OneBuiltVariantBuilds<M>(rendered: seq<Rendered<M>>, skip: M -> bool, i: nat)
    requires i < |rendered| && !skip(rendered[i].metadata)
    ensures !ShouldSkipBuild(rendered, skip)
  {
    assert rendered[i] in rendered;
  }

  /** The verdict does not depend on the order of the variants. */
  lemma {:induction false} OrderIndependent<M>(a: seq<Rendered<M>>, b: seq<Rendered<M>>, skip: M -> bool)
    requires multiset(a) == multiset(b)
    ensures ShouldSkipBuild(a, skip) == ShouldSkipBuild(b, skip)
  {
    forall m <- a ensures m in b {
      assert m in multiset(a);
    }
    forall m <- b ensures m in a {
      assert m in multiset(b);
    }
  }
}

=== FILE: condarc.dfy ===
/** The `channels:` block of a condarc file: one `  - <channel>` line per
    channel, in priority order. Both the CI configurator and the bootstrap
    script write channels in this layout.
 */
module Condarc {
  import opened Text

  const ItemPrefix: string := "  - "

  /** The lines `"  - k\n"` for every channel `k`, in order. */
  function ChannelLines(channels: seq<string>): (r: string)
    ensures r == [] <==> channels == []
    ensures channels != [] ==> r[|r| - 1] == '\n'
  {
    if channels == [] then [] else ItemPrefix + channels[0] + "\n" + ChannelLines(channels[1..])
  }

  /** Reads the channel names back from the item lines of a channel block. */
  function ParseItems(lines: seq<string>): (r: seq<string>)
    ensures |r| <= |lines|
    ensures (forall l <- lines :: '\n' !in l) ==> forall k <- r :: '\n' !in k
  {
    if lines == [] then []
    else
      assert forall l <- lines[1..] :: l in lines;
      if StartsWith(lines[0], ItemPrefix) then
        assert forall c <- lines[0][|ItemPrefix|..] :: c in lines[0];
        [lines[0][|ItemPrefix|..]] + ParseItems(lines[1..])
      else ParseItems(lines[1..])
  }

  /** The channels of a block: one per line that starts with the item
      prefix, so no channel read back spans two lines. */
  function ParseChannelLines(text: string): (r: seq<string>)
    ensures forall k <- r :: '\n' !in k
    ensures |r| <= |SplitOn(text, '\n')|
  {
    ParseItems(SplitOn(text, '\n'))
  }

  /** Rendering a channel list and reading it back gives the same list, in
      the same order, as long as no channel name contains a line break. */
  lemma {:induction false} ChannelLinesRoundTrip(channels: seq<string>)
    requires forall k <- channels :: '\n' !in k
    ensures ParseChannelLines(ChannelLines(channels)) == channels
  {
    if channels == [] {
      assert SplitOn([], '\n') == [[]];
    } else {
      var k := channels[0];
      var line := ItemPrefix + k;
      assert '\n' !in line by {
        assert '\n' !in ItemPrefix;
      }
      assert ChannelLines(channels) == line + ['\n'] + ChannelLines(channels[1..]);
      SplitOnCons(line, '\n', ChannelLines(channels[1..]));
      assert line[..|ItemPrefix|] == ItemPrefix;
      assert line[|ItemPrefix|..] == k;
      ChannelLinesRoundTrip(channels[1..]);
    }
  }
}

=== FILE: configurator.dfy ===
/** The CI configurator script: which conda channels a build reads from,
    for a package of a given group, visibility and stability, and the condarc
    text it writes. Public channels live under `/software/<group>/conda`,
    private ones under `/private/conda`; beta channels carry `/label/beta`.
 */
module Configurator {
  import opened Wrappers
  import opened Text
  import Condarc

  const Server: string := "http://bobconda.lab.idiap.ch"

  const Beta: string := "/label/beta"

  const BaseCondarc: string :=
    "add_pip_as_python_dependency: false #!final\n"
    + "always_yes: true #!final\n"
    + "anaconda_upload: false #!final\n"
    + "channel_priority: strict #!final\n"
    + "conda_build: #!final\n"
    + "  pkg_format: '2'\n"
    + "default_channels: #!final\n"
    + "  - http://bobconda.lab.idiap.ch:8000/pkgs/main\n"
    + "channel_alias: http://bobconda.lab.idiap.ch:9000 #!final\n"
    + "quiet: true #!final\n"
    + "remote_connect_timeout_secs: 120.0 #!final\n"
    + "remote_max_retries: 50 #!final\n"
    + "remote_read_timeout_secs: 180.0 #!final\n"
    + "show_channel_urls: true #!final\n"
    + "ssl_verify: false #!final\n"
    + "channels:\n"

  /** The public channel of `group`, stable or beta. */
  function PublicChannel(server: string, group: string, stable: bool): string {
    server + "/software/" + group + "/conda" + (if stable then "" else Beta)
  }

  /** The private channel, stable or beta. */
  function PrivateChannel(server: string, stable: bool): string {
    server + "/private/conda" + (if stable then "" else Beta)
  }

  /** The channels a build reads from, highest priority first: the public
      channel of the group, then (for a private package) the private channel,
      then conda-forge. A private package cannot be served off the intranet. */
  function GetChannels(public: bool, stable: bool, server: string, intranet: bool, group: string)
    : (r: Result<seq<string>>)
    ensures r.Failure? <==> !public && !intranet
    ensures r.Success? ==> |r.value| == (if public then 2 else 3)
    ensures r.Success? ==> r.value[0] == PublicChannel(server, group, stable)
    ensures r.Success? ==> r.value[|r.value| - 1] == "conda-forge"
    ensures r.Success? ==> (PrivateChannel(server, stable) in r.value <==> !public)
    ensures r.Success? && !public ==> r.value[1] == PrivateChannel(server, stable)
    ensures r.Success? ==> forall i | 0 <= i < |r.value| - 1 :: EndsWith(r.value[i], Beta) <==> !stable
  {
    if !public && !intranet then
      Failure("RuntimeError: You cannot request for private channels and set intranet=False (server="
        + server + ") - these are conflicting options")
    else
      var channels := [PublicChannel(server, group, stable)]
        + (if public then [] else [PrivateChannel(server, stable)])
        + ["conda-forge"];
      PrivateChannelNotConfused(server, group, stable);
      assert EndsWith(server + "/software/" + group + "/conda", "/conda");
      assert EndsWith(server + "/private/conda", "/conda");
      BetaSuffix(server + "/software/" + group + "/conda", stable);
      BetaSuffix(server + "/private/conda", stable);
      Success(channels)
  }

  /** A channel URL carries the beta label exactly when it is not stable. */
  lemma BetaSuffix(base: string, stable: bool)
    requires EndsWith(base, "/conda")
    ensures EndsWith(base + (if stable then "" else Beta), Beta) <==> !stable
  {
    var s := base + (if stable then "" else Beta);
    if stable {
      // "/conda" and "/label/beta" differ five characters from the end
      assert s[|s| - 5] == 'c';
      assert Beta[|Beta| - 5] == '/';
    } else {
      assert s[|s| - |Beta|..] == Beta;
    }
  }

  lemma PrivateChannelNotConfused(server: string, group: string, stable: bool)
    ensures PrivateChannel(server, stable) != PublicChannel(server, group, stable)
    ensures PrivateChannel(server, stable) != "conda-forge"
  {
    var p := PrivateChannel(server, stable);
    var q := PublicChannel(server, group, stable);
    assert p[|server| + 1] == 'p' && q[|server| + 1] == 's';
    assert p[|p| - 1] == 'a';
  }

  /** What the script's entry point does with its command line. */
  datatype Outcome = Exit(code: int) | WriteFile(path: string, contents: string)

  /** The entry point: `argv` is the full command line including the script
      name; the project is public when its visibility is "public" and stable
      when a non-empty tag is given; the condarc is the base text followed by
      one item line per channel. */
  function Run(argv: seq<string>): (r: Outcome)
    ensures |argv| != 5 <==> r == Exit(1)
    ensures |argv| == 5 ==> r.WriteFile? && r.path == argv[4]
    ensures |argv| == 5 ==> var chans := GetChannels(argv[2] == "public", argv[3] != "", Server, true, argv[1]);
      chans.Success? && r.contents == BaseCondarc + Condarc.ChannelLines(chans.value)
  {
    if |argv| != 5 then Exit(1)
    else
      var group := argv[1];
      var public := argv[2] == "public";
      var stable := argv[3] != "";
      var channels := GetChannels(public, stable, Server, true, group);
      WriteFile(argv[4], BaseCondarc + Condarc.ChannelLines(channels.value))
  }

  /** No resolved channel spans two lines. */
  lemma ChannelsSingleLine(public: bool, stable: bool, group: string)
    requires '\n' !in group
    ensures forall k <- GetChannels(public, stable, Server, true, group).value :: '\n' !in k
  {
    ServerSingleLine();
    ChannelsOneLine(public, stable, Server, group);
  }

  lemma ChannelsOneLine(public: bool, stable: bool, server: string, group: string)
    requires '\n' !in server && '\n' !in group
    ensures forall k <- GetChannels(public, stable, server, true, group).value :: '\n' !in k
  {
    var pub, priv := PublicChannel(server, group, stable), PrivateChannel(server, stable);
    PublicSingleLine(server, group, stable);
    PrivateSingleLine(server, stable);
    AllOneLine(pub, priv, "conda-forge");
    ChannelsListed(public, stable, server, group);
  }

  /** The resolved channels, spelled out. */
  lemma ChannelsListed(public: bool, stable: bool, server: string, group: string)
    ensures GetChannels(public, stable, server, true, group).value
      == [PublicChannel(server, group, stable)]
      + (if public then [] else [PrivateChannel(server, stable)])
      + ["conda-forge"]
  {
  }

  lemma AllOneLine(a: string, b: string, c: string)
    requires '\n' !in a && '\n' !in b && '\n' !in c
    ensures forall k <- [a, c] :: '\n' !in k
    ensures forall k <- [a, b, c] :: '\n' !in k
  {
  }

  lemma PublicSingleLine(server: string, group: string, stable: bool)
    requires '\n' !in server && '\n' !in group
    ensures '\n' !in PublicChannel(server, group, stable)
  {
    var suffix := if stable then "" else Beta;
    assert '\n' !in suffix;
    OneLine(server, "/software/");
    OneLine(server + "/software/", group);
    OneLine(server + "/software/" + group, "/conda");
    OneLine(server + "/software/" + group + "/conda", suffix);
  }

  lemma PrivateSingleLine(server: string, stable: bool)
    requires '\n' !in server
    ensures '\n' !in PrivateChannel(server, stable)
  {
    var suffix := if stable then "" else Beta;
    assert '\n' !in suffix;
    OneLine(server, "/private/conda");
    OneLine(server + "/private/conda", suffix);
  }

  /** Two pieces without a line break join into one line. */
  lemma OneLine(a: string, b: string)
    requires '\n' !in a && '\n' !in b
    ensures '\n' !in a + b
  {
  }

  lemma ServerSingleLine()
    ensures '\n' !in Server
  {
    forall i | 0 <= i < |Server| ensures Server[i] != '\n' {
    }
  }

  /** The condarc written by the entry point lists, after the base text,
      exactly the resolved channels in priority order. */
  lemma RunListsChannels(group: string, visibility: string, tag: string, path: string)
    requires '\n' !in group
    ensures var r := Run(["conda-configurator.py", group, visibility, tag, path]);
      var chans := GetChannels(visibility == "public", tag != "", Server, true, group).value;
      && r.WriteFile?
      && StartsWith(r.contents, BaseCondarc)
      && Condarc.ParseChannelLines(r.contents[|BaseCondarc|..]) == chans
  {
    var stable := tag != "";
    var chans := GetChannels(visibility == "public", stable, Server, true, group).value;
    ChannelsSingleLine(visibility == "public", stable, group);
    Condarc.ChannelLinesRoundTrip(chans);
    var r := Run(["conda-configurator.py", group, visibility, tag, path]);
    assert r.contents[|BaseCondarc|..] == Condarc.ChannelLines(chans);
  }
}

=== FILE: deploy.dfy ===
/** The planning part of the CI deploy command: which conda packages are
    uploaded to which remote paths (refusing to overwrite anything that is
    already on the server), and the set of documentation sub-directories a
    build publishes to. The server's existence check, the build directory
    listing and the presence of the local documentation are inputs.
 */
module Deploy {
  import opened Wrappers
  import opened Text

  /** The server paths of one (stability, visibility) combination. */
  datatype ServerInfo = ServerInfo(root: string, conda: string, docs: string)

  /** A package file found in the build directory of one architecture. */
  datatype Candidate = Candidate(arch: string, file: string)

  /** The architectures whose build directories are deployed, in order. */
  const Archs: seq<string> := ["linux-64", "osx-64", "noarch"]

  const PackageSuffix: string := ".tar.bz2"

  /** Whether `file` matches the glob `<name>*.tar.bz2`; like glob, a
      pattern not starting with '.' skips hidden files. */
  predicate MatchesPackageGlob(name: string, file: string)
    ensures MatchesPackageGlob(name, file) ==>
      |name| + |PackageSuffix| <= |file| && file == name + file[|name|..|file| - |PackageSuffix|] + PackageSuffix
  {
    && |file| >= |name| + |PackageSuffix|
    && StartsWith(file, name)
    && EndsWith(file, PackageSuffix)
    && (StartsWith(file, ".") ==> StartsWith(name, "."))
  }

  function Matching(name: string, arch: string, files: seq<string>): (r: seq<Candidate>)
    ensures forall c <- r :: c.arch == arch && c.file in files && MatchesPackageGlob(name, c.file)
    ensures forall f <- files :: MatchesPackageGlob(name, f) ==> Candidate(arch, f) in r
  {
    if files == [] then []
    else
      (if MatchesPackageGlob(name, files[0]) then [Candidate(arch, files[0])] else [])
        + Matching(name, arch, files[1..])
  }

  /** The packages considered, architecture by architecture, each in the
      order the directory listing gives. */
  function Candidates(name: string, listing: string -> seq<string>): (r: seq<Candidate>)
    ensures forall c <- r :: c.arch in Archs && c.file in listing(c.arch) && MatchesPackageGlob(name, c.file)
    ensures forall a <- Archs, f <- listing(a) :: MatchesPackageGlob(name, f) ==> Candidate(a, f) in r
  {
    Matching(name, Archs[0], listing(Archs[0]))
      + Matching(name, Archs[1], listing(Archs[1]))
      + Matching(name, Archs[2], listing(Archs[2]))
  }

  /** Where a package goes: the conda directory of the server, then the
      architecture, then the file's name. */
  function RemotePath(info: ServerInfo, c: Candidate): (r: string)
    ensures StartsWith(r, info.root + info.conda + "/")
    ensures EndsWith(r, "/" + c.arch + "/" + c.file)
    ensures |r| == |info.root| + |info.conda| + |c.arch| + |c.file| + 2
  {
    info.root + info.conda + "/" + c.arch + "/" + c.file
  }

  function RemotePaths(info: ServerInfo, cs: seq<Candidate>): (r: seq<string>)
    ensures |r| == |cs|
    ensures forall i | 0 <= i < |cs| :: r[i] == RemotePath(info, cs[i])
  {
    if cs == [] then [] else [RemotePath(info, cs[0])] + RemotePaths(info, cs[1..])
  }

  /** The package phase: the paths uploaded, and the path whose existence on
      the server stopped the deploy, if any. */
  datatype UploadRun = UploadRun(uploaded: seq<string>, refused: Option<string>)

  /** `r` is what processing `cands` in order does when the first `n` of
      them are absent from the server: those are uploaded (unless dry-run),
      and the deploy stops at the next one if there is one. */
  predicate StopsAfter(r: UploadRun, info: ServerInfo, cands: seq<Candidate>, onServer: string -> bool, dryRun: bool, n: nat) {
    && n <= |cands|
    && (forall j | 0 <= j < n :: !onServer(RemotePath(info, cands[j])))
    && (r.refused.None? <==> n == |cands|)
    && (r.refused.Some? ==> n < |cands| && r.refused.value == RemotePath(info, cands[n]) && onServer(r.refused.value))
    && r.uploaded == (if dryRun then [] else RemotePaths(info, cands[..n]))
  }

  /** Each package is checked against the server before it is uploaded; an
      existing file stops the deploy and is never overwritten. Dry-run skips
      the uploads but not the check. */
  function Uploads(info: ServerInfo, cands: seq<Candidate>, onServer: string -> bool, dryRun: bool): (r: UploadRun)
    ensures r.refused.None? <==> forall c <- cands :: !onServer(RemotePath(info, c))
    ensures r.refused.Some? ==> onServer(r.refused.value)
    ensures forall p <- r.uploaded :: !onServer(p)
    ensures dryRun ==> r.uploaded == []
  {
    if cands == [] then UploadRun([], None)
    else
      var path := RemotePath(info, cands[0]);
      if onServer(path) then UploadRun([], Some(path))
      else
        var rest := Uploads(info, cands[1..], onServer, dryRun);
        assert forall c <- cands :: c == cands[0] || c in cands[1..];
        UploadRun((if dryRun then [] else [path]) + rest.uploaded, rest.refused)
  }

  /** The package phase stops at the first package already on the server,
      having uploaded exactly the ones before it. */
  lemma {:induction false} UploadsStopAtFirstExisting(info: ServerInfo, cands: seq<Candidate>, onServer: string -> bool, dryRun: bool)
    ensures exists n: nat :: StopsAfter(Uploads(info, cands, onServer, dryRun), info, cands, onServer, dryRun, n)
  {
    var r := Uploads(info, cands, onServer, dryRun);
    if cands == [] {
      assert StopsAfter(r, info, cands, onServer, dryRun, 0);
    } else if onServer(RemotePath(info, cands[0])) {
      assert StopsAfter(r, info, cands, onServer, dryRun, 0);
    } else {
      var rest := Uploads(info, cands[1..], onServer, dryRun);
      UploadsStopAtFirstExisting(info, cands[1..], onServer, dryRun);
      var n: nat :| StopsAfter(rest, info, cands[1..], onServer, dryRun, n);
      StopsAfterCons(rest, info, cands, onServer, dryRun, n);
    }
  }

  lemma StopsAfterCons(rest: UploadRun, info: ServerInfo, cands: seq<Candidate>, onServer: string -> bool, dryRun: bool, n: nat)
    requires cands != [] && !onServer(RemotePath(info, cands[0]))
    requires StopsAfter(rest, info, cands[1..], onServer, dryRun, n)
    ensures StopsAfter(
      UploadRun((if dryRun then [] else [RemotePath(info, cands[0])]) + rest.uploaded, rest.refused),
      info, cands, onServer, dryRun, n + 1)
  {
    assert cands[..n + 1] == [cands[0]] + cands[1..][..n];
    assert forall j | 1 <= j < n + 1 :: cands[j] == cands[1..][j - 1];
  }

  /** The documentation sub-directories: the ref name always; for a stable
      build also "master", "stable" and the tag when one is set. */
  function DocDestinations(refName: string, tag: Option<string>, stable: bool): (r: set<string>)
    ensures refName in r
    ensures !stable ==> r == {refName}
    ensures stable ==> "master" in r && "stable" in r
    ensures stable && tag.Some? ==> tag.value in r
    ensures forall k <- r :: k == refName || (stable && (k == "master" || k == "stable" || (tag.Some? && k == tag.value)))
    ensures 1 <= |r| <= 4
  {
    var base := {refName};
    if !stable then base
    else
      var r := base + {"master"} + (if tag.Some? then {tag.value} else {}) + {"stable"};
      assert |(if tag.Some? then {tag.value} else {})| <= 1;
      r
  }

  /** What the deploy does: package uploads, the documentation paths it
      publishes to, and the error that stopped it, if any. */
  datatype Deployment = Deployment(uploaded: seq<string>, docTargets: set<string>, error: Option<string>)

  /** The documentation destinations: one path under the package's
      documentation directory per destination name. */
  function DocTargets(info: ServerInfo, package: string, dests: set<string>): (r: set<string>)
    ensures r == {} <==> dests == {}
    ensures forall k <- dests :: info.root + info.docs + "/" + package + "/" + k in r
    ensures forall t <- r ::
      && StartsWith(t, info.root + info.docs + "/" + package + "/")
      && t[|info.root + info.docs + "/" + package + "/"|..] in dests
  {
    var r := set k <- dests :: info.root + info.docs + "/" + package + "/" + k;
    assert forall k <- dests :: info.root + info.docs + "/" + package + "/" + k in r;
    r
  }

  /** The deploy of `package` ("group/name"): packages first, then the
      documentation, which must exist locally. */
  function Run(
    package: string, refName: string, tag: Option<string>, stable: bool, info: ServerInfo,
    listing: string -> seq<string>, onServer: string -> bool, docsExist: bool, dryRun: bool)
    : (r: Deployment)
    ensures |SplitOn(package, '/')| != 2 ==> r.uploaded == [] && r.docTargets == {} && r.error.Some?
    ensures forall p <- r.uploaded :: !onServer(p)
    ensures dryRun ==> r.uploaded == []
    ensures r.error.None? <==>
      && |SplitOn(package, '/')| == 2
      && (forall c <- Candidates(SplitOn(package, '/')[1], listing) :: !onServer(RemotePath(info, c)))
      && docsExist
    ensures r.error.None? ==> r.docTargets == DocTargets(info, package, DocDestinations(refName, tag, stable))
    ensures r.error.Some? ==> r.docTargets == {}
  {
    var parts := SplitOn(package, '/');
    if |parts| != 2 then
      Deployment([], {}, Some("ValueError: " + package + " is not of the form group/name"))
    else
      var run := Uploads(info, Candidates(parts[1], listing), onServer, dryRun);
      if run.refused.Some? then
        Deployment(run.uploaded, {}, Some("RuntimeError: The file " + run.refused.value + " already exists on the server"))
      else if !docsExist then
        Deployment(run.uploaded, {}, Some("RuntimeError: Documentation is not available"))
      else
        Deployment(run.uploaded, DocTargets(info, package, DocDestinations(refName, tag, stable)), None)
  }

  /** Dry-run only suppresses the package uploads: the checks, the refusals
      and the documentation plan are the same. */
  lemma {:induction false} DryRunSameChecks(info: ServerInfo, cands: seq<Candidate>, onServer: string -> bool)
    ensures Uploads(info, cands, onServer, true).refused == Uploads(info, cands, onServer, false).refused
  {
    if cands != [] && !onServer(RemotePath(info, cands[0])) {
      DryRunSameChecks(info, cands[1..], onServer);
    }
  }

  lemma DryRunOnlySkipsUploads(
    package: string, refName: string, tag: Option<string>, stable: bool, info: ServerInfo,
    listing: string -> seq<string>, onServer: string -> bool, docsExist: bool)
    ensures var dry := Run(package, refName, tag, stable, info, listing, onServer, docsExist, true);
      var wet := Run(package, refName, tag, stable, info, listing, onServer, docsExist, false);
      dry.uploaded == [] && dry.docTargets == wet.docTargets && (dry.error.Some? <==> wet.error.Some?)
  {
    var parts := SplitOn(package, '/');
    if |parts| == 2 {
      DryRunSameChecks(info, Candidates(parts[1], listing), onServer);
    }
  }

  /** A stable tagged build publishes its documentation under exactly four
      names when the ref and tag are distinct from "master" and "stable". */
  lemma StableTaggedDocs(refName: string, tag: string)
    requires refName != "master" && refName != "stable" && tag != "master" && tag != "stable" && tag != refName
    ensures DocDestinations(refName, Some(tag), true) == {refName, "master", "stable", tag}
  {
  }
}

=== FILE: env_bootstrap.dfy ===
/** Development-environment setup: dependency lists taken from a rendered
    recipe, the lookup of an existing environment, and the conda commands
    that (re)create it. Running commands is an oracle from command line to
    exit status.
 */
module EnvBootstrap {
  import opened Wrappers
  import opened Text
  import opened Sorting

  /** `s.split()[0]`: the first word, none for a blank string. */
  function FirstWord(s: string): (r: Option<string>)
    ensures r.None? <==> Words(s) == []
    ensures r.Some? ==> r.value == Words(s)[0] && IsWord(r.value)
  {
    var words := Words(s);
    if words == [] then None else Some(words[0])
  }

  /** A word is its own first word. */
  lemma FirstWordOfWord(w: string)
    requires IsWord(w)
    ensures FirstWord(w) == Some(w)
  {
    WordsCons(w, []);
    assert w + [] == w;
  }

  /** The values `first` gives the elements of `deps`, failing at the first
      element it gives nothing for. */
  function Heads(deps: seq<string>, first: string -> Option<string>): (r: Result<seq<string>>)
    ensures r.Success? <==> forall d <- deps :: first(d).Some?
    ensures r.Success? ==> |r.value| == |deps|
    ensures r.Success? ==> forall i | 0 <= i < |deps| :: first(deps[i]) == Some(r.value[i])
  {
    if deps == [] then Success([])
    else
      var head := first(deps[0]);
      assert deps[0] in deps;
      if head.None? then Failure("IndexError: list index out of range")
      else
        var rest :- Heads(deps[1..], first);
        assert forall d <- deps :: d == deps[0] || d in deps[1..];
        Success([head.value] + rest)
  }

  /** Elements that `first` maps to themselves are their own heads. */
  lemma {:induction false} HeadsFixed(names: seq<string>, first: string -> Option<string>)
    requires forall i | 0 <= i < |names| :: first(names[i]) == Some(names[i])
    ensures Heads(names, first) == Success(names)
  {
    if names != [] {
      HeadsFixed(names[1..], first);
      assert names == [names[0]] + names[1..];
    }
  }

  /** `[l.split()[0] for l in deps]`: each spec's package name; a blank spec
      has no first token and fails. */
  function RemovePins(deps: seq<string>): (r: Result<seq<string>>)
    ensures r.Success? <==> forall d <- deps :: FirstWord(d).Some?
    ensures r.Success? ==> |r.value| == |deps|
    ensures r.Success? ==> forall i | 0 <= i < |deps| :: FirstWord(deps[i]) == Some(r.value[i])
  {
    Heads(deps, FirstWord)
  }

  /** Removing pins twice is removing them once: names have no pins. */
  lemma RemovePinsIdempotent(deps: seq<string>)
    requires RemovePins(deps).Success?
    ensures RemovePins(RemovePins(deps).value) == RemovePins(deps)
  {
    var names := RemovePins(deps).value;
    forall i | 0 <= i < |names| ensures FirstWord(names[i]) == Some(names[i]) {
      FirstWordOfWord(names[i]);
    }
    HeadsFixed(names, FirstWord);
  }

  /** Packages always added for local development. */
  const LocalDevPackages: seq<string> := ["bob.buildout", "mr.developer", "ipdb"]

  /** The requirement sections of a rendered recipe; a missing section
      counts as empty. */
  datatype Requirements = Requirements(build: Option<seq<string>>, host: Option<seq<string>>, run: Option<seq<string>>)

  /** A rendered recipe: its requirements, and its test section's
      requirements, each of which may be missing. */
  datatype Recipe = Recipe(requirements: Option<Requirements>, test: Option<Option<seq<string>>>)

  /** `d.get(key, [])` for an optional section. */
  function OrEmpty(o: Option<seq<string>>): seq<string> {
    if o.Some? then o.value else []
  }

  function TestRequires(recipe: Recipe): seq<string> {
    if recipe.test.Some? then OrEmpty(recipe.test.value) else []
  }

  /** Everything the environment needs: build and host package names
      (without pins), the run and test requirements as written, then the
      local development packages. A recipe without requirements fails. */
  function ParseDependencies(recipe: Recipe): (r: Result<seq<string>>)
    ensures recipe.requirements.None? ==> r.Failure?
    ensures recipe.requirements.Some? ==>
      var req := recipe.requirements.value;
      var pinned := OrEmpty(req.build) + OrEmpty(req.host);
      && (r.Success? <==> forall d <- pinned :: FirstWord(d).Some?)
      && (r.Success? ==>
        && |r.value| == |pinned| + |OrEmpty(req.run)| + |TestRequires(recipe)| + |LocalDevPackages|
        && (forall i | 0 <= i < |pinned| :: FirstWord(pinned[i]) == Some(r.value[i]))
        && r.value[|pinned|..] == OrEmpty(req.run) + TestRequires(recipe) + LocalDevPackages)
  {
    if recipe.requirements.None? then Failure("KeyError: requirements")
    else
      var req := recipe.requirements.value;
      var names :- RemovePins(OrEmpty(req.build) + OrEmpty(req.host));
      var r := names + (OrEmpty(req.run) + TestRequires(recipe) + LocalDevPackages);
      assert r[|names|..] == OrEmpty(req.run) + TestRequires(recipe) + LocalDevPackages;
      Success(r)
  }

  /** Removing the pins of two lists one after the other is removing those
      of the joined list, as the build and host sections are. */
  lemma RemovePinsAppend(a: seq<string>, b: seq<string>)
    ensures RemovePins(a + b).Success? <==> RemovePins(a).Success? && RemovePins(b).Success?
    ensures RemovePins(a + b).Success? ==> RemovePins(a + b).value == RemovePins(a).value + RemovePins(b).value
  {
    HeadsAppend(a, b, FirstWord);
  }

  lemma {:induction false} HeadsAppend(a: seq<string>, b: seq<string>, first: string -> Option<string>)
    ensures Heads(a + b, first).Success? <==> Heads(a, first).Success? && Heads(b, first).Success?
    ensures Heads(a + b, first).Success? ==> Heads(a + b, first).value == Heads(a, first).value + Heads(b, first).value
  {
    if a == [] {
      assert a + b == b;
    } else {
      assert (a + b)[0] == a[0];
      assert (a + b)[1..] == a[1..] + b;
      HeadsAppend(a[1..], b, first);
      if first(a[0]).Some? && Heads(a[1..] + b, first).Success? {
        var h := first(a[0]).value;
        assert [h] + Heads(a[1..], first).value + Heads(b, first).value == [h] + (Heads(a[1..], first).value + Heads(b, first).value);
      }
    }
  }

  /** The path separator of the host (POSIX). */
  const Sep: string := "/"

  /** The first listed environment whose path ends with the separator and
      `name`; none if there is no such environment (or no list). */
  function GetEnvDirectory(envs: Option<seq<string>>, name: string): (r: Option<string>)
    ensures r.None? <==> forall k <- OrEmpty(envs) :: !EndsWith(k, Sep + name)
    ensures r.Some? ==> exists i | 0 <= i < |OrEmpty(envs)| ::
      && OrEmpty(envs)[i] == r.value
      && EndsWith(r.value, Sep + name)
      && forall j | 0 <= j < i :: !EndsWith(OrEmpty(envs)[j], Sep + name)
  {
    FirstEndingWith(OrEmpty(envs), Sep + name)
  }

  function FirstEndingWith(ks: seq<string>, suffix: string): (r: Option<string>)
    ensures r.None? <==> forall k <- ks :: !EndsWith(k, suffix)
    ensures r.Some? ==> exists i | 0 <= i < |ks| ::
      ks[i] == r.value && EndsWith(r.value, suffix) && forall j | 0 <= j < i :: !EndsWith(ks[j], suffix)
  {
    if ks == [] then None
    else if EndsWith(ks[0], suffix) then Some(ks[0])
    else
      var r := FirstEndingWith(ks[1..], suffix);
      assert forall k <- ks :: k == ks[0] || k in ks[1..];
      if r.Some? then
        var i :| 0 <= i < |ks[1..]| && ks[1..][i] == r.value && EndsWith(r.value, suffix)
          && forall j | 0 <= j < i :: !EndsWith(ks[1..][j], suffix);
        assert ks[i + 1] == r.value;
        assert forall j | 1 <= j < i + 1 :: ks[j] == ks[1..][j - 1];
        r
      else r
  }

  /** Whether a spec has a version operator ('>', '<' or '|'). */
  predicate HasOperator(s: string) {
    '>' in s || '<' in s || '|' in s
  }

  /** A package spec as conda create takes it: at most the first two tokens
      (name and version, the build string dropped), glued without a space
      when the version has an operator and with '=' otherwise. */
  function NormalizeSpec(k: string): (r: string)
    ensures Words(k) == [] ==> r == []
    ensures |Words(k)| == 1 ==> r == Words(k)[0]
    ensures |Words(k)| >= 2 ==>
      var name := Words(k)[0];
      var version := Words(k)[1];
      r == name + (if HasOperator(name + " " + version) then "" else "=") + version
    ensures ' ' !in r
  {
    var words := Words(k);
    var kept := if |words| <= 2 then words else words[..2];
    var joined := Join(kept, " ");
    if |kept| == 2 then
      assert IsWord(kept[0]) && IsWord(kept[1]);
      assert Join(kept[1..], " ") == kept[1];
      assert joined == kept[0] + " " + kept[1];
      if HasOperator(joined) then
        DeleteSpace(kept[0], kept[1]);
        RemoveAll(joined, " ")
      else
        ReplaceSpace(kept[0], kept[1]);
        ReplaceChar(joined, ' ', '=')
    else
      if |kept| == 1 then
        assert joined == kept[0];
        assert IsWord(kept[0]);
        NoSpaceKept(joined);
        if HasOperator(joined) then RemoveAll(joined, " ") else ReplaceChar(joined, ' ', '=')
      else
        if HasOperator(joined) then RemoveAll(joined, " ") else ReplaceChar(joined, ' ', '=')
  }

  lemma NoSpaceKept(w: string)
    requires IsWord(w)
    ensures RemoveAll(w, " ") == w && ReplaceChar(w, ' ', '=') == w
  {
    assert ' ' !in w;
    RemoveAllAbsent(w);
  }

  lemma {:induction false} RemoveAllAbsent(s: string)
    requires ' ' !in s
    ensures RemoveAll(s, " ") == s
  {
    if s != [] {
      assert s[0] != ' ';
      assert !StartsWith(s, " ");
      RemoveAllAbsent(s[1..]);
    }
  }

  lemma {:induction false} DeleteSpace(a: string, b: string)
    requires ' ' !in a && ' ' !in b
    ensures RemoveAll(a + " " + b, " ") == a + b
  {
    if a == [] {
      assert a + " " + b == " " + b;
      assert (" " + b)[1..] == b;
      RemoveAllAbsent(b);
    } else {
      assert a[0] != ' ';
      assert (a + " " + b)[0] == a[0];
      assert (a + " " + b)[1..] == a[1..] + " " + b;
      DeleteSpace(a[1..], b);
      assert a + b == [a[0]] + (a[1..] + b);
    }
  }

  lemma ReplaceSpace(a: string, b: string)
    requires ' ' !in a && ' ' !in b
    ensures ReplaceChar(a + " " + b, ' ', '=') == a + "=" + b
  {
    var s := a + " " + b;
    var r := ReplaceChar(s, ' ', '=');
    forall i | 0 <= i < |s| ensures r[i] == (a + "=" + b)[i] {
      if i < |a| {
        assert s[i] == a[i];
      } else if i > |a| {
        assert s[i] == b[i - |a| - 1];
      }
    }
  }

  /** Every package normalised, in order. */
  function Specs(packages: seq<string>): (r: seq<string>)
    ensures |r| == |packages|
    ensures forall i | 0 <= i < |packages| :: r[i] == NormalizeSpec(packages[i])
  {
    if packages == [] then [] else [NormalizeSpec(packages[0])] + Specs(packages[1..])
  }

  /** The leading words of every conda create command line. */
  function CreateHead(conda: string, name: string): seq<string> {
    [conda, "create", "--yes", "--name", name]
  }

  /** `conda create`: the fixed head, the dry-run and use-local flags when
      asked for, then the specs in sorted order. */
  function CreateCommand(conda: string, name: string, dryRun: bool, useLocal: bool, specs: seq<string>): (cmd: seq<string>)
    ensures |cmd| >= |CreateHead(conda, name)| + |specs|
    ensures cmd[..|CreateHead(conda, name)|] == CreateHead(conda, name)
    ensures var flags := cmd[|CreateHead(conda, name)|..|cmd| - |specs|];
      && ("--dry-run" in flags <==> dryRun)
      && ("--use-local" in flags <==> useLocal)
      && |flags| == (if dryRun then 1 else 0) + (if useLocal then 1 else 0)
      && (dryRun && useLocal ==> flags == ["--dry-run", "--use-local"])
    ensures var tail := cmd[|cmd| - |specs|..];
      Sorted(tail) && multiset(tail) == multiset(specs)
  {
    var head := CreateHead(conda, name);
    var flags := (if dryRun then ["--dry-run"] else []) + (if useLocal then ["--use-local"] else []);
    var sorted := Sort(specs);
    assert |sorted| == |specs| by {
      assert |multiset(sorted)| == |multiset(specs)|;
    }
    var cmd := head + flags + sorted;
    assert cmd[..|head|] == head;
    assert cmd[|head|..|cmd| - |specs|] == flags;
    assert cmd[|cmd| - |specs|..] == sorted;
    cmd
  }

  /** `conda env remove` of the environment. */
  function RemoveCommand(conda: string, name: string): (r: seq<string>)
    ensures |r| == 6 && r[..3] == [conda, "env", "remove"] && "--yes" in r
    ensures r[|r| - 2..] == ["--name", name]
  {
    [conda, "env", "remove", "--yes", "--name", name]
  }

  /** What creating the environment does: the commands executed, in order,
      the status returned, and whether the condarc is copied into the new
      environment. */
  datatype Invocation = Invocation(commands: seq<seq<string>>, status: int, copiesCondarc: bool)

  /** The create command never reads as the remove command. */
  lemma CreateIsNotRemove(conda: string, name: string, dryRun: bool, useLocal: bool, specs: seq<string>)
    ensures CreateCommand(conda, name, dryRun, useLocal, specs) != RemoveCommand(conda, name)
  {
    var create := CreateCommand(conda, name, dryRun, useLocal, specs);
    assert create[..5] == CreateHead(conda, name);
    assert create[1] == "create";
  }

  /** Running the removal (if any) and then the creation, stopping at a
      failed removal. */
  function Execute(remove: seq<string>, create: seq<string>, removes: bool, dryRun: bool, run: seq<string> -> int)
    : (inv: Invocation)
    requires remove != create
    ensures inv.copiesCondarc ==> !dryRun && inv.status == 0
    ensures 1 <= |inv.commands| <= 2
    ensures removes <==> inv.commands[0] == remove
    ensures inv.commands[|inv.commands| - 1] == create <==> !removes || run(remove) == 0
    ensures inv.status == run(inv.commands[|inv.commands| - 1])
    ensures inv.status == 0 && !dryRun ==> inv.copiesCondarc
    ensures !removes ==> inv.commands == [create]
    ensures |inv.commands| == 2 <==> removes && run(remove) == 0
  {
    if removes && run(remove) != 0 then Invocation([remove], run(remove), false)
    else
      var status := run(create);
      Invocation((if removes then [remove] else []) + [create], status, status == 0 && !dryRun)
  }

  /** Creation of environment `name`. `envDir` is where it already exists,
      if it does, and `run` gives each command's exit status. An existing
      environment is an error unless overwriting, when it is removed first
      (only logged in a dry run); a failed removal stops. The create command
      runs even in a dry run; the condarc is copied only after a successful
      real creation. */
  function CondaCreate(
    conda: string, name: string, overwrite: bool, packages: seq<string>, dryRun: bool, useLocal: bool,
    envDir: Option<string>, run: seq<string> -> int)
    : (r: Result<Invocation>)
    ensures r.Failure? <==> envDir.Some? && !overwrite
    ensures r.Success? ==>
      var create := CreateCommand(conda, name, dryRun, useLocal, Specs(packages));
      var removes := envDir.Some? && !dryRun;
      var inv := r.value;
      && (inv.copiesCondarc ==> !dryRun && inv.status == 0)
      && 1 <= |inv.commands| <= 2
      && (removes <==> inv.commands[0] == RemoveCommand(conda, name))
      && (inv.commands[|inv.commands| - 1] == create <==> !removes || run(RemoveCommand(conda, name)) == 0)
      && inv.status == run(inv.commands[|inv.commands| - 1])
      && (inv.status == 0 && !dryRun ==> inv.copiesCondarc)
      && (!removes ==> inv.commands == [create])
      && (|inv.commands| == 2 <==> removes && run(RemoveCommand(conda, name)) == 0)
  {
    if envDir.Some? && !overwrite then
      Failure("RuntimeError: environment `" + name + "' exists in `" + envDir.value + "' - use --overwrite to overwrite")
    else
      var create := CreateCommand(conda, name, dryRun, useLocal, Specs(packages));
      CreateIsNotRemove(conda, name, dryRun, useLocal, Specs(packages));
      Success(Execute(RemoveCommand(conda, name), create, envDir.Some? && !dryRun, dryRun, run))
  }

  /** An existing environment is never created over: with overwrite, a real
      run removes it before anything else, and creation follows only a
      successful removal. */
  lemma RemovalBeforeCreate(
    conda: string, name: string, packages: seq<string>, useLocal: bool, envDir: string, run: seq<string> -> int)
    ensures var r := CondaCreate(conda, name, true, packages, false, useLocal, Some(envDir), run);
      && r.Success?
      && r.value.commands[0] == RemoveCommand(conda, name)
      && (run(RemoveCommand(conda, name)) == 0 <==> |r.value.commands| == 2)
  {
    CreateIsNotRemove(conda, name, false, useLocal, Specs(packages));
  }

  /** A dry run executes only the create command, with the dry-run flag,
      and copies nothing. */
  lemma DryRunOnlyCreates(
    conda: string, name: string, overwrite: bool, packages: seq<string>, useLocal: bool,
    envDir: Option<string>, run: seq<string> -> int)
    requires envDir.None? || overwrite
    ensures var r := CondaCreate(conda, name, overwrite, packages, true, useLocal, envDir, run);
      && r.Success?
      && r.value.commands == [CreateCommand(conda, name, true, useLocal, Specs(packages))]
      && !r.value.copiesCondarc
  {
    CreateIsNotRemove(conda, name, true, useLocal, Specs(packages));
  }

  /** A spec "name version build", as in "numpy 1.18 h0", is created as
      "name=version": the build string is dropped. */
  lemma NormalizeSpecDropsBuild(name: string, version: string, build: string)
    requires IsWord(name) && IsWord(version) && IsWord(build) && !HasOperator(name) && !HasOperator(version)
    ensures NormalizeSpec(name + " " + version + " " + build) == name + "=" + version
  {
    assert name + " " + version + " " + build == name + " " + (version + (" " + build));
    NormalizeTwoWords(name, version, " " + build);
    NameHasNoOperator(name, version);
  }

  /** A version with a comparison operator, as in "numpy >=1.18", is
      glued to the name. */
  lemma NormalizeSpecKeepsOperator(name: string, version: string)
    requires IsWord(name) && IsWord(version) && HasOperator(version)
    ensures NormalizeSpec(name + " " + version) == name + version
  {
    assert name + " " + version == name + " " + (version + "");
    NormalizeTwoWords(name, version, "");
    assert name + " " + version == (name + " ") + version;
    assert name + "" + version == name + version;
  }

  /** Whether the first two words hold an operator is decided by the
      version when the name holds none. */
  lemma NameHasNoOperator(name: string, version: string)
    requires !HasOperator(version)
    ensures HasOperator(name + " " + version) <==> HasOperator(name)
  {
  }

  /** A spec of two or more words keeps its first two, joined by "=" unless
      the spec already holds a comparison operator. */
  lemma NormalizeTwoWords(a: string, b: string, rest: string)
    requires IsWord(a) && IsWord(b) && (rest == [] || IsSpace(rest[0]))
    ensures NormalizeSpec(a + " " + (b + rest)) == a + (if HasOperator(a + " " + b) then "" else "=") + b
  {
    WordsCons(b, rest);
    WordThenSpace(a, b + rest);
  }
}

=== FILE: environment.dfy ===
/** Setting a variable in an environment map, with a warning when an
    existing value is overridden.
 */
module Environment {
  import opened Wrappers

  type Env = map<string, string>

  /** The environment after the update, and the value it overrode (reported
      as a warning), if any. */
  datatype Update = Update(env: Env, overridden: Option<string>)

  /** `env[name] = value`: an existing variable is overridden, never
      refused; every other variable keeps its value. */
  function SetEnvironment(name: string, value: string, env: Env): (r: Update)
    ensures name in r.env && r.env[name] == value
    ensures r.env.Keys == env.Keys + {name}
    ensures forall k <- env :: k != name ==> r.env[k] == env[k]
    ensures r.overridden.Some? <==> name in env
    ensures r.overridden.Some? ==> r.overridden.value == env[name]
  {
    Update(env[name := value], if name in env then Some(env[name]) else None)
  }

  /** Setting the same value twice leaves the environment as setting it
      once, the second time with a warning. */
  lemma SetTwice(name: string, value: string, env: Env)
    ensures var once := SetEnvironment(name, value, env).env;
      var twice := SetEnvironment(name, value, once);
      twice.env == once && twice.overridden == Some(value)
  {
    var once := SetEnvironment(name, value, env).env;
    var twice := SetEnvironment(name, value, once).env;
    assert twice.Keys == once.Keys;
  }

  /** Setting two different variables gives the same environment in
      either order. */
  lemma SetCommutes(a: string, x: string, b: string, y: string, env: Env)
    requires a != b
    ensures SetEnvironment(b, y, SetEnvironment(a, x, env).env).env
         == SetEnvironment(a, x, SetEnvironment(b, y, env).env).env
  {
    var ab := SetEnvironment(b, y, SetEnvironment(a, x, env).env).env;
    var ba := SetEnvironment(a, x, SetEnvironment(b, y, env).env).env;
    assert ab.Keys == ba.Keys;
  }

  /** Setting LANG, then LC_ALL to LANG's value, leaves both at
      "en_US.UTF-8", whatever they were before. */
  lemma LocaleSetup(env: Env)
    ensures var withLang := SetEnvironment("LANG", "en_US.UTF-8", env).env;
      var final := SetEnvironment("LC_ALL", withLang["LANG"], withLang).env;
      final["LANG"] == "en_US.UTF-8" && final["LC_ALL"] == "en_US.UTF-8"
  {
  }
}

=== FILE: graph.dfy ===
/** The package dependency graph: a memoised depth-first traversal that
    fetches each package's dependencies once and descends only into the
    ones whose name contains a prefix, the filter of a fetched dependency
    list, and the edges drawn from the resulting graph. What conda search
    reports for a package is an oracle: the dependency specs of its newest
    build.
 */
module Graph {
  import opened Text

  /** Package name to the names of its dependencies. */
  type DepGraph = map<string, seq<string>>

  const DefaultPrefix: string := "bob."

  /** Dependencies never drawn: linking to them clutters the picture. */
  const DefaultBlackList: seq<string> := ["python", "setuptools", "libcxx", "numpy", "libblitz", "boost"]

  /** `p.split(" ")[0]`: a spec's package name. */
  function SpecName(p: string): (r: string)
    ensures ' ' !in r
    ensures StartsWith(p, r)
    ensures |r| == |p| || p[|r|] == ' '
  {
    var parts := SplitOn(p, ' ');
    JoinHead(parts, " ");
    parts[0]
  }

  lemma JoinHead(parts: seq<string>, sep: string)
    requires |parts| >= 1
    ensures StartsWith(Join(parts, sep), parts[0])
  {
    if |parts| > 1 {
      assert Join(parts, sep) == parts[0] + (sep + Join(parts[1..], sep));
    }
  }

  /** The package names of a dependency list, in order. */
  function SpecNames(specs: seq<string>): (r: seq<string>)
    ensures |r| == |specs|
    ensures forall i | 0 <= i < |specs| :: r[i] == SpecName(specs[i])
  {
    if specs == [] then [] else [SpecName(specs[0])] + SpecNames(specs[1..])
  }

  /** The elements of `selected` that are in `all`, in `selected`'s order. */
  function Keep(selected: seq<string>, all: seq<string>): (r: seq<string>)
    ensures forall d :: d in r <==> d in selected && d in all
    ensures |r| <= |selected|
  {
    if selected == [] then []
    else
      var rest := Keep(selected[1..], all);
      assert forall d <- selected :: d == selected[0] || d in selected[1..];
      (if selected[0] in all then [selected[0]] else []) + rest
  }

  /** Keeping is ordered: what is kept of two pieces is what is kept of the
      whole. */
  lemma {:induction false} KeepAppend(a: seq<string>, b: seq<string>, all: seq<string>)
    ensures Keep(a + b, all) == Keep(a, all) + Keep(b, all)
  {
    if a == [] {
      assert a + b == b;
    } else {
      assert (a + b)[0] == a[0];
      assert (a + b)[1..] == a[1..] + b;
      KeepAppend(a[1..], b, all);
      var head := if a[0] in all then [a[0]] else [];
      assert head + Keep(a[1..], all) + Keep(b, all) == head + (Keep(a[1..], all) + Keep(b, all));
    }
  }

  /** Everything selected that is available is kept, in selected order. */
  lemma {:induction false} KeepAll(selected: seq<string>, all: seq<string>)
    requires forall d <- selected :: d in all
    ensures Keep(selected, all) == selected
  {
    if selected != [] {
      assert forall d <- selected[1..] :: d in selected;
      assert selected[0] in selected;
      KeepAll(selected[1..], all);
      assert selected == [selected[0]] + selected[1..];
    }
  }

  /** A package's dependencies: the names of its newest build's specs, or,
      when a selection is given, the selected packages among them. */
  function FetchDependencies(name: string, selected: seq<string>, search: string -> seq<string>): (r: seq<string>)
    ensures selected == [] ==> r == SpecNames(search(name))
    ensures selected != [] ==> forall d :: d in r <==> d in selected && d in SpecNames(search(name))
    ensures selected != [] ==> |r| <= |selected|
  {
    var all := SpecNames(search(name));
    if |selected| > 0 then Keep(selected, all) else all
  }

  /** Every followed dependency of a package of `universe` is in `universe`:
      the packages the traversal can reach are finite. */
  predicate ClosedUniverse(universe: set<string>, fetch: string -> seq<string>, follow: string -> bool) {
    forall n <- universe, d <- fetch(n) :: follow(d) ==> d in universe
  }

  /** The packages `graph` records beyond those of `before` all have their
      followed dependencies recorded. */
  predicate ClosedBeyond(graph: DepGraph, before: DepGraph, follow: string -> bool) {
    forall k <- graph, d <- graph[k] :: k !in before && follow(d) ==> d in graph
  }

  /** `after` keeps every entry of `before` and records fetched values for
      the packages it adds. */
  predicate Extends(after: DepGraph, before: DepGraph, fetch: string -> seq<string>) {
    && (forall k <- before :: k in after && after[k] == before[k])
    && (forall k <- after :: k !in before ==> after[k] == fetch(k))
  }

  /** The traversal from `name`: a package already recorded is returned
      as it is, without fetching; otherwise its dependencies are fetched
      and recorded, and the followed ones are visited in order. */
  function Visit(name: string, graph: DepGraph, fetch: string -> seq<string>, follow: string -> bool, universe: set<string>)
    : (r: DepGraph)
    requires name in universe && ClosedUniverse(universe, fetch, follow)
    ensures graph.Keys <= r.Keys
    decreases |universe - graph.Keys|, 0
  {
    if name in graph then graph
    else
      var deps := fetch(name);
      var recorded := graph[name := deps];
      Shrinks(universe, graph, recorded, name);
      VisitAll(deps, recorded, fetch, follow, universe)
  }

  /** Visits the followed packages of `ds`, in order. */
  function VisitAll(ds: seq<string>, graph: DepGraph, fetch: string -> seq<string>, follow: string -> bool, universe: set<string>)
    : (r: DepGraph)
    requires forall d <- ds :: follow(d) ==> d in universe
    requires ClosedUniverse(universe, fetch, follow)
    ensures graph.Keys <= r.Keys
    decreases |universe - graph.Keys|, 1, |ds|
  {
    if ds == [] then graph
    else
      var next := if follow(ds[0]) then Visit(ds[0], graph, fetch, follow, universe) else graph;
      SubsetCard(universe - next.Keys, universe - graph.Keys);
      assert forall d <- ds[1..] :: d in ds;
      VisitAll(ds[1..], next, fetch, follow, universe)
  }

  /** A package already recorded is returned as it is, without fetching. */
  lemma VisitRecorded(name: string, graph: DepGraph, fetch: string -> seq<string>, follow: string -> bool, universe: set<string>)
    requires name in universe && ClosedUniverse(universe, fetch, follow)
    requires name in graph
    ensures Visit(name, graph, fetch, follow, universe) == graph
  {
  }

  /** What the traversal from `name` records: `name` itself, the earlier
      entries unchanged, fetched dependencies for every package it adds
      (each from the universe), and the followed dependencies of those. */
  lemma VisitSpec(name: string, graph: DepGraph, fetch: string -> seq<string>, follow: string -> bool, universe: set<string>)
    requires name in universe && ClosedUniverse(universe, fetch, follow)
    ensures var r := Visit(name, graph, fetch, follow, universe);
      && name in r
      && Extends(r, graph, fetch)
      && r.Keys <= graph.Keys + universe
      && ClosedBeyond(r, graph, follow)
    decreases |universe - graph.Keys|, 0
  {
    if name !in graph {
      var deps := fetch(name);
      var recorded := graph[name := deps];
      Shrinks(universe, graph, recorded, name);
      VisitAllSpec(deps, recorded, fetch, follow, universe);
      VisitStep(name, graph, recorded, VisitAll(deps, recorded, fetch, follow, universe), fetch, follow, universe);
    }
  }

  lemma VisitStep(name: string, graph: DepGraph, recorded: DepGraph, r: DepGraph,
                  fetch: string -> seq<string>, follow: string -> bool, universe: set<string>)
    requires name in universe && name !in graph && recorded == graph[name := fetch(name)]
    requires forall d <- fetch(name) :: follow(d) ==> d in r
    requires Extends(r, recorded, fetch) && r.Keys <= recorded.Keys + universe && ClosedBeyond(r, recorded, follow)
    ensures name in r && Extends(r, graph, fetch) && r.Keys <= graph.Keys + universe && ClosedBeyond(r, graph, follow)
  {
    assert r[name] == fetch(name);
  }

  lemma VisitAllSpec(ds: seq<string>, graph: DepGraph, fetch: string -> seq<string>, follow: string -> bool, universe: set<string>)
    requires forall d <- ds :: follow(d) ==> d in universe
    requires ClosedUniverse(universe, fetch, follow)
    ensures var r := VisitAll(ds, graph, fetch, follow, universe);
      && (forall d <- ds :: follow(d) ==> d in r)
      && Extends(r, graph, fetch)
      && r.Keys <= graph.Keys + universe
      && ClosedBeyond(r, graph, follow)
    decreases |universe - graph.Keys|, 1, |ds|
  {
    if ds != [] {
      var next := if follow(ds[0]) then Visit(ds[0], graph, fetch, follow, universe) else graph;
      if follow(ds[0]) {
        VisitSpec(ds[0], graph, fetch, follow, universe);
      }
      assert ds[0] in next || !follow(ds[0]);
      assert Extends(next, graph, fetch) && next.Keys <= graph.Keys + universe && ClosedBeyond(next, graph, follow);
      SubsetCard(universe - next.Keys, universe - graph.Keys);
      assert forall d <- ds[1..] :: d in ds;
      VisitAllSpec(ds[1..], next, fetch, follow, universe);
      var r := VisitAll(ds[1..], next, fetch, follow, universe);
      VisitAllStep(ds, graph, next, r, fetch, follow, universe);
    }
  }

  lemma VisitAllStep(ds: seq<string>, graph: DepGraph, next: DepGraph, r: DepGraph,
                     fetch: string -> seq<string>, follow: string -> bool, universe: set<string>)
    requires ds != []
    requires ds[0] in next || !follow(ds[0])
    requires Extends(next, graph, fetch) && next.Keys <= graph.Keys + universe && ClosedBeyond(next, graph, follow)
    requires forall d <- ds[1..] :: follow(d) ==> d in r
    requires Extends(r, next, fetch) && r.Keys <= next.Keys + universe && ClosedBeyond(r, next, follow)
    ensures forall d <- ds :: follow(d) ==> d in r
    ensures Extends(r, graph, fetch) && r.Keys <= graph.Keys + universe && ClosedBeyond(r, graph, follow)
  {
    assert forall k <- next :: k in r && r[k] == next[k];
    assert forall d <- ds :: d == ds[0] || d in ds[1..];
  }

  /** Recording an unvisited package of the universe shrinks what is left
      to visit. */
  lemma Shrinks(universe: set<string>, graph: DepGraph, recorded: DepGraph, name: string)
    requires name in universe && name !in graph && recorded.Keys == graph.Keys + {name}
    ensures |universe - recorded.Keys| < |universe - graph.Keys|
  {
    assert universe - graph.Keys == (universe - recorded.Keys) + {name};
  }

  lemma SubsetCard(a: set<string>, b: set<string>)
    requires a <= b
    ensures |a| <= |b|
  {
    assert b == a + (b - a);
  }

  /** The traversal's test for descending into a dependency: its name
      contains the prefix (anywhere, not only at the start). */
  function PrefixIn(prefix: string): string -> bool {
    d => Contains(d, prefix)
  }

  /** `compute_dependency_graph(name)` from an empty map: the root and every
      package reachable through dependencies containing the prefix, each
      fetched once. */
  function DependencyGraph(name: string, fetch: string -> seq<string>, prefix: string, universe: set<string>)
    : (r: DepGraph)
    requires name in universe && ClosedUniverse(universe, fetch, PrefixIn(prefix))
    ensures name in r && r.Keys <= universe
    ensures forall k <- r :: r[k] == fetch(k)
    ensures forall k <- r, d <- r[k] :: Contains(d, prefix) ==> d in r
  {
    VisitSpec(name, map[], fetch, PrefixIn(prefix), universe);
    Visit(name, map[], fetch, PrefixIn(prefix), universe)
  }

  /** The traversal records nothing it need not: every package it adds is
      in any set that holds the root and the recorded packages and is closed
      under followed edges. */
  lemma VisitLeast(name: string, graph: DepGraph, fetch: string -> seq<string>, follow: string -> bool, universe: set<string>, s: set<string>)
    requires name in universe && ClosedUniverse(universe, fetch, follow)
    requires name in s && graph.Keys <= s && ClosedUniverse(s, fetch, follow)
    ensures Visit(name, graph, fetch, follow, universe).Keys <= s
    decreases |universe - graph.Keys|, 0
  {
    if name !in graph {
      var recorded := graph[name := fetch(name)];
      Shrinks(universe, graph, recorded, name);
      VisitAllLeast(fetch(name), recorded, fetch, follow, universe, s);
    }
  }

  lemma VisitAllLeast(ds: seq<string>, graph: DepGraph, fetch: string -> seq<string>, follow: string -> bool, universe: set<string>, s: set<string>)
    requires forall d <- ds :: follow(d) ==> d in universe
    requires ClosedUniverse(universe, fetch, follow)
    requires (forall d <- ds :: follow(d) ==> d in s) && graph.Keys <= s && ClosedUniverse(s, fetch, follow)
    ensures VisitAll(ds, graph, fetch, follow, universe).Keys <= s
    decreases |universe - graph.Keys|, 1, |ds|
  {
    if ds != [] {
      var next := if follow(ds[0]) then Visit(ds[0], graph, fetch, follow, universe) else graph;
      if follow(ds[0]) {
        VisitLeast(ds[0], graph, fetch, follow, universe, s);
      }
      assert |universe - next.Keys| <= |universe - graph.Keys| by {
        SubsetCard(universe - next.Keys, universe - graph.Keys);
      }
      assert forall d <- ds[1..] :: d in ds;
      VisitAllLeast(ds[1..], next, fetch, follow, universe, s);
    }
  }

  /** A drawn edge: from a package to a dependency, boxed when the
      dependency's name contains the prefix. */
  datatype Edge = Edge(from: string, to: string, boxed: bool)

  /** The edges of one package's dependencies, skipping black-listed ones. */
  function EdgesFrom(i: string, ds: seq<string>, blackList: seq<string>, prefix: string): (r: seq<Edge>)
    ensures forall e <- r :: e.from == i && e.to in ds && e.to !in blackList && (e.boxed <==> Contains(e.to, prefix))
    ensures forall j <- ds :: j !in blackList ==> Edge(i, j, Contains(j, prefix)) in r
  {
    if ds == [] then []
    else
      var rest := EdgesFrom(i, ds[1..], blackList, prefix);
      assert forall j <- ds :: j == ds[0] || j in ds[1..];
      (if ds[0] in blackList then [] else [Edge(i, ds[0], Contains(ds[0], prefix))]) + rest
  }

  /** The edges of the graph, package by package in `order` (the map's
      iteration order): every non-black-listed dependency gives one, boxed
      exactly when its name contains the prefix. */
  function Edges(graph: DepGraph, order: seq<string>, blackList: seq<string>, prefix: string): (r: seq<Edge>)
    requires forall i <- order :: i in graph
    ensures forall e <- r :: e.from in order && e.to in graph[e.from] && e.to !in blackList && (e.boxed <==> Contains(e.to, prefix))
    ensures forall i <- order, j <- graph[i] :: j !in blackList ==> Edge(i, j, Contains(j, prefix)) in r
  {
    if order == [] then []
    else
      var rest := Edges(graph, order[1..], blackList, prefix);
      assert forall i <- order :: i == order[0] || i in order[1..];
      EdgesFrom(order[0], graph[order[0]], blackList, prefix) + rest
  }
}

=== FILE: mirror.dfy ===
/** Channel mirroring: the blacklist of globs, the local package listing,
    the per-architecture transaction (what to download, what to delete) and
    the checksum a downloaded package is verified against. Glob matching
    is an oracle `matches(name, glob)`.
 */
module Mirror {
  import opened Wrappers
  import opened Text

  /** Whether a stripped blacklist line is a glob: non-empty and not a
      comment ('#') or a disabled entry ('-'). */
  predicate IsGlobLine(k: string) {
    k != [] && k[0] != '#' && k[0] != '-'
  }

  /** The globs of a blacklist file given as its lines: each line stripped,
      keeping the glob lines in file order. */
  function LoadGlobList(lines: seq<string>): (r: seq<string>)
    ensures |r| <= |lines|
    ensures forall g <- r :: IsGlobLine(g) && Stripped(g)
  {
    if lines == [] then []
    else
      var k := Strip(lines[0]);
      (if IsGlobLine(k) then [k] else []) + LoadGlobList(lines[1..])
  }

  /** Exactly the glob lines are kept. */
  lemma {:induction false} LoadGlobListMembers(lines: seq<string>, g: string)
    ensures g in LoadGlobList(lines) <==> exists i | 0 <= i < |lines| :: Strip(lines[i]) == g && IsGlobLine(g)
  {
    if lines != [] {
      var k := Strip(lines[0]);
      var rest := LoadGlobList(lines[1..]);
      assert LoadGlobList(lines) == (if IsGlobLine(k) then [k] else []) + rest;
      LoadGlobListMembers(lines[1..], g);
      if g in rest {
        var i :| 0 <= i < |lines[1..]| && Strip(lines[1..][i]) == g && IsGlobLine(g);
        assert Strip(lines[i + 1]) == g;
      }
      if exists i | 0 <= i < |lines| :: Strip(lines[i]) == g && IsGlobLine(g) {
        var i :| 0 <= i < |lines| && Strip(lines[i]) == g && IsGlobLine(g);
        if i > 0 {
          assert Strip(lines[1..][i - 1]) == g;
        }
      }
    }
  }

  /** Loading is line by line, so it preserves file order. */
  lemma {:induction false} LoadGlobListAppend(a: seq<string>, b: seq<string>)
    ensures LoadGlobList(a + b) == LoadGlobList(a) + LoadGlobList(b)
  {
    if a == [] {
      assert a + b == b;
    } else {
      assert (a + b)[0] == a[0];
      assert (a + b)[1..] == a[1..] + b;
      LoadGlobListAppend(a[1..], b);
      var k := Strip(a[0]);
      var head := if IsGlobLine(k) then [k] else [];
      assert head + LoadGlobList(a[1..]) + LoadGlobList(b) == head + (LoadGlobList(a[1..]) + LoadGlobList(b));
    }
  }

  /** Whether some glob of `globs` matches `p`. */
  predicate Blacklisted(p: string, globs: set<string>, matches: (string, string) -> bool) {
    exists g | g in globs :: matches(p, g)
  }

  /** The packages no glob matches. */
  function BlacklistFilter(packages: set<string>, globs: set<string>, matches: (string, string) -> bool)
    : (r: set<string>)
    ensures r <= packages
    ensures forall p <- r :: !Blacklisted(p, globs, matches)
    ensures forall p <- packages :: !Blacklisted(p, globs, matches) ==> p in r
  {
    packages - set p <- packages | Blacklisted(p, globs, matches)
  }

  /** With no globs nothing is filtered out. */
  lemma FilterNoGlobs(packages: set<string>, matches: (string, string) -> bool)
    ensures BlacklistFilter(packages, {}, matches) == packages
  {
  }

  /** Filtering twice filters nothing more. */
  lemma FilterIdempotent(packages: set<string>, globs: set<string>, matches: (string, string) -> bool)
    ensures BlacklistFilter(BlacklistFilter(packages, globs, matches), globs, matches)
      == BlacklistFilter(packages, globs, matches)
  {
  }

  /** More globs never keep more packages. */
  lemma FilterAntitone(packages: set<string>, g1: set<string>, g2: set<string>, matches: (string, string) -> bool)
    requires g1 <= g2
    ensures BlacklistFilter(packages, g2, matches) <= BlacklistFilter(packages, g1, matches)
  {
  }

  /** The package files of a local architecture directory: none when the
      directory is missing, otherwise the listed names ending in ".tar.bz2"
      or ".conda". */
  function LocalContents(dirExists: bool, listing: seq<string>): (r: set<string>)
    ensures !dirExists ==> r == {}
    ensures dirExists ==> forall f :: f in r <==> f in listing && (EndsWith(f, ".tar.bz2") || EndsWith(f, ".conda"))
  {
    if !dirExists then {}
    else set f <- listing | EndsWith(f, ".tar.bz2") || EndsWith(f, ".conda")
  }

  /** A package record of a channel index, as its string fields. */
  type Record = map<string, string>

  /** The parts of a channel's repodata the mirror reads; a section missing
      from the document is None. */
  datatype Repodata = Repodata(packages: Option<map<string, Record>>, packagesConda: Option<map<string, Record>>)

  function SectionKeys(section: Option<map<string, Record>>): set<string> {
    if section.Some? then section.value.Keys else {}
  }

  /** The remote package names: those of both sections, a missing section
      counting as empty. */
  function RemotePackages(repodata: Repodata): (r: set<string>)
    ensures forall p :: p in r <==>
      (repodata.packages.Some? && p in repodata.packages.value)
      || (repodata.packagesConda.Some? && p in repodata.packagesConda.value)
  {
    SectionKeys(repodata.packages) + SectionKeys(repodata.packagesConda)
  }

  /** The globs in force: those of the blacklist file when one is given and
      exists (as its lines), none otherwise. */
  function Globs(blacklist: Option<seq<string>>): (r: set<string>)
    ensures blacklist.None? ==> r == {}
    ensures blacklist.Some? ==> forall g :: g in r <==> g in LoadGlobList(blacklist.value)
  {
    if blacklist.None? then {} else set g <- LoadGlobList(blacklist.value)
  }

  /** The transaction for one architecture. */
  datatype Plan = Plan(toDownload: set<string>, toDelete: set<string>)

  /** Download what is remote, missing locally and not blacklisted; delete
      what is local and either blacklisted or gone from the remote. */
  function MakePlan(remote: set<string>, local: set<string>, globs: set<string>, matches: (string, string) -> bool)
    : (r: Plan)
    ensures forall p <- r.toDownload :: p in remote && p !in local && !Blacklisted(p, globs, matches)
    ensures forall p <- remote :: p !in local && !Blacklisted(p, globs, matches) ==> p in r.toDownload
    ensures r.toDelete <= local
    ensures forall p <- local :: p in r.toDelete <==> p !in remote || Blacklisted(p, globs, matches)
    ensures r.toDownload !! r.toDelete
  {
    var toDownload := BlacklistFilter(remote - local, globs, matches);
    var disappeared := local - remote;
    var toKeep := BlacklistFilter(local, globs, matches);
    Plan(toDownload, (local - toKeep) + disappeared)
  }

  /** The state of the mirror after a transaction. */
  function Apply(local: set<string>, plan: Plan): (r: set<string>)
    ensures plan.toDownload <= r <= local + plan.toDownload
    ensures plan.toDownload !! plan.toDelete ==> r !! plan.toDelete
  {
    (local - plan.toDelete) + plan.toDownload
  }

  /** After the transaction the mirror holds exactly the remote packages no
      glob matches. */
  lemma MirrorPromise(remote: set<string>, local: set<string>, globs: set<string>, matches: (string, string) -> bool)
    ensures Apply(local, MakePlan(remote, local, globs, matches)) == BlacklistFilter(remote, globs, matches)
  {
    var plan := MakePlan(remote, local, globs, matches);
    var after := Apply(local, plan);
    forall p ensures p in after <==> p in BlacklistFilter(remote, globs, matches) {
      if p in local {
        assert p in after <==> p !in plan.toDelete;
      }
    }
  }

  /** Mirroring again right after a transaction has nothing to do. */
  lemma MirrorIdempotent(remote: set<string>, local: set<string>, globs: set<string>, matches: (string, string) -> bool)
    ensures var after := Apply(local, MakePlan(remote, local, globs, matches));
      MakePlan(remote, after, globs, matches) == Plan({}, {})
  {
    MirrorPromise(remote, local, globs, matches);
  }

  /** Without a blacklist only packages gone from the remote are deleted,
      and everything remote and missing is downloaded. */
  lemma NoBlacklistPlan(remote: set<string>, local: set<string>, matches: (string, string) -> bool)
    ensures MakePlan(remote, local, Globs(None), matches) == Plan(remote - local, local - remote)
  {
  }

  /** The checksum a package is verified against: the record is looked up in
      'packages' for a ".tar.bz2" name and in 'packages.conda' otherwise;
      its "md5" field is read first (a missing one fails even when a
      "sha256" exists), and "sha256" is preferred when present. */
  function ExpectedHash(p: string, repodata: Repodata): (r: Result<string>)
    ensures var section := if EndsWith(p, ".tar.bz2") then repodata.packages else repodata.packagesConda;
      && (r.Success? <==> section.Some? && p in section.value && "md5" in section.value[p])
      && (r.Success? ==> r.value == (if "sha256" in section.value[p] then section.value[p]["sha256"] else section.value[p]["md5"]))
  {
    var section := if EndsWith(p, ".tar.bz2") then repodata.packages else repodata.packagesConda;
    if section.None? then Failure("KeyError: " + (if EndsWith(p, ".tar.bz2") then "packages" else "packages.conda"))
    else if p !in section.value then Failure("KeyError: " + p)
    else
      var record := section.value[p];
      if "md5" !in record then Failure("KeyError: md5")
      else Success(if "sha256" in record then record["sha256"] else record["md5"])
  }

  /** A repodata whose sections hold names of their own format and whose
      records all carry an md5. */
  predicate WellFormed(repodata: Repodata) {
    && (repodata.packages.Some? ==> forall p <- repodata.packages.value ::
          EndsWith(p, ".tar.bz2") && "md5" in repodata.packages.value[p])
    && (repodata.packagesConda.Some? ==> forall p <- repodata.packagesConda.value ::
          !EndsWith(p, ".tar.bz2") && "md5" in repodata.packagesConda.value[p])
  }

  /** On well-formed repodata every package the plan downloads has a checksum. */
  lemma DownloadsHaveHashes(repodata: Repodata, local: set<string>, globs: set<string>, matches: (string, string) -> bool)
    requires WellFormed(repodata)
    ensures forall p <- MakePlan(RemotePackages(repodata), local, globs, matches).toDownload ::
      ExpectedHash(p, repodata).Success?
  {
  }

  datatype HashKind = Md5 | Sha256

  /** A 32-character checksum is an md5, any other a sha256. */
  function HashAlgorithm(expected: string): (k: HashKind)
    ensures k == Md5 <==> |expected| == 32
  {
    if |expected| == 32 then Md5 else Sha256
  }

  /** Where the checksum loop for one package stands: retries left, done
      with a verified file, done without one, or (corrected loop only)
      done because nothing was downloaded. */
  datatype Retry = Retrying(left: nat) | Verified | Exhausted | Simulated

  const PackageRetries: nat := 10

  /** One turn of the loop as written: with no retries left it ends;
      otherwise a real run downloads and compares checksums (`hashOk`),
      ending on a match and using up a retry on a mismatch; a dry run
      neither downloads nor leaves the loop. */
  function TurnAsWritten(state: Retry, dryRun: bool, hashOk: bool): (r: Retry)
    ensures !state.Retrying? ==> r == state
    ensures r == state <==> !state.Retrying? || (state.left > 0 && dryRun)
    ensures r.Retrying? ==> state.Retrying? && r.left <= state.left
  {
    match state
    case Retrying(n) =>
      if n == 0 then Exhausted
      else if dryRun then state
      else if hashOk then Verified
      else Retrying(n - 1)
    case _ => state
  }

  /** The same turn with the dry run leaving the loop, as it evidently should. */
  function Turn(state: Retry, dryRun: bool, hashOk: bool): (r: Retry)
    ensures !state.Retrying? ==> r == state
    ensures r.Retrying? ==> state.Retrying? && r.left + 1 == state.left
    ensures state.Retrying? && state.left > 0 && dryRun ==> r == Simulated
    ensures !dryRun ==> r == TurnAsWritten(state, dryRun, hashOk)
  {
    match state
    case Retrying(n) =>
      if n == 0 then Exhausted
      else if dryRun then Simulated
      else if hashOk then Verified
      else Retrying(n - 1)
    case _ => state
  }

  /** The loop as written after one turn per checksum outcome: a finished
      loop stays finished, and retries are never gained. */
  function LoopAsWritten(state: Retry, dryRun: bool, outcomes: seq<bool>): (r: Retry)
    ensures !state.Retrying? ==> r == state
    ensures r.Retrying? ==> state.Retrying? && r.left <= state.left
    decreases |outcomes|
  {
    if outcomes == [] then state
    else LoopAsWritten(TurnAsWritten(state, dryRun, outcomes[0]), dryRun, outcomes[1..])
  }

  /** The corrected loop after one turn per checksum outcome: a finished
      loop stays finished, and a loop still retrying has used one retry
      per turn. */
  function Loop(state: Retry, dryRun: bool, outcomes: seq<bool>): (r: Retry)
    ensures !state.Retrying? ==> r == state
    ensures r.Retrying? ==> state.Retrying? && r.left + |outcomes| == state.left
    decreases |outcomes|
  {
    if outcomes == [] then state
    else Loop(Turn(state, dryRun, outcomes[0]), dryRun, outcomes[1..])
  }

  /** As written, a dry run never leaves the loop, however many turns it
      takes. */
  lemma {:induction false} DryRunLoopsForever(outcomes: seq<bool>)
    ensures LoopAsWritten(Retrying(PackageRetries), true, outcomes) == Retrying(PackageRetries)
  {
    if outcomes != [] {
      DryRunLoopsForever(outcomes[1..]);
    }
  }

  /** The corrected loop has left after at most `left + 1` turns, whatever
      the checksums and in both modes. */
  lemma {:induction false} LoopEnds(n: nat, dryRun: bool, outcomes: seq<bool>)
    requires |outcomes| > n
    ensures !Loop(Retrying(n), dryRun, outcomes).Retrying?
  {
    var next := Turn(Retrying(n), dryRun, outcomes[0]);
    if next.Retrying? {
      assert next == Retrying(n - 1);
      LoopEnds(n - 1, dryRun, outcomes[1..]);
    } else {
      LoopStays(next, dryRun, outcomes[1..]);
    }
  }

  /** Once out of the loop, it stays out. */
  lemma {:induction false} LoopStays(state: Retry, dryRun: bool, outcomes: seq<bool>)
    requires !state.Retrying?
    ensures Loop(state, dryRun, outcomes) == state
  {
    if outcomes != [] {
      LoopStays(state, dryRun, outcomes[1..]);
    }
  }
}

=== FILE: next_build.dfy ===
/** The next-build-number script: the channel a build uploads to, and the
    build number it must use there, one more than the highest build number
    already published for the same name, version and build variant.
    The channel index is an input sequence of records in index order.
 */
module NextBuild {
  import opened Text
  import Configurator

  const Server: string := "http://bobconda.lab.idiap.ch"

  /** One entry of a channel index. */
  datatype Dist = Dist(
    name: string,
    version: string,
    buildString: string,
    buildNumber: nat,
    url: string,
    timestamp: int)

  /** The upload channel: the group's public channel or the private channel,
      stable or labelled beta. Only a beta channel carries the beta label,
      and only the private channel lies under the server's private prefix. */
  function TargetChannel(public: bool, stable: bool, server: string, group: string): (r: string)
    ensures EndsWith(r, "/label/beta") <==> !stable
    ensures StartsWith(r, server + "/private/") <==> !public
  {
    var base := if public then server + "/software/" + group + "/conda" else server + "/private/conda";
    BaseShape(public, server, group);
    Configurator.BetaSuffix(base, stable);
    PrivatePrefixKept(server, base, if stable then "" else "/label/beta");
    assert base + "" == base;
    if stable then base else base + "/label/beta"
  }

  /** The stable channel of each kind ends in "/conda"; only the private one
      starts with the private prefix. */
  lemma BaseShape(public: bool, server: string, group: string)
    ensures var base := if public then server + "/software/" + group + "/conda" else server + "/private/conda";
      && EndsWith(base, "/conda")
      && (StartsWith(base, server + "/private/") <==> !public)
  {
    var base := if public then server + "/software/" + group + "/conda" else server + "/private/conda";
    var p := server + "/private/";
    if public {
      assert base[|server| + 1] == 's' && p[|server| + 1] == 'p';
    } else {
      assert base[..|p|] == p;
    }
  }

  lemma PrivatePrefixKept(server: string, base: string, suffix: string)
    requires |server + "/private/"| <= |base|
    ensures StartsWith(base + suffix, server + "/private/") <==> StartsWith(base, server + "/private/")
  {
    var p := server + "/private/";
    assert (base + suffix)[..|p|] == base[..|p|];
  }

  /** The upload channel is the channel the configurator lists first for a
      public package and second (after the public one) for a private one. */
  lemma TargetIsReadChannel(public: bool, stable: bool, server: string, group: string)
    ensures var chans := Configurator.GetChannels(public, stable, server, true, group);
      chans.Success? && TargetChannel(public, stable, server, group) == chans.value[if public then 0 else 1]
  {
  }

  predicate Matches(d: Dist, name: string, version: string, variant: string) {
    d.name == name && d.version == version && StartsWith(d.buildString, variant)
  }

  /** The (timestamp, relative url) pairs of the matching records, in index
      order: at most one per record, and none exactly when nothing matches. */
  function MatchPairs(index: seq<Dist>, channelUrl: string, name: string, version: string, variant: string)
    : (r: seq<(int, string)>)
    ensures |r| <= |index|
    ensures r == [] <==> forall d <- index :: !Matches(d, name, version, variant)
  {
    if index == [] then []
    else
      var last := index[|index| - 1];
      MatchPairs(index[..|index| - 1], channelUrl, name, version, variant)
        + (if Matches(last, name, version, variant) then [(last.timestamp, RemoveAll(last.url, channelUrl))] else [])
  }

  /** The distinct timestamps of `pairs`, in order of first appearance. */
  function FirstSeen(pairs: seq<(int, string)>): (r: seq<int>)
    ensures forall t :: t in r <==> exists p <- pairs :: p.0 == t
  {
    if pairs == [] then []
    else
      var prior := FirstSeen(pairs[..|pairs| - 1]);
      var t := pairs[|pairs| - 1].0;
      assert pairs == pairs[..|pairs| - 1] + [pairs[|pairs| - 1]];
      if t in prior then prior else prior + [t]
  }

  /** The value of the last pair with timestamp `t`. */
  function LastValue(pairs: seq<(int, string)>, t: int): string {
    if pairs == [] then []
    else if pairs[|pairs| - 1].0 == t then pairs[|pairs| - 1].1
    else LastValue(pairs[..|pairs| - 1], t)
  }

  function Reverse<T>(s: seq<T>): (r: seq<T>)
    ensures |r| == |s|
    ensures forall i | 0 <= i < |s| :: r[i] == s[|s| - 1 - i]
  {
    if s == [] then [] else Reverse(s[1..]) + [s[0]]
  }

  /** Python's `d[t] = u` on an insertion-ordered dict held as a list of pairs. */
  function Put(table: seq<(int, string)>, t: int, u: string): (r: seq<(int, string)>)
    ensures (exists p <- table :: p.0 == t) ==> |r| == |table|
    ensures (exists p <- table :: p.0 == t) ==> forall j | 0 <= j < |r| ::
      r[j] == (if table[j].0 == t then (t, u) else table[j])
    ensures !(exists p <- table :: p.0 == t) ==> r == table + [(t, u)]
  {
    if exists p <- table :: p.0 == t then
      seq(|table|, j requires 0 <= j < |table| => if table[j].0 == t then (t, u) else table[j])
    else table + [(t, u)]
  }

  function Keys(table: seq<(int, string)>): (r: seq<int>)
    ensures |r| == |table|
    ensures forall j | 0 <= j < |table| :: r[j] == table[j].0
  {
    if table == [] then [] else [table[0].0] + Keys(table[1..])
  }

  function Values(table: seq<(int, string)>): (r: seq<string>)
    ensures |r| == |table|
    ensures forall j | 0 <= j < |table| :: r[j] == table[j].1
  {
    if table == [] then [] else [table[0].1] + Values(table[1..])
  }

  /** The relative urls of the matches: one per distinct timestamp, the last
      match with that timestamp winning, newest insertion first. */
  function ExpectedUrls(pairs: seq<(int, string)>): (r: seq<string>)
  {
    Reverse(LastValues(pairs, FirstSeen(pairs)))
  }

  /** There are no more distinct timestamps than pairs. */
  lemma {:induction false} FirstSeenLength(pairs: seq<(int, string)>)
    ensures |FirstSeen(pairs)| <= |pairs|
  {
    if pairs != [] {
      FirstSeenLength(pairs[..|pairs| - 1]);
    }
  }

  /** At most one url per match, and none exactly when nothing matched. */
  lemma ExpectedUrlsShape(pairs: seq<(int, string)>)
    ensures |ExpectedUrls(pairs)| <= |pairs|
    ensures ExpectedUrls(pairs) == [] <==> pairs == []
  {
    FirstSeenLength(pairs);
    if pairs != [] {
      assert pairs[|pairs| - 1] in pairs;
    }
  }

  /** The last value of each timestamp of `keys`, in that order. */
  function LastValues(pairs: seq<(int, string)>, keys: seq<int>): (r: seq<string>)
    ensures |r| == |keys|
    ensures forall i | 0 <= i < |keys| :: r[i] == LastValue(pairs, keys[i])
  {
    if keys == [] then [] else [LastValue(pairs, keys[0])] + LastValues(pairs, keys[1..])
  }

  /** The build-number allocation: the result exceeds every matching build
      number and is one more than the largest, or 0 when nothing matches;
      records that do not match have no effect. */
  method NextBuildNumber(index: seq<Dist>, channelUrl: string, name: string, version: string, variant: string)
    returns (bn: nat, urls: seq<string>)
    ensures forall d <- index :: Matches(d, name, version, variant) ==> d.buildNumber < bn
    ensures bn == 0 || exists d <- index :: Matches(d, name, version, variant) && d.buildNumber + 1 == bn
    ensures bn == 0 <==> forall d <- index :: !Matches(d, name, version, variant)
    ensures urls == ExpectedUrls(MatchPairs(index, channelUrl, name, version, variant))
  {
    bn := 0;
    var table: seq<(int, string)> := [];
    var i := 0;
    while i < |index|
      invariant 0 <= i <= |index|
      invariant bn == Ceiling(index[..i], name, version, variant)
      invariant table == Table(MatchPairs(index[..i], channelUrl, name, version, variant))
    {
      var d := index[i];
      TableStep(index, i, channelUrl, name, version, variant, table);
      CeilingStep(index, i, name, version, variant);
      if Matches(d, name, version, variant) {
        if d.buildNumber + 1 > bn {
          bn := d.buildNumber + 1;
        }
        table := Put(table, d.timestamp, RemoveAll(d.url, channelUrl));
      }
      i := i + 1;
    }
    assert index[..i] == index;
    CeilingBounds(index, name, version, variant);
    TableUrls(MatchPairs(index, channelUrl, name, version, variant));
    urls := Reverse(Values(table));
  }

  /** One more than the largest matching build number, 0 without a match. */
  function Ceiling(index: seq<Dist>, name: string, version: string, variant: string): nat {
    if index == [] then 0
    else
      var prior := Ceiling(index[..|index| - 1], name, version, variant);
      var last := index[|index| - 1];
      if Matches(last, name, version, variant) && last.buildNumber + 1 > prior then last.buildNumber + 1 else prior
  }

  lemma CeilingStep(index: seq<Dist>, i: nat, name: string, version: string, variant: string)
    requires i < |index|
    ensures var d := index[i];
      var prior := Ceiling(index[..i], name, version, variant);
      Ceiling(index[..i + 1], name, version, variant)
        == if Matches(d, name, version, variant) && d.buildNumber + 1 > prior then d.buildNumber + 1 else prior
  {
    assert index[..i + 1][..i] == index[..i];
  }

  /** The ceiling exceeds every matching build number and is one more than
      one of them, or 0 when nothing matches. */
  lemma {:induction false} CeilingBounds(index: seq<Dist>, name: string, version: string, variant: string)
    ensures var c := Ceiling(index, name, version, variant);
      && (forall d <- index :: Matches(d, name, version, variant) ==> d.buildNumber < c)
      && (c == 0 || exists d <- index :: Matches(d, name, version, variant) && d.buildNumber + 1 == c)
      && (c == 0 <==> forall d <- index :: !Matches(d, name, version, variant))
  {
    if index != [] {
      var init := index[..|index| - 1];
      var last := index[|index| - 1];
      CeilingBounds(init, name, version, variant);
      assert index == init + [last];
      assert forall d <- index :: d == last || d in init;
      assert forall d <- init :: d in index;
    }
  }

  /** One more record of the index puts its pair into the dict when it
      matches and leaves the dict alone otherwise. */
  lemma TableStep(index: seq<Dist>, i: nat, channelUrl: string, name: string, version: string, variant: string,
                  table: seq<(int, string)>)
    requires i < |index| && table == Table(MatchPairs(index[..i], channelUrl, name, version, variant))
    ensures var d := index[i];
      Table(MatchPairs(index[..i + 1], channelUrl, name, version, variant))
        == if Matches(d, name, version, variant) then Put(table, d.timestamp, RemoveAll(d.url, channelUrl)) else table
  {
    var d := index[i];
    var prior := MatchPairs(index[..i], channelUrl, name, version, variant);
    MatchPairsStep(index, i, channelUrl, name, version, variant);
    if Matches(d, name, version, variant) {
      TableSnoc(prior, (d.timestamp, RemoveAll(d.url, channelUrl)));
    } else {
      assert prior + [] == prior;
    }
  }

  /** One more record of the index adds its pair when it matches. */
  lemma MatchPairsStep(index: seq<Dist>, i: nat, channelUrl: string, name: string, version: string, variant: string)
    requires i < |index|
    ensures var d := index[i];
      MatchPairs(index[..i + 1], channelUrl, name, version, variant)
        == MatchPairs(index[..i], channelUrl, name, version, variant)
          + (if Matches(d, name, version, variant) then [(d.timestamp, RemoveAll(d.url, channelUrl))] else [])
  {
    assert index[..i + 1] == index[..i] + [index[i]];
    assert index[..i + 1][..i] == index[..i];
  }

  /** The dict the script fills: each pair put in turn. */
  function Table(pairs: seq<(int, string)>): seq<(int, string)> {
    if pairs == [] then []
    else
      var last := pairs[|pairs| - 1];
      Put(Table(pairs[..|pairs| - 1]), last.0, last.1)
  }

  lemma TableSnoc(pairs: seq<(int, string)>, p: (int, string))
    ensures Table(pairs + [p]) == Put(Table(pairs), p.0, p.1)
  {
    assert (pairs + [p])[..|pairs|] == pairs;
  }

  /** Putting the pairs in turn keeps the timestamps in order of first
      appearance, each with the last value put. */
  lemma {:induction false} TableIsTableOf(pairs: seq<(int, string)>)
    ensures TableOf(Table(pairs), pairs)
  {
    if pairs != [] {
      var init := pairs[..|pairs| - 1];
      var last := pairs[|pairs| - 1];
      TableIsTableOf(init);
      PutKeepsTable(Table(init), init, last);
      assert init + [last] == pairs;
    }
  }

  /** `table` is the insertion-ordered dict built from `pairs`: its keys are
      the timestamps in order of first appearance, each with its last value. */
  predicate TableOf(table: seq<(int, string)>, pairs: seq<(int, string)>) {
    && Keys(table) == FirstSeen(pairs)
    && forall j | 0 <= j < |table| :: table[j].1 == LastValue(pairs, table[j].0)
  }

  lemma PutKeepsTable(table: seq<(int, string)>, pairs: seq<(int, string)>, p: (int, string))
    requires TableOf(table, pairs)
    ensures TableOf(Put(table, p.0, p.1), pairs + [p])
  {
    var ps := pairs + [p];
    assert ps[..|pairs|] == pairs;
    KeysPut(table, p.0, p.1);
    var r := Put(table, p.0, p.1);
    forall j | 0 <= j < |r| ensures r[j].1 == LastValue(ps, r[j].0) {
      if j < |table| && table[j].0 != p.0 {
        assert r[j] == table[j];
      }
    }
  }

  /** The dict's values, newest insertion first, are the expected urls. */
  lemma TableUrls(pairs: seq<(int, string)>)
    ensures Reverse(Values(Table(pairs))) == ExpectedUrls(pairs)
  {
    TableIsTableOf(pairs);
    TableValues(Table(pairs), pairs);
  }

  lemma TableValues(table: seq<(int, string)>, pairs: seq<(int, string)>)
    requires TableOf(table, pairs)
    ensures Reverse(Values(table)) == ExpectedUrls(pairs)
  {
    ValuesFollowKeys(table, pairs);
  }

  lemma ValuesFollowKeys(table: seq<(int, string)>, pairs: seq<(int, string)>)
    requires forall j | 0 <= j < |table| :: table[j].1 == LastValue(pairs, table[j].0)
    ensures Values(table) == LastValues(pairs, Keys(table))
  {
    var keys := Keys(table);
    forall i | 0 <= i < |table| ensures Values(table)[i] == LastValues(pairs, keys)[i] {
      assert keys[i] == table[i].0;
    }
  }

  lemma KeysPut(table: seq<(int, string)>, t: int, u: string)
    ensures Keys(Put(table, t, u)) == if t in Keys(table) then Keys(table) else Keys(table) + [t]
  {
    if t in Keys(table) {
      KeysPutPresent(table, t, u);
    } else {
      KeysPutAbsent(table, t, u);
    }
  }

  /** Putting a key already present keeps the keys. */
  lemma KeysPutPresent(table: seq<(int, string)>, t: int, u: string)
    requires t in Keys(table)
    ensures Keys(Put(table, t, u)) == Keys(table)
  {
    var r := Put(table, t, u);
    var j :| 0 <= j < |table| && Keys(table)[j] == t;
    assert table[j] in table && table[j].0 == t;
    forall k | 0 <= k < |r| ensures Keys(r)[k] == Keys(table)[k] {
      assert r[k].0 == table[k].0;
    }
  }

  /** Putting a new key appends it. */
  lemma KeysPutAbsent(table: seq<(int, string)>, t: int, u: string)
    requires t !in Keys(table)
    ensures Keys(Put(table, t, u)) == Keys(table) + [t]
  {
    assert !(exists p <- table :: p.0 == t) by {
      forall p <- table ensures p.0 != t {
        var j :| 0 <= j < |table| && table[j] == p;
        assert Keys(table)[j] == p.0;
      }
    }
    var r := Put(table, t, u);
    assert r == table + [(t, u)];
    forall k | 0 <= k < |r| ensures Keys(r)[k] == (Keys(table) + [t])[k] {
      if k < |table| {
        assert r[k] == table[k];
      }
    }
  }

  /** The script's result. */
  datatype Outcome = Exit(code: int) | Report(buildNumber: nat, matchLines: seq<string>)

  /** The entry point, with the full command line and the index of the target
      channel: wrong argument count exits 1; otherwise the project is public
      when its visibility is "public" and stable when the tag is non-empty. */
  method Run(argv: seq<string>, index: seq<Dist>) returns (o: Outcome)
    ensures |argv| != 7 <==> o == Exit(1)
    ensures |argv| == 7 ==> (o.Report?
      && var channel := TargetChannel(argv[2] == "public", argv[3] != "", Server, argv[1]);
      var expected := ExpectedUrls(MatchPairs(index, channel, argv[4], argv[5], argv[6]));
      && |o.matchLines| == |expected|
      && (forall i | 0 <= i < |expected| :: o.matchLines[i] == channel + expected[i])
      && (forall d <- index :: Matches(d, argv[4], argv[5], argv[6]) ==> d.buildNumber < o.buildNumber)
      && (o.buildNumber == 0 <==> forall d <- index :: !Matches(d, argv[4], argv[5], argv[6]))
      && (o.buildNumber == 0 || exists d <- index :: Matches(d, argv[4], argv[5], argv[6]) && d.buildNumber + 1 == o.buildNumber))
  {
    if |argv| != 7 {
      return Exit(1);
    }
    var channel := TargetChannel(argv[2] == "public", argv[3] != "", Server, argv[1]);
    var bn, matches := NextBuildNumber(index, channel, argv[4], argv[5], argv[6]);
    var lines := seq(|matches|, i requires 0 <= i < |matches| => channel + matches[i]);
    return Report(bn, lines);
  }
}

=== FILE: order_file.dfy ===
/** The order-file reader: one package per line, optionally followed by a
    comma and a branch name; '#' starts a comment; blank lines are skipped.
    The file is given as its sequence of lines.
 */
module OrderFile {
  import opened Wrappers
  import opened Text

  /** An order-file entry: the package path and the branch to use. */
  datatype Entry = Entry(path: string, branch: string)

  const DefaultBranch: string := "master"

  /** What a line says: the text before its first '#', stripped. */
  function Content(line: string): (r: string)
    ensures '#' !in r && Stripped(r)
    ensures '#' !in line ==> r == Strip(line)
    ensures '#' in line ==> r == Strip(line[..IndexOf(line, '#')])
  {
    var content := Before(line, '#');
    StripChar(content, '#');
    Strip(content)
  }

  /** One line: the comment is cut off first, then whitespace is stripped;
      nothing is left for a blank line; otherwise the line splits at its
      first comma into a stripped path and a stripped branch, the branch
      being "master" when there is no comma. */
  function ParseLine(line: string): (r: Option<Entry>)
    ensures r.None? <==> Content(line) == []
    ensures r.Some? ==> ',' !in r.value.path && '#' !in r.value.path && '#' !in r.value.branch
    ensures r.Some? ==> Stripped(r.value.path) && Stripped(r.value.branch)
    ensures r.Some? && ',' !in Content(line) ==> r.value == Entry(Content(line), DefaultBranch)
    ensures ',' in Content(line) ==> var l := Content(line); var k := IndexOf(l, ',');
      r == Some(Entry(Strip(l[..k]), Strip(l[k + 1..])))
  {
    var l := Content(line);
    if l == [] then None
    else if ',' in l then Some(SplitBranch(l))
    else
      DefaultBranchPlain();
      Some(Entry(l, DefaultBranch))
  }

  /** The default branch is a plain name. */
  lemma DefaultBranchPlain()
    ensures '#' !in DefaultBranch && Stripped(DefaultBranch)
  {
  }

  /** `line.split(',', 1)` with both halves stripped. */
  function SplitBranch(l: string): (e: Entry)
    requires ',' in l
    ensures ',' !in e.path && Stripped(e.path) && Stripped(e.branch)
    ensures '#' !in l ==> '#' !in e.path && '#' !in e.branch
    ensures var k := IndexOf(l, ','); e == Entry(Strip(l[..k]), Strip(l[k + 1..]))
  {
    var head := Before(l, ',');
    var tail := After(l, ',');
    PartitionChar(l, ',', '#');
    StripChar(head, ',');
    StripChar(head, '#');
    StripChar(tail, '#');
    Entry(Strip(head), Strip(tail))
  }

  /** The values `parse` finds in `lines`, in order, skipping lines where it
      finds nothing. */
  function Collect(lines: seq<string>, parse: string -> Option<Entry>): (r: seq<Entry>)
    ensures |r| <= |lines|
    ensures forall e <- r :: exists l <- lines :: parse(l) == Some(e)
    ensures |r| == |lines| <==> forall l <- lines :: parse(l).Some?
  {
    if lines == [] then []
    else
      var rest := Collect(lines[1..], parse);
      assert forall l <- lines[1..] :: l in lines;
      assert forall l <- lines :: l == lines[0] || l in lines[1..];
      match parse(lines[0])
      case None => rest
      case Some(e) => [e] + rest
  }

  /** Collecting is line by line: the values of two pieces of a file are
      those of the whole. */
  lemma {:induction false} CollectAppend(a: seq<string>, b: seq<string>, parse: string -> Option<Entry>)
    ensures Collect(a + b, parse) == Collect(a, parse) + Collect(b, parse)
  {
    if a == [] {
      assert a + b == b;
    } else {
      assert (a + b)[0] == a[0];
      assert (a + b)[1..] == a[1..] + b;
      CollectAppend(a[1..], b, parse);
      match parse(a[0])
      case None =>
      case Some(e) =>
        assert [e] + Collect(a[1..], parse) + Collect(b, parse) == [e] + (Collect(a[1..], parse) + Collect(b, parse));
    }
  }

  /** The entries of the file, one per non-blank line, in file order. */
  function ReadPackages(lines: seq<string>): (r: seq<Entry>)
    ensures |r| <= |lines|
    ensures forall e <- r :: ',' !in e.path && '#' !in e.path && '#' !in e.branch
  {
    Collect(lines, ParseLine)
  }

  /** Reading is line by line: the entries of two pieces of a file are
      those of the whole. */
  lemma ReadPackagesAppend(a: seq<string>, b: seq<string>)
    ensures ReadPackages(a + b) == ReadPackages(a) + ReadPackages(b)
  {
    CollectAppend(a, b, ParseLine);
  }

  /** An entry as it is written in an order file. */
  function FormatEntry(e: Entry): string {
    e.path + "," + e.branch
  }

  /** An entry the reader can reproduce: a non-empty path without commas,
      neither part containing '#' nor having surrounding whitespace. */
  predicate Writable(e: Entry) {
    && e.path != [] && Stripped(e.path) && Stripped(e.branch)
    && ',' !in e.path && '#' !in e.path && '#' !in e.branch
  }

  /** Reading a written entry gives it back. */
  lemma FormatEntryRoundTrip(e: Entry)
    requires Writable(e)
    ensures ParseLine(FormatEntry(e)) == Some(e)
  {
    var line := FormatEntry(e);
    ContentOfWritten(e);
    assert line[|e.path|] == ',';
    SplitBranchOf(e);
  }

  lemma ContentOfWritten(e: Entry)
    requires Writable(e)
    ensures Content(FormatEntry(e)) == FormatEntry(e)
  {
    var line := FormatEntry(e);
    NoHashInLine(e);
    assert Before(line, '#') == line;
    LineStripped(e);
  }

  lemma SplitBranchOf(e: Entry)
    requires Writable(e)
    ensures ',' in FormatEntry(e) && SplitBranch(FormatEntry(e)) == e
  {
    var line := FormatEntry(e);
    assert line == e.path + [','] + e.branch;
    assert line[|e.path|] == ',';
    PartitionCons(e.path, ',', e.branch);
    StripStripped(e.path);
    StripStripped(e.branch);
  }

  lemma NoHashInLine(e: Entry)
    requires '#' !in e.path && '#' !in e.branch
    ensures '#' !in FormatEntry(e)
  {
    var line := FormatEntry(e);
    forall i | 0 <= i < |line| ensures line[i] != '#' {
      if i < |e.path| {
        assert line[i] == e.path[i];
      } else if i > |e.path| {
        assert line[i] == e.branch[i - |e.path| - 1];
      }
    }
  }

  lemma LineStripped(e: Entry)
    requires Writable(e)
    ensures Strip(FormatEntry(e)) == FormatEntry(e)
  {
    var line := FormatEntry(e);
    assert line[0] == e.path[0];
    if e.branch == [] {
      assert line[|line| - 1] == ',';
    } else {
      assert line[|line| - 1] == e.branch[|e.branch| - 1];
    }
    StripStripped(line);
  }

  /** An order file listing `es`, one entry per line. */
  function FormatAll(es: seq<Entry>): (lines: seq<string>)
    ensures |lines| == |es|
    ensures forall i | 0 <= i < |es| :: lines[i] == FormatEntry(es[i])
  {
    if es == [] then [] else [FormatEntry(es[0])] + FormatAll(es[1..])
  }

  /** Reading lines each of which `parse` maps to an entry gives exactly
      those entries. */
  lemma {:induction false} CollectAll(lines: seq<string>, parse: string -> Option<Entry>, es: seq<Entry>)
    requires |lines| == |es|
    requires forall i | 0 <= i < |lines| :: parse(lines[i]) == Some(es[i])
    ensures Collect(lines, parse) == es
  {
    if lines != [] {
      CollectAll(lines[1..], parse, es[1..]);
      assert es == [es[0]] + es[1..];
    }
  }

  /** A file of written entries reads back as those entries. */
  lemma ReadPackagesRoundTrip(es: seq<Entry>)
    requires forall e <- es :: Writable(e)
    ensures ReadPackages(FormatAll(es)) == es
  {
    var lines := FormatAll(es);
    forall i | 0 <= i < |lines| ensures ParseLine(lines[i]) == Some(es[i]) {
      FormatEntryRoundTrip(es[i]);
    }
    CollectAll(lines, ParseLine, es);
  }

  /** A line without a comma names its package on the master branch. */
  lemma PlainLine(path: string, comment: string)
    requires path != [] && Stripped(path) && ',' !in path && '#' !in path
    ensures ParseLine(path + "#" + comment) == Some(Entry(path, DefaultBranch))
    ensures ParseLine(path) == Some(Entry(path, DefaultBranch))
  {
    PartitionCons(path, '#', comment);
    assert path + "#" + comment == path + ['#'] + comment;
    StripStripped(path);
    assert Content(path + "#" + comment) == path;
    assert Content(path) == path;
  }

  /** A line whose first non-blank character is '#' names nothing. */
  lemma CommentLine(blank: string, comment: string)
    requires forall c <- blank :: IsSpace(c)
    ensures ParseLine(blank + "#" + comment) == None
  {
    assert '#' !in blank;
    PartitionCons(blank, '#', comment);
    assert blank + "#" + comment == blank + ['#'] + comment;
    LStripAllSpace(blank);
    assert Content(blank + "#" + comment) == [];
  }

  /** A padded line with a trailing comment: the comment goes first, then
      the line splits at its first comma only, so a branch may hold more
      commas. */
  lemma PaddedLine(path: string, branch: string, comment: string)
    requires path != [] && Stripped(path) && ',' !in path && '#' !in path
    requires branch != [] && Stripped(branch) && '#' !in branch
    ensures ParseLine(" " + path + " , " + branch + " #" + comment) == Some(Entry(path, branch))
  {
    PaddedContent(path, branch, comment);
    CommaSplit(path, branch);
  }

  /** The comment and the padding around a "path , branch" line are cut. */
  lemma PaddedContent(path: string, branch: string, comment: string)
    requires path != [] && Stripped(path) && '#' !in path
    requires branch != [] && Stripped(branch) && '#' !in branch
    ensures Content(" " + path + " , " + branch + " #" + comment) == path + " , " + branch
  {
    var l := path + " , " + branch;
    var x := " " + l + " ";
    var line := " " + path + " , " + branch + " #" + comment;
    assert line == x + ['#'] + comment;
    forall i | 0 <= i < |x| ensures x[i] != '#' {
      if 1 <= i <= |path| {
        assert x[i] == path[i - 1];
      } else if |path| + 4 <= i < |x| - 1 {
        assert x[i] == branch[i - |path| - 4];
      }
    }
    PartitionCons(x, '#', comment);
    assert l[0] == path[0] && l[|l| - 1] == branch[|branch| - 1];
    StripOne(l);
  }

  /** A "path , branch" text splits at the comma after the path. */
  lemma CommaSplit(path: string, branch: string)
    requires path != [] && Stripped(path) && ',' !in path
    requires branch != [] && Stripped(branch)
    ensures ',' in path + " , " + branch
    ensures SplitBranch(path + " , " + branch) == Entry(path, branch)
  {
    var l := path + " , " + branch;
    var k := |path| + 1;
    assert l == (path + " ") + [','] + (" " + branch);
    assert l[..k] == path + " ";
    assert ',' !in path + " ";
    assert l[k + 1..] == " " + branch;
    IndexOfIs(l, ',', k);
    StripOne(path);
    StripOne(branch);
  }

  /** One blank on each side, or on one side only, is all `strip` removes. */
  lemma StripOne(t: string)
    requires t != [] && !IsSpace(t[0]) && !IsSpace(t[|t| - 1])
    ensures Strip(" " + t + " ") == t && Strip(t + " ") == t && Strip(" " + t) == t
  {
    assert " " + t + " " == " " + (t + " ");
    LStripSkip(" ", t + " ");
    LStripSkip(" ", t);
    assert RStrip(t + " ") == RStrip(t);
  }

  /** An occurrence with none before it is the one `IndexOf` reports. */
  lemma IndexOfIs(s: string, c: char, k: int)
    requires 0 <= k < |s| && s[k] == c && c !in s[..k]
    ensures IndexOf(s, c) == k
  {
  }
}

=== FILE: repodata_patch.dfy ===
/** Repodata patch generation for the package channel: a rewrite of the
    index records (extra run-time dependencies for some packages), the
    per-file diff of old and new records that conda applies as patch
    instructions, and the fixed list of package files removed per platform.
    Version ordering is an oracle `versionLe(a, b)`.
 */
module RepodataPatch {
  import opened Wrappers

  /** A JSON value of a record field. */
  datatype Value = Null | Bool(b: bool) | Int(i: int) | Str(s: string) | List(items: seq<Value>)

  /** An index record: field name to value. */
  type Record = map<string, Value>

  /** An index: file name to record. */
  type Index = map<string, Record>

  /** The record updated with a patch: patched fields take the patch's value. */
  function Update(record: Record, patch: Record): Record {
    record + patch
  }

  /** The fields of `after` that are absent from or different in `before`,
      with their values in `after`. */
  function Changes(before: Record, after: Record): (r: Record)
    ensures forall k :: k in r <==> k in after && (k !in before || before[k] != after[k])
    ensures forall k <- r :: r[k] == after[k]
  {
    map k | k in after && (k !in before || before[k] != after[k]) :: after[k]
  }

  /** What the diff asserts of its inputs: every old file is in the new
      index, with every old field still present. */
  predicate Comparable(index: Index, newIndex: Index) {
    forall fn <- index :: fn in newIndex && index[fn].Keys <= newIndex[fn].Keys
  }

  /** The patch for `fn`: its entry in the instructions, or nothing. */
  function PatchOf(patches: map<string, Record>, fn: string): Record {
    if fn in patches then patches[fn] else map[]
  }

  /** The per-file patches: only files that changed get an entry, holding
      the changed and added fields with their new values. Applying them to
      the old index gives the new records. */
  function Diff(index: Index, newIndex: Index): (r: map<string, Record>)
    requires Comparable(index, newIndex)
    ensures r.Keys <= index.Keys
    ensures forall fn <- r :: r[fn] != map[] && r[fn] == Changes(index[fn], newIndex[fn])
    ensures forall fn <- index :: fn in r <==> index[fn] != newIndex[fn]
    ensures forall fn <- index :: Update(index[fn], PatchOf(r, fn)) == newIndex[fn]
  {
    var r := map fn | fn in index && Changes(index[fn], newIndex[fn]) != map[] :: Changes(index[fn], newIndex[fn]);
    forall fn <- index ensures Update(index[fn], PatchOf(r, fn)) == newIndex[fn] && (fn in r <==> index[fn] != newIndex[fn]) {
      ChangesApply(index[fn], newIndex[fn]);
    }
    r
  }

  /** Updating the old record with its changes gives the new record, and
      there are no changes exactly when the records are equal. */
  lemma ChangesApply(before: Record, after: Record)
    requires before.Keys <= after.Keys
    ensures Update(before, Changes(before, after)) == after
    ensures Changes(before, after) == map[] <==> before == after
  {
    var c := Changes(before, after);
    assert Update(before, c).Keys == after.Keys;
    if c == map[] {
      forall k <- after ensures k in before && before[k] == after[k] {
        assert k !in c;
      }
    }
    if before == after {
      assert forall k :: k !in c;
    }
  }

  /** The patch instructions of one package section. */
  datatype Instructions = Instructions(version: int, patches: map<string, Record>, revoke: seq<string>, remove: seq<string>)

  /** The instructions a diff produces: version 1, nothing revoked, nothing
      removed. */
  function PatchInstructions(index: Index, newIndex: Index): (r: Instructions)
    requires Comparable(index, newIndex)
    ensures r.version == 1 && r.revoke == [] && r.remove == []
    ensures r.patches == Diff(index, newIndex)
  {
    Instructions(1, Diff(index, newIndex), [], [])
  }

  const NumpyPin: Value := Str("numpy <1.18")

  const CpuOnly: Value := Str("cpuonly")

  /** `after` is `before` with `dep` appended to its "depends" list. */
  predicate DependsAppended(before: Record, after: Record, dep: Value) {
    && "depends" in before && before["depends"].List?
    && after == before["depends" := List(before["depends"].items + [dep])]
  }

  /** `record["depends"].append(dep)`: fails when the field is missing or
      not a list. */
  function AppendDepends(record: Record, dep: Value): (r: Result<Record>)
    ensures r.Success? <==> "depends" in record && record["depends"].List?
    ensures r.Success? ==> DependsAppended(record, r.value, dep)
  {
    if "depends" !in record || !record["depends"].List? then Failure("depends is not a list")
    else Success(record["depends" := List(record["depends"].items + [dep])])
  }

  /** Whether a bob.bio.base record is at most version 4.1.0; false when the
      version is missing or not a string. */
  predicate OldBobBioBase(record: Record, versionLe: (string, string) -> bool) {
    "version" in record && record["version"].Str? && versionLe(record["version"].s, "4.1.0")
  }

  /** The adjustment of one record: bob.bio.base up to version 4.1.0 gains
      a numpy pin, pytorch gains cpuonly; every record needs a name and a
      bob.bio.base one a string version. */
  function AdjustRecord(record: Record, versionLe: (string, string) -> bool): (r: Result<Record>)
    ensures "name" !in record ==> r.Failure?
    ensures r.Success? ==> r.value.Keys == record.Keys
    ensures r.Success? && record["name"] != Str("bob.bio.base") && record["name"] != Str("pytorch") ==> r.value == record
    ensures r.Success? && record["name"] == Str("pytorch") ==> DependsAppended(record, r.value, CpuOnly)
    ensures r.Success? && record["name"] == Str("bob.bio.base") ==>
      if OldBobBioBase(record, versionLe) then DependsAppended(record, r.value, NumpyPin) else r.value == record
    ensures "name" in record && record["name"] == Str("bob.bio.base") ==>
      (r.Failure? <==>
        || !("version" in record && record["version"].Str?)
        || (OldBobBioBase(record, versionLe) && !("depends" in record && record["depends"].List?)))
    ensures "name" in record && record["name"] == Str("pytorch") ==>
      (r.Failure? <==> !("depends" in record && record["depends"].List?))
    ensures "name" in record && record["name"] != Str("bob.bio.base") && record["name"] != Str("pytorch") ==>
      r == Success(record)
  {
    if "name" !in record then Failure("KeyError: name")
    else if record["name"] == Str("bob.bio.base") then
      if "version" !in record || !record["version"].Str? then Failure("version is not a string")
      else if versionLe(record["version"].s, "4.1.0") then AppendDepends(record, NumpyPin)
      else Success(record)
    else if record["name"] == Str("pytorch") then AppendDepends(record, CpuOnly)
    else Success(record)
  }

  /** The new index: every record adjusted, the input left as it is; it
      fails when any record cannot be adjusted. */
  function NewIndex(index: Index, versionLe: (string, string) -> bool): (r: Result<Index>)
    ensures r.Success? <==> forall fn <- index :: AdjustRecord(index[fn], versionLe).Success?
    ensures r.Success? ==> r.value.Keys == index.Keys
    ensures r.Success? ==> forall fn <- index :: r.value[fn] == AdjustRecord(index[fn], versionLe).value
  {
    if exists fn <- index :: AdjustRecord(index[fn], versionLe).Failure? then
      Failure("a record cannot be adjusted")
    else
      Success(map fn | fn in index :: AdjustRecord(index[fn], versionLe).value)
  }

  /** The diff's assertions always hold for an index and its adjustment. */
  lemma NewIndexComparable(index: Index, versionLe: (string, string) -> bool)
    requires NewIndex(index, versionLe).Success?
    ensures Comparable(index, NewIndex(index, versionLe).value)
  {
  }

  /** Only bob.bio.base and pytorch records are patched, and only in their
      dependencies. */
  lemma OnlyDependsPatched(index: Index, versionLe: (string, string) -> bool)
    requires NewIndex(index, versionLe).Success?
    ensures var patches := Diff(index, NewIndex(index, versionLe).value);
      forall fn <- patches ::
        && (index[fn]["name"] == Str("bob.bio.base") || index[fn]["name"] == Str("pytorch"))
        && patches[fn].Keys == {"depends"}
  {
    var newIndex := NewIndex(index, versionLe).value;
    var patches := Diff(index, newIndex);
    forall fn <- patches
      ensures index[fn]["name"] == Str("bob.bio.base") || index[fn]["name"] == Str("pytorch")
      ensures patches[fn].Keys == {"depends"}
    {
      RecordPatch(index[fn], versionLe);
    }
  }

  /** A record's adjustment changes nothing, or its dependencies only. */
  lemma RecordPatch(record: Record, versionLe: (string, string) -> bool)
    requires AdjustRecord(record, versionLe).Success?
    ensures var c := Changes(record, AdjustRecord(record, versionLe).value);
      c != map[] ==>
        && (record["name"] == Str("bob.bio.base") || record["name"] == Str("pytorch"))
        && c.Keys == {"depends"}
  {
    var after := AdjustRecord(record, versionLe).value;
    var c := Changes(record, after);
    if c != map[] {
      assert after != record;
      var dep := if record["name"] == Str("pytorch") then CpuOnly else NumpyPin;
      assert DependsAppended(record, after, dep);
      assert |after["depends"].items| == |record["depends"].items| + 1;
      assert "depends" in c;
      forall k <- c ensures k == "depends" {
        assert record[k] != after[k];
      }
    }
  }

  /** The files removed from each platform's channel. */
  const Removals: map<string, set<string>> := map[
    "osx-64" := {
      "openh264-1.7.0-h18e5fc6_2.conda",
      "openh264-1.7.0-h89e8454_1.tar.bz2",
      "ffmpeg-2.8.10-0.tar.bz2",
      "ffmpeg-2.8.10-1.tar.bz2",
      "ffmpeg-2.8.10-2.tar.bz2",
      "ffmpeg-2.8.10-3.tar.bz2",
      "ffmpeg-2.8.10-4.tar.bz2",
      "ffmpeg-3.4-h3b64a03_1.tar.bz2",
      "ffmpeg-4.0-h18e5fc6_2.conda",
      "ffmpeg-4.0-h2047f9e_1.tar.bz2",
      "ffmpeg-4.0-he86247c_0.tar.bz2",
      "x264-20131217-0.tar.bz2",
      "x264-20131217-1.tar.bz2",
      "x264-20131217-2.tar.bz2",
      "x264-20131217-3.tar.bz2"},
    "linux-64" := {
      "kaldi-1!5.5.164-h93a79c4_1.conda",
      "kaldi-1!5.5.164-h13f0c7c_0.conda",
      "kaldi-1!5.5.164-h13f0c7c_0.tar.bz2",
      "kaldi-2017.03.13-h6bb2d05_3.tar.bz2",
      "kaldi-r7271.1a4dbf6-h6bb2d05_2.tar.bz2",
      "kaldi-r7271.1a4dbf6-0.tar.bz2",
      "openh264-1.7.0-hc521636_1.tar.bz2",
      "openh264-1.7.0-hf6c5f75_2.conda",
      "ffmpeg-2.8.10-0.tar.bz2",
      "ffmpeg-2.8.10-1.tar.bz2",
      "ffmpeg-2.8.10-2.tar.bz2",
      "ffmpeg-2.8.10-3.tar.bz2",
      "ffmpeg-2.8.10-4.tar.bz2",
      "ffmpeg-3.4-hdec9c9a_1.tar.bz2",
      "ffmpeg-4.0-hadceb68_1.tar.bz2",
      "ffmpeg-4.0-hdb0e523_0.tar.bz2",
      "ffmpeg-4.0-hf6c5f75_2.conda",
      "x264-20131217-0.tar.bz2",
      "x264-20131217-1.tar.bz2",
      "x264-20131217-2.tar.bz2",
      "x264-20131217-3.tar.bz2"},
    "noarch" := {}]

  /** The parts of a platform's repodata the generator reads. */
  datatype Repodata = Repodata(subdir: string, packages: Option<Index>, packagesConda: Option<Index>)

  /** The combined instructions for both package sections. */
  datatype Combined = Combined(
    version: int,
    packages: map<string, Record>,
    packagesConda: map<string, Record>,
    revoke: set<string>,
    remove: set<string>)

  /** The instructions of one platform: each section is adjusted and
      diffed, and the platform's removals are listed once. A missing
      section, an unknown platform or a record that cannot be adjusted
      fails. */
  function GenerateInstructions(repodata: Repodata, versionLe: (string, string) -> bool): (r: Result<Combined>)
    ensures r.Success? <==>
      && repodata.packages.Some? && NewIndex(repodata.packages.value, versionLe).Success?
      && repodata.subdir in Removals
      && repodata.packagesConda.Some? && NewIndex(repodata.packagesConda.value, versionLe).Success?
    ensures r.Success? ==> r.value.version == 1 && r.value.revoke == {} && r.value.remove == Removals[repodata.subdir]
    ensures r.Success? ==> forall fn <- repodata.packages.value ::
      Update(repodata.packages.value[fn], PatchOf(r.value.packages, fn))
        == NewIndex(repodata.packages.value, versionLe).value[fn]
    ensures r.Success? ==> forall fn <- repodata.packagesConda.value ::
      Update(repodata.packagesConda.value[fn], PatchOf(r.value.packagesConda, fn))
        == NewIndex(repodata.packagesConda.value, versionLe).value[fn]
  {
    if repodata.packages.None? then Failure("KeyError: packages")
    else
      var index := repodata.packages.value;
      var newIndex :- NewIndex(index, versionLe);
      NewIndexComparable(index, versionLe);
      var first := PatchInstructions(index, newIndex);
      if repodata.subdir !in Removals then Failure("KeyError: " + repodata.subdir)
      else if repodata.packagesConda.None? then Failure("KeyError: packages.conda")
      else
        var indexConda := repodata.packagesConda.value;
        var newIndexConda :- NewIndex(indexConda, versionLe);
        NewIndexComparable(indexConda, versionLe);
        var second := PatchInstructions(indexConda, newIndexConda);
        var removals := Removals[repodata.subdir];
        Success(Combined(
          first.version,
          first.patches,
          second.patches,
          (set x <- first.revoke) + (set x <- second.revoke),
          removals + removals))
  }

  /** The records of the diff example, before and after. */
  const ExampleA: Record := map["depends" := List([Str("c"), Str("d")]), "features" := Str("d")]
  const ExampleNewA: Record := map["depends" := List([Str("c"), Str("d"), Str("e")]), "features" := Null]
  const ExampleB: Record := map["nane" := Str("blah")]
  const ExampleNewC: Record := map["addthis" := Str("yes")]

  /** The diff of the example: "b" is unchanged and gets no entry; "a" has
      every field changed and "c" gains one. */
  lemma DiffExample()
    ensures var index := map["a" := ExampleA, "b" := ExampleB, "c" := map[]];
      var newIndex := map["a" := ExampleNewA, "b" := ExampleB, "c" := ExampleNewC];
      Comparable(index, newIndex) && Diff(index, newIndex) == map["a" := ExampleNewA, "c" := ExampleNewC]
  {
    ExampleRecords();
    DiffOfThree(ExampleA, ExampleNewA, ExampleB, ExampleNewC);
  }

  /** A diff over three files: one changed wholly, one unchanged, one
      gaining every field. */
  lemma DiffOfThree(a: Record, a2: Record, b: Record, c2: Record)
    requires a.Keys <= a2.Keys && a != a2 && Changes(a, a2) == a2
    requires c2 != map[] && Changes(map[], c2) == c2
    ensures var index := map["a" := a, "b" := b, "c" := map[]];
      var newIndex := map["a" := a2, "b" := b, "c" := c2];
      Comparable(index, newIndex) && Diff(index, newIndex) == map["a" := a2, "c" := c2]
  {
    var index := map["a" := a, "b" := b, "c" := map[]];
    var newIndex := map["a" := a2, "b" := b, "c" := c2];
    var expected := map["a" := a2, "c" := c2];
    assert index.Keys == {"a", "b", "c"};
    assert Comparable(index, newIndex);
    assert expected.Keys == {"a", "c"};
    DiffIs(index, newIndex, expected);
  }

  /** The diff is the map of the changed files to their changes. */
  lemma DiffIs(index: Index, newIndex: Index, expected: map<string, Record>)
    requires Comparable(index, newIndex)
    requires forall fn <- index :: fn in expected <==> index[fn] != newIndex[fn]
    requires expected.Keys <= index.Keys
    requires forall fn <- expected :: expected[fn] == Changes(index[fn], newIndex[fn])
    ensures Diff(index, newIndex) == expected
  {
    var d := Diff(index, newIndex);
    assert d.Keys == expected.Keys;
  }

  lemma ExampleRecords()
    ensures ExampleA.Keys == ExampleNewA.Keys
    ensures ExampleA != ExampleNewA && Changes(ExampleA, ExampleNewA) == ExampleNewA
    ensures map[] != ExampleNewC && Changes(map[], ExampleNewC) == ExampleNewC
  {
    assert ExampleA.Keys == ExampleNewA.Keys == {"depends", "features"};
    assert ExampleA["features"] != ExampleNewA["features"];
    assert ExampleA["depends"] != ExampleNewA["depends"] by {
      assert |ExampleA["depends"].items| != |ExampleNewA["depends"].items|;
    }
    ChangesAllDiffer(ExampleA, ExampleNewA);
    assert "addthis" in ExampleNewC;
  }

  /** When every field changes, the changes are the whole new record. */
  lemma ChangesAllDiffer(before: Record, after: Record)
    requires before.Keys == after.Keys
    requires forall k <- before :: before[k] != after[k]
    ensures Changes(before, after) == after
  {
  }
}

=== FILE: sections.dfy ===
/** A section of a text file delimited by a start marker and an end marker,
    as the update commands maintain them: the text before the start marker
    and from the end marker on belongs to the user, the section in between
    is rewritten. Markers are located with `str.find`, the first occurrence.
 */
module Sections {
  import opened Text

  /** `text` holds both markers, the start marker ending before the end
      marker begins. */
  predicate MarkedBy(text: string, start: string, end: string) {
    && Contains(text, start)
    && Contains(text, end)
    && Find(text, start) + |start| <= Find(text, end)
  }

  /** A body that can follow the start marker without hiding the end
      marker: it starts a new line and holds no '#'. */
  predicate Body(body: string) {
    body != [] && body[0] == '\n' && '#' !in body
  }

  /** An end marker that is a '#' comment on one line. */
  predicate Comment(end: string) {
    end != [] && end[0] == '#' && '\n' !in end
  }

  /** The text with everything from the start marker up to the end marker
      replaced by `block`. */
  function Replaced(text: string, start: string, end: string, block: string): string
    requires MarkedBy(text, start, end)
  {
    text[..Find(text, start)] + block + text[Find(text, end)..]
  }

  /** The text with its section replaced by the start marker and `body`. */
  function Rewritten(text: string, start: string, end: string, body: string): string
    requires MarkedBy(text, start, end)
  {
    Replaced(text, start, end, start + body)
  }

  /** Keeping the text through the start marker and writing `body` after
      it is rewriting the section. */
  lemma KeptStart(text: string, start: string, end: string, body: string)
    requires MarkedBy(text, start, end)
    ensures text[..Find(text, start) + |start|] + body + text[Find(text, end)..] == Rewritten(text, start, end, body)
  {
    var i0 := Find(text, start);
    var i1 := i0 + |start|;
    assert text[i0..i1] == start;
    assert text[..i1] == text[..i0] + start;
    var tail := text[Find(text, end)..];
    assert text[..i0] + start + body + tail == text[..i0] + (start + body) + tail;
  }

  /** In the rewritten text the start marker is found where it was: every
      earlier window ends before the old marker does, inside the part the
      two texts share. */
  lemma StartRefound(text: string, start: string, end: string, body: string)
    requires MarkedBy(text, start, end)
    ensures Find(Rewritten(text, start, end, body), start) == Find(text, start)
  {
    var i1 := Find(text, start);
    var m := i1 + |start|;
    var r := Rewritten(text, start, end, body);
    SharedPrefix(text, start, end, body);
    forall j | 0 <= j < i1 ensures !OccursAt(r, start, j) {
      NotAtShared(text, r, start, j, m);
    }
    FindIs(r, start, i1);
  }

  /** In the rewritten text the end marker is found right after the body:
      an earlier window either lies in the shared part, where the old text
      had no end marker, or covers the newline the body starts with, or
      starts inside the body, which has no '#'. */
  lemma EndRefound(text: string, start: string, end: string, body: string)
    requires MarkedBy(text, start, end) && Comment(end) && Body(body)
    ensures Find(Rewritten(text, start, end, body), end) == Find(text, start) + |start| + |body|
  {
    var i1 := Find(text, start);
    var i2 := Find(text, end);
    var m := i1 + |start|;
    var r := Rewritten(text, start, end, body);
    var e := m + |body|;
    SharedPrefix(text, start, end, body);
    SharedSuffix(text, start, end, body);
    forall j | 0 <= j < e ensures !OccursAt(r, end, j) {
      if j + |end| <= m {
        NotAtShared(text, r, end, j, m);
      } else if j < m {
        NotAcrossNewline(r, end, j, m);
      } else {
        assert r[j] == body[j - m];
      }
    }
    FindIs(r, end, e);
  }

  /** The rewritten text agrees with the old one up to the end of the start
      marker, and starts its body there. */
  lemma SharedPrefix(text: string, start: string, end: string, body: string)
    requires MarkedBy(text, start, end)
    ensures var m := Find(text, start) + |start|;
      var r := Rewritten(text, start, end, body);
      && m <= |r| && r[..m] == text[..m]
      && (body != [] ==> r[m] == body[0])
  {
    var i1 := Find(text, start);
    var m := i1 + |start|;
    assert text[i1..m] == start;
    var r := Rewritten(text, start, end, body);
    assert r[..m] == text[..i1] + start;
  }

  /** After the body comes the old text from the end marker on. */
  lemma SharedSuffix(text: string, start: string, end: string, body: string)
    requires MarkedBy(text, start, end)
    ensures var e := Find(text, start) + |start| + |body|;
      var r := Rewritten(text, start, end, body);
      e <= |r| && r[e..] == text[Find(text, end)..]
  {
  }

  /** A window inside the part two texts share is an occurrence in both or
      in neither. */
  lemma NotAtShared(text: string, r: string, p: string, j: int, m: int)
    requires 0 <= j && j + |p| <= m <= |text| && m <= |r| && r[..m] == text[..m]
    requires !OccursAt(text, p, j)
    ensures !OccursAt(r, p, j)
  {
    assert r[j..j + |p|] == r[..m][j..j + |p|];
    assert text[j..j + |p|] == text[..m][j..j + |p|];
  }

  /** A pattern without newlines does not occur across one. */
  lemma NotAcrossNewline(r: string, p: string, j: int, m: int)
    requires 0 <= j < m < j + |p| && m < |r| && r[m] == '\n' && '\n' !in p
    ensures !OccursAt(r, p, j)
  {
    if j + |p| <= |r| {
      assert r[j..j + |p|][m - j] == r[m];
    }
  }

  /** With the section rewritten, the markers still delimit it: the start
      marker where it was and the end marker right after the new body. */
  lemma RewrittenMarked(text: string, start: string, end: string, body: string)
    requires MarkedBy(text, start, end) && Comment(end) && Body(body)
    ensures var r := Rewritten(text, start, end, body);
      && MarkedBy(r, start, end)
      && Find(r, start) == Find(text, start)
      && Find(r, end) == Find(text, start) + |start| + |body|
  {
    StartRefound(text, start, end, body);
    EndRefound(text, start, end, body);
  }

  /** Replacing a rewritten section is replacing the original one: the
      user's text around the section is what it was. */
  lemma RewriteTwice(text: string, start: string, end: string, body: string, block: string)
    requires MarkedBy(text, start, end) && Comment(end) && Body(body)
    ensures MarkedBy(Rewritten(text, start, end, body), start, end)
    ensures Replaced(Rewritten(text, start, end, body), start, end, block) == Replaced(text, start, end, block)
  {
    var r := Rewritten(text, start, end, body);
    RewrittenMarked(text, start, end, body);
    var i1 := Find(text, start);
    SharedPrefix(text, start, end, body);
    SharedSuffix(text, start, end, body);
    assert r[..i1] == text[..i1];
  }
}

=== FILE: sorting.dfy ===
/** Python's `sorted` on lists of strings, and `sorted(set(xs))`. */
module Sorting {
  import opened Text

  /** Non-decreasing under string order, as `sorted` leaves a list. */
  predicate Sorted(s: seq<string>) {
    forall i, j | 0 <= i < j < |s| :: !Less(s[j], s[i])
  }

  /** Strictly increasing: sorted and free of duplicates. */
  predicate StrictlySorted(s: seq<string>) {
    forall i, j | 0 <= i < j < |s| :: Less(s[i], s[j])
  }

  function Insert(x: string, s: seq<string>): (r: seq<string>)
    requires Sorted(s)
    ensures Sorted(r)
    ensures multiset(r) == multiset(s) + multiset{x}
  {
    if s == [] || !Less(s[0], x) then
      forall j | 0 <= j < |s| ensures !Less(s[j], x) {
        if j > 0 {
          NotLessTransitive(x, s[0], s[j]);
        }
      }
      SortedCons(x, s);
      [x] + s
    else
      var rest := Insert(x, s[1..]);
      forall j | 0 <= j < |rest| ensures !Less(rest[j], s[0]) {
        assert rest[j] in multiset(rest);
        LessAsymmetric(s[0], x);
      }
      SortedCons(s[0], rest);
      assert s == [s[0]] + s[1..];
      [s[0]] + rest
  }

  /** An element no later one is less than can head a sorted list. */
  lemma SortedCons(h: string, t: seq<string>)
    requires Sorted(t) && forall j | 0 <= j < |t| :: !Less(t[j], h)
    ensures Sorted([h] + t)
  {
  }

  /** Python's `sorted(xs)`: a sorted permutation of `xs`. */
  function Sort(xs: seq<string>): (r: seq<string>)
    ensures Sorted(r)
    ensures multiset(r) == multiset(xs)
  {
    if xs == [] then []
    else
      assert xs == [xs[0]] + xs[1..];
      Insert(xs[0], Sort(xs[1..]))
  }

  function InsertUnique(x: string, s: seq<string>): (r: seq<string>)
    requires StrictlySorted(s)
    ensures StrictlySorted(r)
    ensures forall y :: y in r <==> y in s || y == x
  {
    if s == [] then [x]
    else if s[0] == x then s
    else if Less(x, s[0]) then
      forall j | 0 < j < |s| ensures Less(x, s[j]) {
        LessTransitive(x, s[0], s[j]);
      }
      [x] + s
    else
      LessTotal(x, s[0]);
      var rest := InsertUnique(x, s[1..]);
      forall j | 0 <= j < |rest| ensures Less(s[0], rest[j]) {
        assert rest[j] in rest;
      }
      assert s == [s[0]] + s[1..];
      [s[0]] + rest
  }

  /** Python's `sorted(set(xs))`: the distinct elements in increasing order. */
  function SortedSet(xs: seq<string>): (r: seq<string>)
    ensures StrictlySorted(r)
    ensures forall y :: y in r <==> y in xs
  {
    if xs == [] then []
    else
      assert xs == [xs[0]] + xs[1..];
      InsertUnique(xs[0], SortedSet(xs[1..]))
  }

  /** Two sorted arrangements of the same elements are the same list. */
  lemma {:induction false} SortedUnique(a: seq<string>, b: seq<string>)
    requires Sorted(a) && Sorted(b)
    requires multiset(a) == multiset(b)
    ensures a == b
    decreases |a|
  {
    if a != [] {
      SortedSameHead(a, b);
      MultisetTail(a);
      MultisetTail(b);
      SortedUnique(a[1..], b[1..]);
      assert a == [a[0]] + a[1..] && b == [b[0]] + b[1..];
    }
  }

  /** The tail holds the elements but the head. */
  lemma MultisetTail(a: seq<string>)
    requires a != []
    ensures multiset(a[1..]) == multiset(a) - multiset{a[0]}
  {
    assert a == [a[0]] + a[1..];
  }

  /** Two sorted arrangements of the same elements start alike. */
  lemma SortedSameHead(a: seq<string>, b: seq<string>)
    requires Sorted(a) && Sorted(b) && a != []
    requires multiset(a) == multiset(b)
    ensures b != [] && a[0] == b[0]
  {
    assert a[0] in multiset(b);
    assert |b| == |multiset(b)|;
    assert b[0] in multiset(a);
    var i :| 0 <= i < |b| && b[i] == a[0];
    var j :| 0 <= j < |a| && a[j] == b[0];
    assert i == 0 || !Less(a[0], b[0]);
    assert j == 0 || !Less(b[0], a[0]);
    LessTotal(a[0], b[0]);
  }

  /** `sorted` depends only on the elements, not on their input order. */
  lemma SortPermutationInvariant(xs: seq<string>, ys: seq<string>)
    requires multiset(xs) == multiset(ys)
    ensures Sort(xs) == Sort(ys)
  {
    SortedUnique(Sort(xs), Sort(ys));
  }
}

=== FILE: stability.dfy ===
/** Stability classification of a CI build: whether the build is on the
    master branch (or of a tag issued on it), and whether it is a stable
    release, which needs a tag whose version, read the way distutils'
    LooseVersion reads it, has only numeric components.
    Whether a tag's commit is in master's history is an oracle.
 */
module Stability {
  import opened Wrappers
  import opened Text

  /** A LooseVersion component: a number or a piece of text. */
  datatype Component = Num(n: nat) | Str(s: string)

  /** Length of the leading run of characters of `s` of the same class as `s[0]`. */
  function RunLen(s: string): (n: nat)
    requires s != [] && s[0] != '.'
    ensures 1 <= n <= |s|
    ensures forall i | 0 <= i < n :: IsDigit(s[i]) == IsDigit(s[0]) && IsLower(s[i]) == IsLower(s[0]) && s[i] != '.'
    decreases |s|
  {
    if |s| == 1 then 1
    else if (IsDigit(s[1]) == IsDigit(s[0])) && (IsLower(s[1]) == IsLower(s[0])) && s[1] != '.' then
      1 + RunLen(s[1..])
    else 1
  }

  function DigitValue(c: char): (v: nat)
    requires IsDigit(c)
    ensures v < 10
  {
    match c
    case '0' => 0 case '1' => 1 case '2' => 2 case '3' => 3 case '4' => 4
    case '5' => 5 case '6' => 6 case '7' => 7 case '8' => 8 case _ => 9
  }

  /** The value of a decimal digit string (Python's `int`). */
  function DigitsValue(s: string): nat
    requires forall c <- s :: IsDigit(c)
  {
    if s == [] then 0
    else
      assert s[|s| - 1] in s;
      assert forall c <- s[..|s| - 1] :: c in s;
      DigitsValue(s[..|s| - 1]) * 10 + DigitValue(s[|s| - 1])
  }

  /** LooseVersion's parse: digit runs become numbers, lower-case letter runs
      and runs of any other characters become text, dots are dropped. */
  function Tokenize(s: string): (r: seq<Component>)
    ensures |r| <= |s|
    ensures forall c <- r :: c.Str? ==> c.s != [] && '.' !in c.s && !IsDigit(c.s[0])
    decreases |s|
  {
    if s == [] then []
    else if s[0] == '.' then Tokenize(s[1..])
    else
      var n := RunLen(s);
      var piece := s[..n];
      (if IsDigit(s[0]) then [Num(DigitsValue(piece))] else [Str(piece)]) + Tokenize(s[n..])
  }

  /** LooseVersion's test for a component that is not an integer. */
  predicate HasText(cs: seq<Component>) {
    exists c <- cs :: c.Str?
  }

  /** A version has a text component exactly when it contains a character
      other than a digit or a dot. */
  lemma {:induction false} HasTextIffNonNumeric(s: string)
    ensures HasText(Tokenize(s)) <==> exists i | 0 <= i < |s| :: !IsDigit(s[i]) && s[i] != '.'
    decreases |s|
  {
    if s == [] {
    } else if s[0] == '.' {
      HasTextIffNonNumeric(s[1..]);
      assert forall i | 1 <= i < |s| :: s[i] == s[1..][i - 1];
      assert forall i | 0 <= i < |s| - 1 :: s[1..][i] == s[i + 1];
    } else {
      var n := RunLen(s);
      HasTextIffNonNumeric(s[n..]);
      assert forall i | n <= i < |s| :: s[i] == s[n..][i - n];
      assert forall i | 0 <= i < |s| - n :: s[n..][i] == s[i + n];
      var head := if IsDigit(s[0]) then [Num(DigitsValue(s[..n]))] else [Str(s[..n])];
      assert Tokenize(s) == head + Tokenize(s[n..]);
      if IsDigit(s[0]) {
        assert forall c <- head :: !c.Str?;
      } else {
        assert head[0] in Tokenize(s);
      }
    }
  }

  /** Whether the build is on master: with a tag, whether the tag's commit is
      in master's history (the oracle); without one, whether the ref is "master". */
  function IsMaster(refname: string, tag: Option<string>, tagInMaster: string -> bool): (r: bool)
    ensures tag.None? ==> (r <==> refname == "master")
    ensures tag.Some? ==> (r <==> tagInMaster(tag.value))
  {
    if tag.Some? then tagInMaster(tag.value) else refname == "master"
  }

  /** Whether the build is a stable release. Without a tag it never is. The
      tag's first character (normally 'v') is dropped whatever it is; an
      empty remainder makes LooseVersion fail. A remainder with any text
      component is a pre-release; otherwise the tag must be on master. */
  function IsStable(package: string, refname: string, tag: Option<string>, tagInMaster: string -> bool)
    : (r: Result<bool>)
    ensures tag.None? ==> r == Success(false)
    ensures r.Failure? <==> tag.Some? && |tag.value| <= 1
    ensures tag.Some? && |tag.value| >= 2 && HasText(Tokenize(tag.value[1..])) ==> r == Success(false)
    ensures tag.Some? && |tag.value| >= 2 && !HasText(Tokenize(tag.value[1..])) ==>
      r == Success(IsMaster(refname, tag, tagInMaster))
  {
    if tag.None? then Success(false)
    else
      var rest := tag.value[if |tag.value| == 0 then 0 else 1..];
      if rest == [] then Failure("AttributeError: 'LooseVersion' object has no attribute 'version'")
      else if HasText(Tokenize(rest)) then Success(false)
      else Success(IsMaster(refname, tag, tagInMaster))
  }

  /** A stable verdict needs a tag whose remainder is digits and dots only,
      issued on master. */
  lemma StableMeansNumericTagOnMaster(package: string, refname: string, tag: Option<string>, tagInMaster: string -> bool)
    requires IsStable(package, refname, tag, tagInMaster) == Success(true)
    ensures tag.Some? && |tag.value| >= 2
    ensures forall i | 1 <= i < |tag.value| :: IsDigit(tag.value[i]) || tag.value[i] == '.'
    ensures tagInMaster(tag.value)
  {
    var rest := tag.value[1..];
    HasTextIffNonNumeric(rest);
    assert forall i | 1 <= i < |tag.value| :: tag.value[i] == rest[i - 1];
  }

  /** A pre-release tag such as "v1.2.0rc1" is never stable, even on master. */
  lemma PrereleaseNeverStable(refname: string, tagInMaster: string -> bool)
    ensures IsStable("bob/bob.extension", refname, Some("v1.2.0rc1"), tagInMaster) == Success(false)
  {
    var rest := "v1.2.0rc1"[1..];
    assert rest[5] == 'r';
    HasTextIffNonNumeric(rest);
  }

  /** A numeric tag such as "v2.3.1" is stable exactly when issued on master. */
  lemma NumericTagStableIffOnMaster(refname: string, tagInMaster: string -> bool)
    ensures IsStable("bob/bob.extension", refname, Some("v2.3.1"), tagInMaster) == Success(tagInMaster("v2.3.1"))
  {
    var rest := "v2.3.1"[1..];
    assert rest == "2.3.1";
    HasTextIffNonNumeric(rest);
  }
}

=== FILE: text.dfy ===
/** The Python `str` operations the tooling relies on, over `seq<char>`.

Whitespace is the ASCII part of what `str.isspace()` accepts (space, tab, line
feed, vertical tab, form feed, carriage return and the four separators 0x1C to
0x1F) and digits are '0'..'9'; no other Unicode classification is modelled.
 */
module Text {

  /** Python's `c.isspace()` for the ASCII whitespace characters. */
  predicate IsSpace(c: char) {
    c == ' ' || c == '\t' || c == '\n' || c == '\r' || c == '\U{B}' || c == '\U{C}'
    || c == '\U{1C}' || c == '\U{1D}' || c == '\U{1E}' || c == '\U{1F}'
  }

  predicate IsDigit(c: char) {
    '0' <= c <= '9'
  }

  predicate IsLower(c: char) {
    'a' <= c <= 'z'
  }

  /** `s.startswith(p)` */
  predicate StartsWith(s: string, p: string) {
    |p| <= |s| && s[..|p|] == p
  }

  /** `s.endswith(p)` */
  predicate EndsWith(s: string, p: string) {
    |p| <= |s| && s[|s| - |p|..] == p
  }

  /** `p` occurs in `s` starting at index `i`. */
  predicate OccursAt(s: string, p: string, i: int) {
    0 <= i && i + |p| <= |s| && s[i..i + |p|] == p
  }

  /** Python's `p in s` for two strings. */
  predicate Contains(s: string, p: string) {
    exists i | 0 <= i <= |s| - |p| :: OccursAt(s, p, i)
  }

  /** The first index `>= i` where `p` occurs in `s`, or -1. */
  function FindFrom(s: string, p: string, i: nat): (r: int)
    requires i <= |s|
    ensures r == -1 || (i <= r && OccursAt(s, p, r))
    ensures forall j | i <= j < (if r == -1 then |s| + 1 else r) :: !OccursAt(s, p, j)
    decreases |s| - i
  {
    if OccursAt(s, p, i) then i
    else if i == |s| then -1
    else FindFrom(s, p, i + 1)
  }

  /** Python's `s.find(p)`: the lowest index where `p` occurs, or -1. */
  function Find(s: string, p: string): (r: int)
    ensures r == -1 <==> !Contains(s, p)
    ensures r >= 0 ==> OccursAt(s, p, r) && forall j | 0 <= j < r :: !OccursAt(s, p, j)
  {
    FindFrom(s, p, 0)
  }

  /** The first index of character `c` in `s`, or -1. */
  function IndexOf(s: string, c: char): (r: int)
    ensures -1 <= r < |s|
    ensures r == -1 <==> c !in s
    ensures r >= 0 ==> s[r] == c && c !in s[..r]
  {
    if s == [] then -1
    else if s[0] == c then 0
    else
      var k := IndexOf(s[1..], c);
      assert s[1..][..if k < 0 then 0 else k] == s[1..if k < 0 then 1 else k + 1];
      if k < 0 then -1 else k + 1
  }

  /** Python's `s.partition(c)[0]`: everything before the first `c`. */
  function Before(s: string, c: char): (r: string)
    ensures c !in r
    ensures c in s ==> |r| < |s| && r + [c] == s[..|r| + 1]
    ensures c !in s ==> r == s
  {
    var i := IndexOf(s, c);
    if i < 0 then s else s[..i]
  }

  /** Everything after the first `c`, the empty string when `c` is absent. */
  function After(s: string, c: char): (r: string)
    ensures c in s ==> Before(s, c) + [c] + r == s
  {
    var i := IndexOf(s, c);
    if i < 0 then [] else s[i + 1..]
  }

  /** Partitioning at a separator that follows a separator-free prefix. */
  lemma PartitionCons(x: string, c: char, y: string)
    requires c !in x
    ensures Before(x + [c] + y, c) == x
    ensures After(x + [c] + y, c) == y
  {
    var s := x + [c] + y;
    var i := IndexOf(s, c);
    assert s[|x|] == c;
    assert s[..|x|] == x;
    assert i <= |x| ==> s[..i] == x[..i];
    assert i == |x|;
    assert s[i + 1..] == y;
  }

  /** Python's `s.lstrip()`. */
  function LStrip(s: string): (r: string)
    ensures |r| <= |s| && r == s[|s| - |r|..]
    ensures forall i | 0 <= i < |s| - |r| :: IsSpace(s[i])
    ensures r == [] || !IsSpace(r[0])
  {
    if s == [] || !IsSpace(s[0]) then s else LStrip(s[1..])
  }

  /** Python's `s.rstrip()`. */
  function RStrip(s: string): (r: string)
    ensures |r| <= |s| && r == s[..|r|]
    ensures forall i | |r| <= i < |s| :: IsSpace(s[i])
    ensures r == [] || !IsSpace(r[|r| - 1])
  {
    if s == [] || !IsSpace(s[|s| - 1]) then s else RStrip(s[..|s| - 1])
  }

  /** Python's `s.strip()`: `s` without its leading and trailing whitespace. */
  function Strip(s: string): (r: string)
    ensures |r| <= |s|
    ensures Stripped(r)
  {
    var t := LStrip(s);
    var r := RStrip(t);
    assert r != [] ==> r[0] == t[0];
    r
  }

  /** Without leading or trailing whitespace. */
  predicate Stripped(s: string) {
    s == [] || (!IsSpace(s[0]) && !IsSpace(s[|s| - 1]))
  }

  /** A string without leading or trailing whitespace is its own strip. */
  lemma StripStripped(s: string)
    requires Stripped(s)
    ensures Strip(s) == s
  {
  }

  /** Nothing is left of an all-whitespace string. */
  lemma {:induction false} LStripAllSpace(s: string)
    requires forall c <- s :: IsSpace(c)
    ensures LStrip(s) == []
  {
    if s != [] {
      assert s[0] in s;
      assert forall c <- s[1..] :: c in s;
      LStripAllSpace(s[1..]);
    }
  }

  /** Leading whitespace before a non-blank text is all `lstrip` removes. */
  lemma {:induction false} LStripSkip(gap: string, t: string)
    requires (forall c <- gap :: IsSpace(c)) && (t == [] || !IsSpace(t[0]))
    ensures LStrip(gap + t) == t
  {
    if gap == [] {
      assert gap + t == t;
    } else {
      assert gap[0] in gap;
      assert forall c <- gap[1..] :: c in gap;
      assert (gap + t)[1..] == gap[1..] + t;
      LStripSkip(gap[1..], t);
    }
  }

  /** Stripping only removes characters, and only whitespace ones. */
  lemma StripChar(s: string, c: char)
    ensures c in Strip(s) ==> c in s
    ensures c in s && !IsSpace(c) ==> c in Strip(s)
  {
    if c in Strip(s) {
      StripCharFrom(s, c);
    }
    if c in s && !IsSpace(c) {
      StripCharKept(s, c);
    }
  }

  lemma StripCharFrom(s: string, c: char)
    requires c in Strip(s)
    ensures c in s
  {
    var t := LStrip(s);
    var r := RStrip(t);
    var i :| 0 <= i < |r| && r[i] == c;
    assert t[i] == c;
    assert s[|s| - |t| + i] == c;
  }

  lemma StripCharKept(s: string, c: char)
    requires c in s && !IsSpace(c)
    ensures c in Strip(s)
  {
    var t := LStrip(s);
    var r := RStrip(t);
    var k := |s| - |t|;
    var i :| 0 <= i < |s| && s[i] == c;
    assert k <= i;
    assert t[i - k] == c;
    assert i - k < |r|;
    assert r[i - k] == c;
  }

  /** The pieces around the first `c` hold only characters of `s`. */
  lemma PartitionChar(s: string, c: char, d: char)
    ensures d in Before(s, c) ==> d in s
    ensures d in After(s, c) ==> d in s
  {
    var i := IndexOf(s, c);
    if i >= 0 && d in s[i + 1..] {
      var j :| 0 <= j < |s| - i - 1 && s[i + 1..][j] == d;
      assert s[i + 1 + j] == d;
    }
    if i >= 0 && d in s[..i] {
      var j :| 0 <= j < i && s[..i][j] == d;
      assert s[j] == d;
    }
  }

  /** Length of the leading run of non-whitespace characters of `s`. */
  function WordLen(s: string): (n: nat)
    ensures n <= |s|
    ensures forall i | 0 <= i < n :: !IsSpace(s[i])
    ensures n == |s| || IsSpace(s[n])
  {
    if s == [] || IsSpace(s[0]) then 0 else 1 + WordLen(s[1..])
  }

  predicate IsWord(w: string) {
    w != [] && forall c <- w :: !IsSpace(c)
  }

  /** Python's `s.split()`: the maximal runs of non-whitespace characters. */
  function Words(s: string): (r: seq<string>)
    ensures forall w <- r :: IsWord(w)
    decreases |s|
  {
    if s == [] then []
    else if IsSpace(s[0]) then Words(s[1..])
    else
      var n := WordLen(s);
      assert s[0] in s[..n];
      [s[..n]] + Words(s[n..])
  }

  /** There are no more words than characters, and a text that is one
      word splits into itself. */
  lemma {:induction false} WordsShape(s: string)
    ensures |Words(s)| <= |s|
    ensures IsWord(s) ==> Words(s) == [s]
    decreases |s|
  {
    if s != [] {
      if IsSpace(s[0]) {
        WordsShape(s[1..]);
      } else {
        var n := WordLen(s);
        WordsShape(s[n..]);
        assert IsWord(s) ==> n == |s| && s[..n] == s;
      }
    }
  }

  /** A word followed by nothing or by whitespace splits off as the first
      word. */
  lemma WordsCons(w: string, rest: string)
    requires IsWord(w) && (rest == [] || IsSpace(rest[0]))
    ensures Words(w + rest) == [w] + Words(rest)
  {
    var s := w + rest;
    assert s[0] == w[0] && w[0] in w;
    assert LStrip(s) == s;
    WordLenPrefix(w, rest);
    assert s[..|w|] == w && s[|w|..] == rest;
  }

  lemma {:induction false} WordLenPrefix(w: string, rest: string)
    requires (forall c <- w :: !IsSpace(c)) && (rest == [] || IsSpace(rest[0]))
    ensures WordLen(w + rest) == |w|
  {
    if w != [] {
      assert w[0] in w;
      assert forall c <- w[1..] :: c in w;
      assert (w + rest)[1..] == w[1..] + rest;
      WordLenPrefix(w[1..], rest);
    } else {
      assert w + rest == rest;
    }
  }

  /** Leading whitespace does not change the words. */
  lemma {:induction false} WordsSkipSpace(gap: string, t: string)
    requires forall c <- gap :: IsSpace(c)
    ensures Words(gap + t) == Words(t)
  {
    if gap != [] {
      assert gap[0] in gap;
      assert forall c <- gap[1..] :: c in gap;
      assert (gap + t)[1..] == gap[1..] + t;
      WordsSkipSpace(gap[1..], t);
    } else {
      assert gap + t == t;
    }
  }

  /** A word followed by a space splits off as the first word. */
  lemma WordThenSpace(w: string, t: string)
    requires IsWord(w)
    ensures Words(w + " " + t) == [w] + Words(t)
  {
    assert w + " " + t == w + (" " + t);
    WordsCons(w, " " + t);
    WordsSkipSpace(" ", t);
  }

  /** The words `ws` laid out with whitespace `gaps` around and between them. */
  function Spread(gaps: seq<string>, ws: seq<string>): string
    requires |gaps| == |ws| + 1
  {
    if ws == [] then gaps[0] else gaps[0] + ws[0] + Spread(gaps[1..], ws[1..])
  }

  /** `Words` recovers the words of any such layout, in order: each is a maximal
      run of non-whitespace, and nothing else is a word. */
  lemma {:induction false} WordsOfSpread(gaps: seq<string>, ws: seq<string>)
    requires |gaps| == |ws| + 1
    requires forall g <- gaps, c <- g :: IsSpace(c)
    requires forall i | 0 < i < |ws| :: gaps[i] != []
    requires forall w <- ws :: IsWord(w)
    ensures Words(Spread(gaps, ws)) == ws
  {
    if ws == [] {
      WordsSkipSpace(gaps[0], []);
      assert gaps[0] + [] == gaps[0];
    } else {
      assert gaps[0] in gaps && ws[0] in ws;
      var rest := Spread(gaps[1..], ws[1..]);
      if |ws| > 1 {
        assert gaps[1] in gaps && gaps[1][0] in gaps[1];
        assert rest[0] == gaps[1][0];
      } else {
        assert rest == gaps[1];
        assert gaps[1] in gaps;
        assert rest == [] || rest[0] in gaps[1];
      }
      assert gaps[0] + ws[0] + rest == gaps[0] + (ws[0] + rest);
      WordsSkipSpace(gaps[0], ws[0] + rest);
      WordsCons(ws[0], rest);
      assert forall g <- gaps[1..] :: g in gaps;
      assert forall w <- ws[1..] :: w in ws;
      assert forall i | 0 < i < |ws[1..]| :: gaps[1..][i] == gaps[i + 1];
      WordsOfSpread(gaps[1..], ws[1..]);
    }
  }

  /** The whitespace around and between the words of `s`. */
  function Gaps(s: string): (r: seq<string>)
    ensures |r| == |Words(s)| + 1
    decreases |s|
  {
    if s == [] then [[]]
    else if IsSpace(s[0]) then
      var g := Gaps(s[1..]);
      [[s[0]] + g[0]] + g[1..]
    else [[]] + Gaps(s[WordLen(s)..])
  }

  /** Every string is such a layout of its own words, so `WordsOfSpread` pins
      `Words` down on every input. */
  lemma {:induction false} SpreadOfWords(s: string)
    ensures Spread(Gaps(s), Words(s)) == s
    ensures forall g <- Gaps(s), c <- g :: IsSpace(c)
    ensures forall i | 0 < i < |Words(s)| :: Gaps(s)[i] != []
  {
    SpreadGaps(s);
    GapsSpace(s);
    GapsApart(s);
  }

  lemma {:induction false} SpreadGaps(s: string)
    ensures Spread(Gaps(s), Words(s)) == s
    decreases |s|
  {
    if s == [] {
    } else if IsSpace(s[0]) {
      SpreadGaps(s[1..]);
      SpreadLead(s[0], Gaps(s[1..]), Words(s[1..]));
      assert [s[0]] + s[1..] == s;
    } else {
      var n := WordLen(s);
      assert s[0] in s[..n];
      SpreadGaps(s[n..]);
      SpreadWord(s[..n], Gaps(s[n..]), Words(s[n..]));
      assert s[..n] + s[n..] == s;
    }
  }

  lemma SpreadLead(c: char, g: seq<string>, ws: seq<string>)
    requires |g| == |ws| + 1
    ensures Spread([[c] + g[0]] + g[1..], ws) == [c] + Spread(g, ws)
  {
    var h := [[c] + g[0]] + g[1..];
    assert h[0] == [c] + g[0];
    if ws != [] {
      assert h[1..] == g[1..];
      var tail := Spread(g[1..], ws[1..]);
      AppendAssoc([c], g[0], ws[0]);
      AppendAssoc([c], g[0] + ws[0], tail);
      calc {
        Spread(h, ws);
        h[0] + ws[0] + tail;
        [c] + (g[0] + ws[0] + tail);
        [c] + Spread(g, ws);
      }
    }
  }

  lemma SpreadWord(w: string, g: seq<string>, ws: seq<string>)
    requires |g| == |ws| + 1
    ensures Spread([[]] + g, [w] + ws) == w + Spread(g, ws)
  {
    var h, vs := [[]] + g, [w] + ws;
    assert h[0] == [] && h[1..] == g;
    assert vs[0] == w && vs[1..] == ws;
    assert Spread(h, vs) == [] + w + Spread(g, ws);
  }

  lemma {:induction false} GapsSpace(s: string)
    ensures forall g <- Gaps(s), c <- g :: IsSpace(c)
    decreases |s|
  {
    if s == [] {
    } else if IsSpace(s[0]) {
      GapsSpace(s[1..]);
      var g := Gaps(s[1..]);
      forall h <- Gaps(s), c <- h ensures IsSpace(c) {
        if h == [s[0]] + g[0] {
          assert c == s[0] || c in g[0];
          assert g[0] in g;
        } else {
          assert h in g[1..];
          assert h in g;
        }
      }
    } else {
      GapsSpace(s[WordLen(s)..]);
    }
  }

  /** Between two words the gap is never empty. */
  lemma {:induction false} GapsApart(s: string)
    ensures forall i | 0 < i < |Words(s)| :: Gaps(s)[i] != []
    decreases |s|
  {
    if s == [] {
    } else if IsSpace(s[0]) {
      GapsApart(s[1..]);
      var g := Gaps(s[1..]);
      forall i | 0 < i < |Words(s)| ensures Gaps(s)[i] != [] {
        assert Gaps(s)[i] == g[i];
      }
    } else {
      var n := WordLen(s);
      assert s[0] in s[..n];
      GapsApart(s[n..]);
      var g := Gaps(s[n..]);
      var ws := Words(s[n..]);
      assert Words(s) == [s[..n]] + ws;
      if ws != [] {
        assert n < |s| && IsSpace(s[n]);
        GapsLead(s[n..]);
      }
      forall i | 0 < i < |Words(s)| ensures Gaps(s)[i] != [] {
        assert Gaps(s)[i] == g[i - 1];
      }
    }
  }

  /** A string that starts with whitespace has a non-empty first gap. */
  lemma GapsLead(s: string)
    requires s != [] && IsSpace(s[0])
    ensures Gaps(s)[0] != []
  {
  }

  /** Python's `sep.join(parts)`. */
  function Join(parts: seq<string>, sep: string): string {
    if |parts| == 0 then []
    else if |parts| == 1 then parts[0]
    else parts[0] + sep + Join(parts[1..], sep)
  }

  /** Concatenation of all parts (`"".join(parts)`). */
  function Concat(parts: seq<string>): string {
    if parts == [] then [] else parts[0] + Concat(parts[1..])
  }

  /** Python's `s.split(c)` for a one-character separator. */
  function SplitOn(s: string, c: char): (r: seq<string>)
    ensures |r| >= 1
    ensures forall piece <- r :: c !in piece
    ensures Join(r, [c]) == s
    decreases |s|
  {
    var i := IndexOf(s, c);
    if i < 0 then [s]
    else
      var rest := SplitOn(s[i + 1..], c);
      assert s == s[..i] + [c] + s[i + 1..];
      [s[..i]] + rest
  }

  /** Splitting at a separator that follows a separator-free prefix peels that prefix off. */
  lemma SplitOnCons(x: string, c: char, y: string)
    requires c !in x
    ensures SplitOn(x + [c] + y, c) == [x] + SplitOn(y, c)
  {
    var s := x + [c] + y;
    var i := IndexOf(s, c);
    assert s[|x|] == c;
    assert s[..|x|] == x;
    assert i <= |x| ==> s[..i] == x[..i];
    assert i == |x|;
    assert s[..i] == x;
    assert s[i + 1..] == y;
  }

  /** Joining pieces free of the separator and splitting again gives the
      pieces back. */
  lemma {:induction false} SplitJoin(parts: seq<string>, c: char)
    requires parts != [] && forall p <- parts :: c !in p
    ensures SplitOn(Join(parts, [c]), c) == parts
  {
    if |parts| == 1 {
      assert c !in parts[0];
      assert IndexOf(parts[0], c) < 0;
    } else {
      var rest := Join(parts[1..], [c]);
      assert parts[0] in parts;
      assert forall p <- parts[1..] :: p in parts;
      SplitJoin(parts[1..], c);
      assert Join(parts, [c]) == parts[0] + [c] + rest;
      SplitOnCons(parts[0], c, rest);
      assert parts == [parts[0]] + parts[1..];
    }
  }

  /** Lines joined and each terminated by `c` split into those lines and
      the empty text after the last terminator. */
  lemma SplitJoinSnoc(parts: seq<string>, c: char)
    requires parts != [] && forall p <- parts :: c !in p
    ensures SplitOn(Join(parts, [c]) + [c], c) == parts + [""]
  {
    JoinSnoc(parts, "", [c]);
    assert Join(parts, [c]) + [c] + "" == Join(parts, [c]) + [c];
    assert forall p <- parts + [""] :: p in parts || p == "";
    SplitJoin(parts + [""], c);
  }

  /** Appending a part to a non-empty join appends the separator and the
      part. */
  lemma {:induction false} JoinSnoc(parts: seq<string>, x: string, sep: string)
    requires parts != []
    ensures Join(parts + [x], sep) == Join(parts, sep) + sep + x
  {
    if |parts| > 1 {
      assert (parts + [x])[1..] == parts[1..] + [x];
      JoinSnoc(parts[1..], x, sep);
    }
  }

  /** Each part preceded by the separator: `sep + p0 + sep + p1 + ...`. */
  function Prefixed(parts: seq<string>, sep: string): string {
    if parts == [] then [] else sep + parts[0] + Prefixed(parts[1..], sep)
  }

  /** Python's `sep.join([""] + parts)` puts the separator before every
      part. */
  lemma {:induction false} JoinAfterEmpty(parts: seq<string>, sep: string)
    ensures Join([""] + parts, sep) == Prefixed(parts, sep)
  {
    if parts != [] {
      var tail := parts[1..];
      assert ([""] + parts)[1..] == parts;
      JoinAfterEmpty(tail, sep);
      assert parts == [parts[0]] + tail;
      if tail != [] {
        assert ([""] + tail)[1..] == tail;
      }
    }
  }

  /** A text framed by a head and a tail starts with the head and any
      prefix of the text, and ends with the tail. */
  lemma Framed(head: string, block: string, tail: string, p: string)
    requires StartsWith(block, p)
    ensures StartsWith(head + block + tail, head + p)
    ensures EndsWith(head + block + tail, tail)
  {
    var r := head + block + tail;
    assert r[..|head| + |p|] == head + p;
    assert r[|r| - |tail|..] == tail;
  }

  /** A join holds no character that neither the parts nor the separator
      hold. */
  lemma {:induction false} JoinKeepsOut(parts: seq<string>, sep: string, c: char)
    requires c !in sep && forall p <- parts :: c !in p
    ensures c !in Join(parts, sep)
  {
    if |parts| > 1 {
      assert parts[0] in parts;
      assert forall p <- parts[1..] :: p in parts;
      JoinKeepsOut(parts[1..], sep, c);
    } else if |parts| == 1 {
      assert parts[0] in parts;
    }
  }

  /** Leading and trailing whitespace around a text that neither starts
      nor ends with whitespace is all `strip` removes. */
  lemma StripPadded(indent: string, core: string)
    requires forall c <- indent :: IsSpace(c)
    requires core != [] && !IsSpace(core[0]) && !IsSpace(core[|core| - 1])
    ensures Strip(indent + core) == core
  {
    LStripSkip(indent, core);
  }

  /** An occurrence with none before it is the one `find` reports. */
  lemma FindIs(s: string, p: string, i: int)
    requires OccursAt(s, p, i) && forall j | 0 <= j < i :: !OccursAt(s, p, j)
    ensures Find(s, p) == i
  {
    assert i <= |s| - |p|;
  }

  /** Python's `s.replace(pat, "")`: occurrences removed left to right. */
  function RemoveAll(s: string, pat: string): (r: string)
    ensures |r| <= |s|
    ensures forall c <- r :: c in s
    decreases |s|
  {
    if pat == [] then s
    else if StartsWith(s, pat) then RemoveAll(s[|pat|..], pat)
    else if s == [] then []
    else [s[0]] + RemoveAll(s[1..], pat)
  }

  /** `RemoveAll` keeps the text before the first occurrence of `pat`, drops that
      occurrence and goes on after it; with no occurrence it returns `s` itself. */
  lemma RemoveAllFirst(s: string, pat: string)
    requires pat != []
    ensures Find(s, pat) < 0 ==> RemoveAll(s, pat) == s
    ensures Find(s, pat) >= 0 ==>
      RemoveAll(s, pat) == s[..Find(s, pat)] + RemoveAll(s[Find(s, pat) + |pat|..], pat)
  {
    RemoveAllAt(s, pat, Find(s, pat));
  }

  /** `RemoveAllFirst` with the index `find` reports named `k`. */
  lemma RemoveAllAt(s: string, pat: string, k: int)
    requires pat != [] && k == Find(s, pat)
    ensures k < 0 ==> RemoveAll(s, pat) == s
    ensures k >= 0 ==> RemoveAll(s, pat) == s[..k] + RemoveAll(s[k + |pat|..], pat)
  {
    if k >= 0 {
      RemoveAllBefore(s, pat, k);
    } else {
      forall j | 0 <= j ensures !OccursAt(s, pat, j) {
        if j <= |s| - |pat| {
          assert !OccursAt(s, pat, j);
        }
      }
      RemoveAllNone(s, pat);
    }
  }

  /** Up to the first occurrence, at `k`, nothing is removed. */
  lemma RemoveAllBefore(s: string, pat: string, k: nat)
    requires pat != [] && OccursAt(s, pat, k)
    requires forall j | 0 <= j < k :: !OccursAt(s, pat, j)
    ensures RemoveAll(s, pat) == s[..k] + RemoveAll(s[k + |pat|..], pat)
  {
    var u, v := s[..k], s[k..];
    assert s == u + v;
    RemoveAllKeeps(u, v, pat);
    RemoveAllFront(v, pat);
    assert v[|pat|..] == s[k + |pat|..];
  }

  /** A prefix in which no occurrence starts is kept as it is. */
  lemma {:induction false} RemoveAllKeeps(u: string, v: string, pat: string)
    requires pat != []
    requires forall j | 0 <= j < |u| :: !OccursAt(u + v, pat, j)
    ensures RemoveAll(u + v, pat) == u + RemoveAll(v, pat)
  {
    if u == [] {
      assert u + v == v;
    } else {
      var w := u + v;
      assert !OccursAt(w, pat, 0);
      assert w[1..] == u[1..] + v;
      NoneBeforeShift(w, pat, |u|);
      RemoveAllKeeps(u[1..], v, pat);
      RemoveAllStep(w, pat);
      AppendAssoc([u[0]], u[1..], RemoveAll(v, pat));
      assert [u[0]] + u[1..] == u;
    }
  }

  /** No occurrence before `k` in `s` means none before `k - 1` in `s[1..]`. */
  lemma NoneBeforeShift(s: string, p: string, k: nat)
    requires s != [] && 0 < k
    requires forall j | 0 <= j < k :: !OccursAt(s, p, j)
    ensures forall j | 0 <= j < k - 1 :: !OccursAt(s[1..], p, j)
  {
    forall j | 0 <= j < k - 1 ensures !OccursAt(s[1..], p, j) {
      OccursShift(s, p, j);
    }
  }

  /** Without an occurrence nothing is removed. */
  lemma {:induction false} RemoveAllNone(s: string, pat: string)
    requires pat != []
    requires forall j | 0 <= j :: !OccursAt(s, pat, j)
    ensures RemoveAll(s, pat) == s
  {
    if s != [] {
      assert !OccursAt(s, pat, 0);
      var t := s[1..];
      forall j | 0 <= j ensures !OccursAt(t, pat, j) {
        OccursShift(s, pat, j);
      }
      RemoveAllNone(t, pat);
      RemoveAllStep(s, pat);
      assert [s[0]] + t == s;
    } else {
      assert RemoveAll(s, pat) == [];
    }
  }

  /** Concatenation is associative. */
  lemma AppendAssoc(a: string, b: string, c: string)
    ensures a + (b + c) == (a + b) + c
  {
  }

  /** An occurrence at the front is dropped. */
  lemma RemoveAllFront(s: string, pat: string)
    requires pat != [] && OccursAt(s, pat, 0)
    ensures RemoveAll(s, pat) == RemoveAll(s[|pat|..], pat)
  {
    assert StartsWith(s, pat);
  }

  /** Without an occurrence at the front, the first character is kept. */
  lemma RemoveAllStep(s: string, pat: string)
    requires pat != [] && s != [] && !OccursAt(s, pat, 0)
    ensures RemoveAll(s, pat) == [s[0]] + RemoveAll(s[1..], pat)
  {
    assert !StartsWith(s, pat);
  }

  /** An occurrence in `s[1..]` is one in `s`, one index later. */
  lemma OccursShift(s: string, p: string, j: nat)
    requires s != []
    ensures OccursAt(s[1..], p, j) <==> OccursAt(s, p, j + 1)
  {
    if j + |p| <= |s| - 1 {
      assert s[1..][j..j + |p|] == s[j + 1..j + 1 + |p|];
    }
  }

  /** Python's `s.replace(a, b)` for single characters. */
  function ReplaceChar(s: string, a: char, b: char): (r: string)
    ensures |r| == |s|
    ensures forall i | 0 <= i < |s| :: r[i] == (if s[i] == a then b else s[i])
  {
    if s == [] then [] else [if s[0] == a then b else s[0]] + ReplaceChar(s[1..], a, b)
  }

  /** Python's `s[:i]`, negative indices counting from the end. */
  function PyPrefix(s: string, i: int): (r: string)
    ensures |r| <= |s| && r == s[..|r|]
  {
    if i < 0 then (if |s| + i < 0 then [] else s[..|s| + i])
    else if i > |s| then s
    else s[..i]
  }

  /** Python's `s[i:]`, negative indices counting from the end. */
  function PySuffix(s: string, i: int): (r: string)
    ensures |r| <= |s| && r == s[|s| - |r|..]
  {
    if i < 0 then (if |s| + i < 0 then s else s[|s| + i..])
    else if i > |s| then []
    else s[i..]
  }

  /** POSIX `os.path.join(a, b)` for a relative `b`. */
  function PathJoin(a: string, b: string): (r: string)
    ensures EndsWith(r, b)
    ensures StartsWith(r, a)
  {
    if a == [] || a[|a| - 1] == '/' then a + b else a + "/" + b
  }

  /** Python's `a < b` on strings: lexicographic comparison by code point. */
  predicate Less(a: string, b: string)
    decreases |a|
  {
    if a == [] then b != []
    else if b == [] then false
    else if a[0] != b[0] then a[0] < b[0]
    else Less(a[1..], b[1..])
  }

  lemma LessAsymmetric(a: string, b: string)
    ensures !(Less(a, b) && Less(b, a))
  {
  }

  lemma LessTotal(a: string, b: string)
    ensures a == b || Less(a, b) || Less(b, a)
  {
    if a != [] && b != [] && a[0] == b[0] {
      LessTotal(a[1..], b[1..]);
      assert a == [a[0]] + a[1..] && b == [b[0]] + b[1..];
    }
  }

  lemma LessTransitive(a: string, b: string, c: string)
    requires Less(a, b) && Less(b, c)
    ensures Less(a, c)
  {
    if a != [] && a[0] == b[0] && b[0] == c[0] {
      LessTransitive(a[1..], b[1..], c[1..]);
    }
  }

  /** "Not greater" is transitive: the order used by `sorted`. */
  lemma NotLessTransitive(a: string, b: string, c: string)
    requires !Less(b, a) && !Less(c, b)
    ensures !Less(c, a)
  {
    LessTotal(a, b);
    LessTotal(b, c);
    if Less(c, a) {
      if a == b {
        LessAsymmetric(b, c);
      } else if b == c {
        LessAsymmetric(a, b);
      } else {
        LessTransitive(a, b, c);
        LessAsymmetric(a, c);
      }
    }
  }
}

=== FILE: update_bob.dfy ===
/** The `update-bob` command: the order file of the nightlies lists the
    packages of the Bob meta package; the public ones are spliced into the
    meta package's `conda/meta.yaml` between two marker comments and written
    to its `requirements.txt`. The order file is given as its lines, the
    visibility of each project on the GitLab server as an oracle, and the
    two files as strings.
 */
module UpdateBob {
  import opened Wrappers
  import opened Text
  import opened OrderFile
  import opened Sections

  /** The meta package itself, never listed among its own packages. */
  const MetaPackage: string := "bob/bob"

  /** The group prefix removed from listed names. */
  const Group: string := "bob/"

  const StartTag: string := "# LIST OF BOB PACKAGES - START"
  const EndTag: string := "# LIST OF BOB PACKAGES - END"

  /** What precedes each listed package in `meta.yaml`. */
  const Item: string := "\n    - "

  /** What closes the list, indenting the end marker. */
  const Indent: string := "\n    "

  /** The name a package is listed under: its path with every "bob/"
      removed, in one left-to-right pass as `str.replace` does. */
  function ListedName(path: string): (r: string)
    ensures |r| <= |path|
    ensures forall c <- r :: c in path
    ensures Find(path, Group) < 0 ==> r == path
    ensures Find(path, Group) >= 0 ==>
      r == path[..Find(path, Group)] + ListedName(path[Find(path, Group) + |Group|..])
    decreases |path|
  {
    RemoveAllFirst(path, Group);
    RemoveAll(path, Group)
  }

  /** A pattern cannot occur where its last character does not. */
  lemma {:induction false} RemoveAllWithoutLast(s: string, pat: string)
    requires pat != [] && pat[|pat| - 1] !in s
    ensures RemoveAll(s, pat) == s
  {
    if s != [] {
      if |pat| <= |s| {
        assert s[|pat| - 1] in s;
      }
      assert forall c <- s[1..] :: c in s;
      RemoveAllWithoutLast(s[1..], pat);
    }
  }

  /** A project of the group is listed under its bare name. */
  lemma ListedNameOfGroupMember(name: string)
    requires '/' !in name
    ensures ListedName(Group + name) == name
  {
    assert (Group + name)[..|Group|] == Group;
    assert (Group + name)[|Group|..] == name;
    RemoveAllWithoutLast(name, Group);
  }

  /** Removal is a single pass: text that forms "bob/" only once an
      occurrence is removed is kept. */
  lemma RemovalIsSinglePass(path: string)
    requires path == "bobob/b/"
    ensures ListedName(path) == Group
  {
    assert path[..|Group|][3] != Group[3];
    assert path[1..][..|Group|][0] != Group[0];
    assert path[2..][..|Group|] == Group;
    var rest := path[2..][|Group|..];
    assert rest == "b/";
    assert rest[..|rest|] != Group;
    assert rest[1..] == "/" && |rest[1..]| < |Group|;
    assert RemoveAll(rest[1..], Group) == [rest[1]] + RemoveAll([], Group) == "/";
    assert RemoveAll(rest, Group) == "b/";
    assert RemoveAll(path[2..], Group) == "b/";
    assert RemoveAll(path[1..], Group) == "ob/";
    assert RemoveAll(path, Group) == "bob/";
  }

  /** Removal never introduces a character. */
  lemma {:induction false} RemoveAllKeepsOut(s: string, pat: string, c: char)
    requires c !in s
    ensures c !in RemoveAll(s, pat)
    decreases |s|
  {
    if pat != [] && s != [] {
      assert forall d <- s[1..] :: d in s;
      if StartsWith(s, pat) {
        assert forall d <- s[|pat|..] :: d in s;
        RemoveAllKeepsOut(s[|pat|..], pat, c);
      } else {
        RemoveAllKeepsOut(s[1..], pat, c);
      }
    }
  }

  /** The listed names, split by the projects' visibility. */
  datatype Lists = Lists(publicNames: seq<string>, privateNames: seq<string>)

  /** The two lists side by side. */
  function Both(a: Lists, b: Lists): Lists {
    Lists(a.publicNames + b.publicNames, a.privateNames + b.privateNames)
  }

  /** The listed names of the packages other than the meta package, in
      order-file order, public ones and the others apart. */
  function Partition(packages: seq<Entry>, isPublic: string -> bool): (r: Lists)
    ensures |r.publicNames| + |r.privateNames| <= |packages|
  {
    if packages == [] then Lists([], [])
    else
      var rest := Partition(packages[1..], isPublic);
      var p := packages[0].path;
      if p == MetaPackage then rest
      else if isPublic(p) then Lists([ListedName(p)] + rest.publicNames, rest.privateNames)
      else Lists(rest.publicNames, [ListedName(p)] + rest.privateNames)
  }

  /** Every package except the meta package lands in the public list when
      its project is public and in the other list otherwise, under its
      listed name, and nothing else is listed; without the meta package
      nothing is dropped. */
  lemma {:induction false} PartitionMembers(packages: seq<Entry>, isPublic: string -> bool)
    ensures var r := Partition(packages, isPublic);
      && (forall n <- r.publicNames :: exists e <- packages :: e.path != MetaPackage && isPublic(e.path) && n == ListedName(e.path))
      && (forall n <- r.privateNames :: exists e <- packages :: e.path != MetaPackage && !isPublic(e.path) && n == ListedName(e.path))
      && (forall e <- packages :: e.path != MetaPackage ==>
            ListedName(e.path) in (if isPublic(e.path) then r.publicNames else r.privateNames))
      && ((forall e <- packages :: e.path != MetaPackage) ==> |r.publicNames| + |r.privateNames| == |packages|)
  {
    if packages != [] {
      PartitionMembers(packages[1..], isPublic);
      assert forall e <- packages[1..] :: e in packages;
      assert forall e <- packages :: e == packages[0] || e in packages[1..];
    }
  }

  /** The lists of two pieces of an order file, one after the other, are
      those of the whole file. */
  lemma {:induction false} PartitionAppend(a: seq<Entry>, b: seq<Entry>, isPublic: string -> bool)
    ensures Partition(a + b, isPublic) == Both(Partition(a, isPublic), Partition(b, isPublic))
  {
    if a == [] {
      assert a + b == b;
    } else {
      assert (a + b)[0] == a[0];
      assert (a + b)[1..] == a[1..] + b;
      PartitionAppend(a[1..], b, isPublic);
      var x := Partition(a[1..], isPublic);
      var y := Partition(b, isPublic);
      var n := [ListedName(a[0].path)];
      assert n + x.publicNames + y.publicNames == n + (x.publicNames + y.publicNames);
      assert n + x.privateNames + y.privateNames == n + (x.privateNames + y.privateNames);
    }
  }

  /** The meta package is skipped wherever it appears in the order file. */
  lemma MetaPackageSkipped(a: seq<Entry>, branch: string, b: seq<Entry>, isPublic: string -> bool)
    ensures Partition(a + [Entry(MetaPackage, branch)] + b, isPublic) == Partition(a + b, isPublic)
  {
    PartitionAppend(a + [Entry(MetaPackage, branch)], b, isPublic);
    PartitionAppend(a, [Entry(MetaPackage, branch)], isPublic);
    PartitionAppend(a, b, isPublic);
    assert Partition([Entry(MetaPackage, branch)], isPublic) == Lists([], []);
    assert Partition(a, isPublic).publicNames + [] == Partition(a, isPublic).publicNames;
    assert Partition(a, isPublic).privateNames + [] == Partition(a, isPublic).privateNames;
  }

  /** The list as it appears in `meta.yaml`: one item line per package, then
      the indentation of the end marker. */
  function Block(names: seq<string>): string {
    Prefixed(names, Item) + Indent
  }

  /** The file holds both markers, the start marker ending before the end
      marker begins. */
  predicate Tagged(text: string) {
    MarkedBy(text, StartTag, EndTag)
  }

  /** The new `meta.yaml`: the list spliced in after the start marker, in
      place of what was up to the end marker. With both markers present,
      the text through the start marker and from the end marker on is
      kept and the item lines go in between. A missing marker counts as
      found at -1, as `str.find` reports it. */
  function SpliceMeta(text: string, names: seq<string>): (r: string)
    ensures Tagged(text) ==>
      r == text[..Find(text, StartTag) + |StartTag|] + Block(names) + text[Find(text, EndTag)..]
  {
    var i1 := Find(text, StartTag) + |StartTag|;
    var i2 := Find(text, EndTag);
    JoinAfterEmpty(names, Item);
    assert Tagged(text) ==> PyPrefix(text, i1) == text[..i1] && PySuffix(text, i2) == text[i2..];
    PyPrefix(text, i1) + Join([""] + names, Item) + Indent + PySuffix(text, i2)
  }

  /** Keeping the start marker and writing the list after it is rewriting
      the section from the start marker on. */
  lemma SpliceIsRewrite(text: string, names: seq<string>)
    requires Tagged(text)
    ensures SpliceMeta(text, names) == Rewritten(text, StartTag, EndTag, Block(names))
  {
    KeptStart(text, StartTag, EndTag, Block(names));
  }

  /** Splicing keeps the text through the start marker and from the end
      marker on. */
  lemma SplicePreserves(text: string, names: seq<string>)
    ensures Tagged(text) ==>
      && StartsWith(SpliceMeta(text, names), text[..Find(text, StartTag) + |StartTag|])
      && EndsWith(SpliceMeta(text, names), text[Find(text, EndTag)..])
  {
    if Tagged(text) {
      var head := text[..Find(text, StartTag) + |StartTag|];
      Framed(head, Block(names), text[Find(text, EndTag)..], []);
      assert head + [] == head;
    }
  }

  lemma {:induction false} NoHashInPrefixed(names: seq<string>)
    requires forall n <- names :: '#' !in n
    ensures '#' !in Prefixed(names, Item)
  {
    if names != [] {
      assert names[0] in names;
      assert forall n <- names[1..] :: n in names;
      NoHashInPrefixed(names[1..]);
      assert '#' !in Item;
    }
  }

  /** The list starts a new line and holds no '#'. */
  lemma BlockShape(names: seq<string>)
    requires forall n <- names :: '#' !in n
    ensures Body(Block(names))
  {
    NoHashInPrefixed(names);
    if names != [] {
      assert Block(names)[0] == Item[0];
    }
  }

  /** The end marker is a '#' comment on one line. */
  lemma MarkerShape()
    ensures Comment(EndTag)
  {
  }

  /** Splicing again replaces the list spliced before: the markers are
      still found where they were, so the last list wins and splicing the
      same list twice changes nothing. */
  lemma SpliceTwice(text: string, a: seq<string>, b: seq<string>)
    requires Tagged(text) && forall n <- a :: '#' !in n
    ensures Tagged(SpliceMeta(text, a))
    ensures SpliceMeta(SpliceMeta(text, a), b) == SpliceMeta(text, b)
  {
    BlockShape(a);
    MarkerShape();
    SpliceIsRewrite(text, a);
    RewriteTwice(text, StartTag, EndTag, Block(a), StartTag + Block(b));
    SpliceIsRewrite(SpliceMeta(text, a), b);
    SpliceIsRewrite(text, b);
  }

  /** `requirements.txt`: one public name per line. Read back line by
      line it gives the public names followed by the empty text after the
      last newline. */
  function RequirementsText(names: seq<string>): (r: string)
    ensures EndsWith(r, "\n")
    ensures names != [] && (forall n <- names :: '\n' !in n) ==> SplitOn(r, '\n') == names + [""]
  {
    if names != [] && forall n <- names :: '\n' !in n then
      SplitJoinSnoc(names, '\n');
      Join(names, "\n") + "\n"
    else
      Join(names, "\n") + "\n"
  }

  /** What the command produces: the new `meta.yaml`, the new
      `requirements.txt`, and the names reported as not public. */
  datatype Update = Update(meta: string, requirements: string, notPublic: seq<string>)

  /** The command on the order file's lines and the current `meta.yaml`:
      the public names go, in order, between the markers of `meta.yaml` and
      one per line into `requirements.txt`; the other names are the ones
      reported. */
  function Run(orderLines: seq<string>, isPublic: string -> bool, meta: string): (r: Update)
    ensures var lists := Partition(ReadPackages(orderLines), isPublic);
      && r.requirements == RequirementsText(lists.publicNames)
      && r.notPublic == lists.privateNames
      && (Tagged(meta) ==>
            r.meta == meta[..Find(meta, StartTag) + |StartTag|] + Block(lists.publicNames) + meta[Find(meta, EndTag)..])
    ensures forall e <- ReadPackages(orderLines) :: e.path != MetaPackage && !isPublic(e.path) ==> ListedName(e.path) in r.notPublic
  {
    PartitionMembers(ReadPackages(orderLines), isPublic);
    var lists := Partition(ReadPackages(orderLines), isPublic);
    Update(SpliceMeta(meta, lists.publicNames), RequirementsText(lists.publicNames), lists.privateNames)
  }

  /** No name read from an order file holds '#'. */
  lemma ListedNamesHaveNoHash(orderLines: seq<string>, isPublic: string -> bool)
    ensures forall n <- Partition(ReadPackages(orderLines), isPublic).publicNames :: '#' !in n
  {
    var packages := ReadPackages(orderLines);
    PartitionMembers(packages, isPublic);
    forall e <- packages {
      RemoveAllKeepsOut(e.path, Group, '#');
    }
  }

  /** Running the command again on the `meta.yaml` it wrote, with the same
      order file and visibilities, leaves the file as it is. */
  lemma RunIdempotent(orderLines: seq<string>, isPublic: string -> bool, meta: string)
    requires Tagged(meta)
    ensures Run(orderLines, isPublic, Run(orderLines, isPublic, meta).meta).meta == Run(orderLines, isPublic, meta).meta
  {
    var names := Partition(ReadPackages(orderLines), isPublic).publicNames;
    ListedNamesHaveNoHash(orderLines, isPublic);
    SpliceTwice(meta, names, names);
  }
}

=== FILE: update_pins.dfy ===
/** The `update-pins` command: mamba is asked, in a dry run, which versions
    it would install for the packages of the build configuration; the
    packages it reports are written back as pins into the automatically
    maintained section of `conda_build_config.yaml`. The configuration's
    package list and name map, mamba's report and the file's text are
    inputs; mamba itself is an oracle from its command line to its output.
 */
module UpdatePins {
  import opened Wrappers
  import opened Text
  import Sections

  /** A package mamba reports it would install, with its version. */
  datatype Pin = Pin(name: string, version: string)

  /** `package_names_map`: configuration key to conda package name, in the
      order of the file. */
  type NameMap = seq<(string, string)>

  /** The comment block that opens the automatic section. */
  const Start: string := "\n# AUTOMATIC PARSING START\n# DO NOT MODIFY THIS COMMENT\n\n# list all packages with dashes or dots in their names, here:"

  /** The comment that closes the automatic section. */
  const EndMarker: string := "# AUTOMATIC PARSING END"

  /** How mamba marks a package it would add. */
  const AddedMark: string := "+ "

  /** The mamba command line: a dry run creating a throw-away environment
      from conda-forge alone, with the requested Python and the packages. */
  function MambaCommand(python: string, packages: seq<string>): (r: seq<string>)
    ensures |r| == 9 + |packages|
    ensures r[..2] == ["mamba", "create"] && "--dry-run" in r
    ensures r[3..6] == ["--override-channels", "-c", "conda-forge"]
    ensures r[8] == "python=" + python && r[9..] == packages
  {
    ["mamba", "create", "--dry-run", "--override-channels", "-c", "conda-forge", "-n", "temp_env", "python=" + python]
      + packages
  }

  /** One line of mamba's report: after stripping, a line starting with
      "+ " names a package and its version as its second and third words;
      such a line with fewer words raises IndexError; any other line says
      nothing. */
  function ParseLine(line: string): (r: Result<Option<Pin>>)
    ensures r.Failure? <==> StartsWith(Strip(line), AddedMark) && |Words(Strip(line))| < 3
    ensures r == Success(None) <==> !StartsWith(Strip(line), AddedMark)
    ensures r.Success? && r.value.Some? ==> IsWord(r.value.value.name) && IsWord(r.value.value.version)
  {
    var l := Strip(line);
    if !StartsWith(l, AddedMark) then Success(None)
    else
      var w := Words(l);
      if |w| < 3 then Failure("IndexError: list index out of range")
      else Success(Some(Pin(w[1], w[2])))
  }

  /** Three words apart, then nothing or whitespace: the first three words. */
  lemma ThreeWords(a: string, b: string, c: string, tail: string)
    requires IsWord(a) && IsWord(b) && IsWord(c) && (tail == [] || IsSpace(tail[0]))
    ensures var w := Words(a + " " + (b + " " + (c + tail)));
      |w| >= 3 && w[0] == a && w[1] == b && w[2] == c
  {
    WordsCons(c, tail);
    WordThenSpace(b, c + tail);
    WordThenSpace(a, b + " " + (c + tail));
    var w := [a] + ([b] + ([c] + Words(tail)));
    assert w[0] == a && w[1] == b && w[2] == c;
  }

  /** An indented report line "+ name version ..." gives that package and
      version. */
  lemma ParseReportLine(indent: string, name: string, version: string, tail: string)
    requires forall c <- indent :: IsSpace(c)
    requires IsWord(name) && IsWord(version)
    requires tail == [] || (IsSpace(tail[0]) && !IsSpace(tail[|tail| - 1]))
    ensures ParseLine(indent + AddedMark + name + " " + version + tail) == Success(Some(Pin(name, version)))
  {
    var rest := name + " " + (version + tail);
    var core := AddedMark + rest;
    assert indent + AddedMark + name + " " + version + tail == indent + core;
    ReportLineShape(rest, name, version, tail);
    StripPadded(indent, core);
    ParseAdded(indent + core, core);
  }

  /** "+ name version ..." neither starts nor ends with whitespace, starts
      with the mark, and has the name and version as its second and third
      words. */
  lemma ReportLineShape(rest: string, name: string, version: string, tail: string)
    requires IsWord(name) && IsWord(version)
    requires tail == [] || (IsSpace(tail[0]) && !IsSpace(tail[|tail| - 1]))
    requires rest == name + " " + (version + tail)
    ensures var core := AddedMark + rest;
      && core != [] && !IsSpace(core[0]) && !IsSpace(core[|core| - 1])
      && StartsWith(core, AddedMark)
      && |Words(core)| >= 3 && Words(core)[1] == name && Words(core)[2] == version
  {
    var core := AddedMark + rest;
    assert core == "+" + " " + rest;
    ReportLineEnds(name, version, tail);
    assert IsWord("+");
    ThreeWords("+", name, version, tail);
  }

  /** A line that strips to an added-package line of three or more words
      gives its second and third words. */
  lemma ParseAdded(line: string, core: string)
    requires Strip(line) == core && StartsWith(core, AddedMark) && |Words(core)| >= 3
    ensures ParseLine(line) == Success(Some(Pin(Words(core)[1], Words(core)[2])))
  {
  }

  lemma ReportLineEnds(name: string, version: string, tail: string)
    requires IsWord(version)
    requires tail == [] || !IsSpace(tail[|tail| - 1])
    ensures var core := "+" + " " + (name + " " + (version + tail));
      core != [] && !IsSpace(core[0]) && !IsSpace(core[|core| - 1])
  {
    var core := "+" + " " + (name + " " + (version + tail));
    if tail == [] {
      assert core[|core| - 1] == version[|version| - 1] && version[|version| - 1] in version;
    } else {
      assert core[|core| - 1] == tail[|tail| - 1];
    }
  }

  /** The values `parse` finds in `lines`, in order, or the first failure. */
  function ParseAll(lines: seq<string>, parse: string -> Result<Option<Pin>>): (r: Result<seq<Pin>>)
    ensures r.Success? <==> forall l <- lines :: parse(l).Success?
    ensures r.Success? ==> |r.value| <= |lines|
  {
    if lines == [] then Success([])
    else
      var head := parse(lines[0]);
      assert lines[0] in lines;
      if head.Failure? then Failure(head.error)
      else
        var rest :- ParseAll(lines[1..], parse);
        assert forall l <- lines :: l == lines[0] || l in lines[1..];
        Success((if head.value.Some? then [head.value.value] else []) + rest)
  }

  /** Every value found comes from a line of the input, and every value a
      line yields is found. */
  lemma {:induction false} ParseAllFrom(lines: seq<string>, parse: string -> Result<Option<Pin>>)
    ensures ParseAll(lines, parse).Success? ==>
      forall p <- ParseAll(lines, parse).value :: exists l <- lines :: parse(l) == Success(Some(p))
    ensures ParseAll(lines, parse).Success? ==>
      forall l <- lines :: parse(l).Success? && parse(l).value.Some? ==> parse(l).value.value in ParseAll(lines, parse).value
  {
    if lines != [] && ParseAll(lines, parse).Success? {
      ParseAllFrom(lines[1..], parse);
      assert lines[0] in lines;
      assert forall l <- lines[1..] :: l in lines;
      assert forall l <- lines :: l == lines[0] || l in lines[1..];
    }
  }

  /** Parsing is line by line: the pins of two pieces of a report are those
      of the whole, and the first failure is the whole's failure. */
  lemma {:induction false} ParseAllAppend(a: seq<string>, b: seq<string>, parse: string -> Result<Option<Pin>>)
    ensures ParseAll(a, parse).Failure? ==> ParseAll(a + b, parse) == ParseAll(a, parse)
    ensures ParseAll(a, parse).Success? && ParseAll(b, parse).Success? ==>
      ParseAll(a + b, parse) == Success(ParseAll(a, parse).value + ParseAll(b, parse).value)
  {
    if a == [] {
      assert a + b == b;
      if ParseAll(b, parse).Success? {
        assert [] + ParseAll(b, parse).value == ParseAll(b, parse).value;
      }
    } else {
      var ab := a + b;
      assert ab[0] == a[0];
      assert ab[1..] == a[1..] + b;
      ParseAllAppend(a[1..], b, parse);
      var ra, rb := ParseAll(a[1..], parse), ParseAll(b, parse);
      if parse(a[0]).Success? && ra.Success? && rb.Success? {
        var h := if parse(a[0]).value.Some? then [parse(a[0]).value.value] else [];
        assert ParseAll(ab[1..], parse) == Success(ra.value + rb.value);
        assert h + ra.value + rb.value == h + (ra.value + rb.value);
      }
    }
  }

  /** The packages of mamba's report, line by line. */
  function Resolved(report: string): (r: Result<seq<Pin>>)
    ensures r.Success? <==> forall l <- SplitOn(report, '\n') :: ParseLine(l).Success?
    ensures r.Success? ==> forall p <- r.value :: IsWord(p.name) && IsWord(p.version)
    ensures r.Success? ==> forall l <- SplitOn(report, '\n') ::
      ParseLine(l).Success? && ParseLine(l).value.Some? ==> ParseLine(l).value.value in r.value
  {
    ParseAllFrom(SplitOn(report, '\n'), ParseLine);
    ParseAll(SplitOn(report, '\n'), ParseLine)
  }

  /** `{v: k for k, v in m.items()}`: conda name back to configuration key;
      for a name given twice the later key wins. */
  function Reverse(m: NameMap): (r: map<string, string>)
    ensures r.Keys == set p <- m :: p.1
    ensures forall v <- r :: (r[v], v) in m
  {
    if m == [] then map[]
    else
      var init := m[..|m| - 1];
      var last := m[|m| - 1];
      assert forall p <- m :: p == last || p in init;
      assert forall p <- init :: p in m;
      Reverse(init)[last.1 := last.0]
  }

  /** A key whose name no later entry repeats is what the name maps back
      to. */
  lemma {:induction false} ReverseLastWins(m: NameMap, i: nat)
    requires i < |m| && forall j | i < j < |m| :: m[j].1 != m[i].1
    ensures Reverse(m)[m[i].1] == m[i].0
  {
    var init := m[..|m| - 1];
    if i < |m| - 1 {
      assert init[i] == m[i];
      assert forall j | i < j < |init| :: init[j] == m[j];
      ReverseLastWins(init, i);
    }
  }

  /** With distinct names, reversing inverts the map: each name maps back
      to its own key. */
  lemma ReverseInverts(m: NameMap)
    requires forall i, j | 0 <= i < j < |m| :: m[i].1 != m[j].1
    ensures forall i | 0 <= i < |m| :: Reverse(m)[m[i].1] == m[i].0
  {
    forall i | 0 <= i < |m| ensures Reverse(m)[m[i].1] == m[i].0 {
      ReverseLastWins(m, i);
    }
  }

  /** The pin of one package, under its configuration key when it has one:
      read line by line, a YAML key and one list item holding the version. */
  function PinText(rev: map<string, string>, p: Pin): (r: string)
    ensures var key := if p.name in rev then rev[p.name] else p.name;
      '\n' !in key && '\n' !in p.version ==> SplitOn(r, '\n') == [key + ":", "  - " + p.version]
  {
    var key := if p.name in rev then rev[p.name] else p.name;
    var r := key + ":\n  - " + p.version;
    assert r == (key + ":") + ['\n'] + ("  - " + p.version);
    if '\n' !in key && '\n' !in p.version then
      assert '\n' !in key + ":" && '\n' !in "  - " + p.version;
      SplitOnCons(key + ":", '\n', "  - " + p.version);
      r
    else
      r
  }

  /** The pins written: one per reported package of the configuration, in
      mamba's order. */
  function PinTexts(resolved: seq<Pin>, packages: seq<string>, rev: map<string, string>): (r: seq<string>)
    ensures |r| <= |resolved|
    ensures forall t <- r :: exists p <- resolved :: p.name in packages && t == PinText(rev, p)
    ensures forall p <- resolved :: p.name in packages ==> PinText(rev, p) in r
  {
    if resolved == [] then []
    else
      var rest := PinTexts(resolved[1..], packages, rev);
      assert forall p <- resolved[1..] :: p in resolved;
      assert forall p <- resolved :: p == resolved[0] || p in resolved[1..];
      (if resolved[0].name in packages then [PinText(rev, resolved[0])] else []) + rest
  }

  /** Pins follow the report: those of two pieces of it, one after the
      other, are those of the whole. */
  lemma {:induction false} PinTextsAppend(a: seq<Pin>, b: seq<Pin>, packages: seq<string>, rev: map<string, string>)
    ensures PinTexts(a + b, packages, rev) == PinTexts(a, packages, rev) + PinTexts(b, packages, rev)
  {
    if a == [] {
      assert a + b == b;
    } else {
      assert (a + b)[0] == a[0];
      assert (a + b)[1..] == a[1..] + b;
      PinTextsAppend(a[1..], b, packages, rev);
      var h := if a[0].name in packages then [PinText(rev, a[0])] else [];
      assert h + PinTexts(a[1..], packages, rev) + PinTexts(b, packages, rev)
        == h + (PinTexts(a[1..], packages, rev) + PinTexts(b, packages, rev));
    }
  }

  /** The lines of `package_names_map`, one "  key: name" per entry. */
  function MapLines(m: NameMap): (r: seq<string>)
    ensures |r| == |m|
    ensures forall i | 0 <= i < |m| :: r[i] == "  " + m[i].0 + ": " + m[i].1
  {
    if m == [] then [] else ["  " + m[0].0 + ": " + m[0].1] + MapLines(m[1..])
  }

  /** What follows the start marker in the new section. */
  function Body(m: NameMap, pins: seq<string>): (r: string)
    ensures StartsWith(r, "\npackage_names_map:\n")
    ensures EndsWith(r, "\n\n")
  {
    "\npackage_names_map:\n" + Join(MapLines(m), "\n") + "\n\n\n" + Join(pins, "\n") + "\n\n"
  }

  /** The configuration holds both markers of the automatic section. */
  predicate Marked(text: string) {
    Sections.MarkedBy(text, Start, EndMarker)
  }

  /** Everything before the start marker and from the end marker on is
      kept, and the section in between is replaced by `block`. A missing
      marker counts as found at -1, as `str.find` reports it. */
  function SpliceBetween(text: string, start: string, end: string, block: string): (r: string)
    ensures Sections.MarkedBy(text, start, end) ==> r == Sections.Replaced(text, start, end, block)
  {
    PyPrefix(text, Find(text, start)) + block + PySuffix(text, Find(text, end))
  }

  /** The new configuration text around a new automatic section. */
  function Splice(text: string, block: string): (r: string)
    ensures Marked(text) ==> r == Sections.Replaced(text, Start, EndMarker, block)
  {
    SpliceBetween(text, Start, EndMarker, block)
  }

  /** The command: ask mamba, read its report, and splice the new section
      into the configuration text. */
  function Run(python: string, packages: seq<string>, names: NameMap, mamba: seq<string> -> Result<string>, text: string)
    : (r: Result<string>)
    ensures r.Failure? <==>
      mamba(MambaCommand(python, packages)).Failure? || Resolved(mamba(MambaCommand(python, packages)).value).Failure?
    ensures r.Success? && Marked(text) ==>
      && StartsWith(r.value, text[..Find(text, Start)] + Start)
      && EndsWith(r.value, text[Find(text, EndMarker)..])
    ensures r.Success? && Marked(text) ==>
      var resolved := Resolved(mamba(MambaCommand(python, packages)).value).value;
      r.value == Sections.Replaced(text, Start, EndMarker, Start + Body(names, PinTexts(resolved, packages, Reverse(names))))
  {
    var report :- mamba(MambaCommand(python, packages));
    var resolved :- Resolved(report);
    var pins := PinTexts(resolved, packages, Reverse(names));
    var r := Splice(text, Start + Body(names, pins));
    SplicePreserves(text, Start + Body(names, pins));
    Success(r)
  }

  lemma SplicePreserves(text: string, block: string)
    requires StartsWith(block, Start)
    ensures Marked(text) ==>
      && StartsWith(Splice(text, block), text[..Find(text, Start)] + Start)
      && EndsWith(Splice(text, block), text[Find(text, EndMarker)..])
  {
    if Marked(text) {
      Framed(text[..Find(text, Start)], block, text[Find(text, EndMarker)..], Start);
    }
  }

  /** The end marker is a '#' comment on one line. */
  lemma MarkerShape()
    ensures Sections.Comment(EndMarker)
  {
  }

  /** The lines of the name map hold no '#' when no key or name does. */
  lemma {:induction false} MapLinesShape(m: NameMap)
    requires forall p <- m :: '#' !in p.0 && '#' !in p.1
    ensures forall t <- MapLines(m) :: '#' !in t
  {
    if m != [] {
      assert m[0] in m;
      MapLineShape(m[0].0, m[0].1);
      assert forall p <- m[1..] :: p in m;
      MapLinesShape(m[1..]);
    }
  }

  lemma MapLineShape(key: string, name: string)
    requires '#' !in key && '#' !in name
    ensures '#' !in "  " + key + ": " + name
  {
    assert '#' !in "  " && '#' !in ": ";
  }

  /** The body of a section holds no '#' when no key, name or pin does. */
  lemma BodyShape(m: NameMap, pins: seq<string>)
    requires forall p <- m :: '#' !in p.0 && '#' !in p.1
    requires forall t <- pins :: '#' !in t
    ensures Sections.Body(Body(m, pins))
  {
    var head := "\npackage_names_map:\n";
    var lines := Join(MapLines(m), "\n");
    var pinLines := Join(pins, "\n");
    MapLinesShape(m);
    JoinKeepsOut(MapLines(m), "\n", '#');
    JoinKeepsOut(pins, "\n", '#');
    assert '#' !in head;
    assert '#' !in "\n\n\n" && '#' !in "\n\n";
    assert Body(m, pins) == head + lines + "\n\n\n" + pinLines + "\n\n";
  }

  /** A pin holds no '#' when the package, its key and its version hold
      none. */
  lemma PinTextsShape(resolved: seq<Pin>, packages: seq<string>, m: NameMap)
    requires forall p <- m :: '#' !in p.0
    requires forall p <- resolved :: '#' !in p.name && '#' !in p.version
    ensures forall t <- PinTexts(resolved, packages, Reverse(m)) :: '#' !in t
  {
    var rev := Reverse(m);
    forall t <- PinTexts(resolved, packages, rev) ensures '#' !in t {
      var p :| p in resolved && p.name in packages && t == PinText(rev, p);
      if p.name in rev {
        assert (rev[p.name], p.name) in m;
      }
      assert '#' !in ":\n  - ";
    }
  }

  /** Splicing again replaces the section spliced before, so splicing the
      same section twice changes nothing. */
  lemma SpliceTwice(text: string, m: NameMap, pins: seq<string>, block: string)
    requires Marked(text)
    requires forall p <- m :: '#' !in p.0 && '#' !in p.1
    requires forall t <- pins :: '#' !in t
    ensures Marked(Splice(text, Start + Body(m, pins)))
    ensures Splice(Splice(text, Start + Body(m, pins)), block) == Splice(text, block)
  {
    BodyShape(m, pins);
    MarkerShape();
    Sections.RewriteTwice(text, Start, EndMarker, Body(m, pins), block);
  }

  /** Running the command again on the text it wrote, with the same
      configuration and the same report, leaves the text as it is, provided
      no key, package name or version holds '#'. */
  lemma RunIdempotent(python: string, packages: seq<string>, names: NameMap, mamba: seq<string> -> Result<string>, text: string)
    requires Marked(text) && Run(python, packages, names, mamba, text).Success?
    requires forall p <- names :: '#' !in p.0 && '#' !in p.1
    requires forall p <- Resolved(mamba(MambaCommand(python, packages)).value).value :: '#' !in p.name && '#' !in p.version
    ensures var once := Run(python, packages, names, mamba, text).value;
      Run(python, packages, names, mamba, once) == Success(once)
  {
    var resolved := Resolved(mamba(MambaCommand(python, packages)).value).value;
    var pins := PinTexts(resolved, packages, Reverse(names));
    PinTextsShape(resolved, packages, names);
    SpliceTwice(text, names, pins, Start + Body(names, pins));
  }
}

=== FILE: wrappers.dfy ===
/** Failure-compatible result types shared by every module of the model.

- Option<T>: a Python value that may be `None`.
- Result<T>: a computation that either returns a value or raises; the error
  carries the message (or exception name) the Python code raises.
 */
module Wrappers {

  datatype Option<+T> = None | Some(value: T) {

    predicate IsFailure() {
      None?
    }

    function PropagateFailure<U>(): Option<U>
      requires None?
    {
      None
    }

    function Extract(): T
      requires Some?
    {
      value
    }
  }

  datatype Result<+T> = Success(value: T) | Failure(error: string) {

    predicate IsFailure() {
      Failure?
    }

    function PropagateFailure<U>(): Result<U>
      requires Failure?
    {
      Failure(error)
    }

    function Extract(): T
      requires Success?
    {
      value
    }
  }
}
